=== FILE: README.md ===
# astrify/ui core, modelled in Dafny

This project models the small, pure pieces of logic in the astrify/ui
starter kit. The kit is a Laravel application with a React/Inertia front
end that ships an S3 direct-upload flow, paginated tables, a JSON-backed
combobox and an MDX documentation site. The model covers:

- **Inertia cache variant.** The server middleware strips the `__icv`
  query parameter, marks partial reloads `no-store`, compiles route URIs
  into anchored client regular expressions and shares them. On the client,
  the hook reads those settings and tags cacheable full GET visits with
  `__icv=1`.
- **Signed-URL endpoint.** Request validation, the object key
  `uploads/<lowercase sha256>`, and the `ChecksumSHA256` value. That
  value is the Base64 encoding (section 4 of RFC 4648) of the hex-decoded
  digest. The model also covers the signer's header blacklist and the
  document-creation validator.
- **Upload UI helpers.** The rejection messages, accept-map
  descriptions, dropzone text and settings, header and list rules, the
  submit gating of both upload forms, and the test doubles that stand in
  for the upload library.
- **Pagination.** The paginator and its copy inside the paginated table,
  the numeric and simple tables, the preview's windowed link generator,
  the simple-table demo and the JSON table's state machine.
- **Combobox.** `mergeWithSelected`, selection, the fetch cache, and the
  preview's starts-with filter.
- **Docs.** TOC reading and flattening, the heading slug, the link
  classifier, the code-block dispatch and the manifest lookup.
- **Installer.** The `react-s3-upload:install` command: the exit codes,
  copying the controllers, and appending the route block at most once.

Each module follows one source file. Helpers duplicated across files are
defined once; each copy is written out again and proved equal to that
definition. Library calls the code relies on become function parameters:
`http_build_query`, `new RegExp`, `RegExp.test`, `encodeURIComponent`,
`formatBytes`, `Math.round`, the presigner, `json_decode`, and the user's
answer to a confirm prompt. The shared modules are `Text` (strings and
numbers), `JsonValue` (JSON and JavaScript values) and `Base64`.

## Model

| member | source | states |
|---|---|---|
| InertiaMiddleware.RemoveParam | app/Http/Middleware/HandleInertiaRequests.php:33 | no entry with the key survives, every entry with another key is kept, and nothing is added: exactly the entries with another key remain |
| InertiaMiddleware.RemoveParamInserted | app/Http/Middleware/HandleInertiaRequests.php:33 | inserting a key/value pair anywhere in a query makes no difference once that key is removed |
| InertiaMiddleware.Handle | app/Http/Middleware/HandleInertiaRequests.php:31-45 | the inner handler sees the request without `__icv`; a partial reload gets exactly the three no-store headers added, with the body and other headers kept; any other response passes through unchanged |
| InertiaMiddleware.HandleIgnoresVariant | app/Http/Middleware/HandleInertiaRequests.php:33-36 | adding `__icv` anywhere in the query does not change the response |
| InertiaMiddleware.ResolveUrl | app/Http/Middleware/HandleInertiaRequests.php:60-75 | the bare path when nothing but `__icv` was in the query, otherwise path + '?' + the built remaining query |
| InertiaMiddleware.ResolveUrlIgnoresVariant | app/Http/Middleware/HandleInertiaRequests.php:62-74 | adding `__icv` to a request never changes its reported page URL |
| InertiaMiddleware.ResolveUrlOfVariantOnly | app/Http/Middleware/HandleInertiaRequests.php:62-71 | `/?__icv=1` is reported as `/` |
| InertiaMiddleware.UnquotePregQuote | app/Http/Middleware/HandleInertiaRequests.php:143 | a literal segment's escaping is lossless: removing the backslashes gives the segment back |
| InertiaMiddleware.PregQuote | app/Http/Middleware/HandleInertiaRequests.php:143 | `preg_quote` with '/' as delimiter: a leading special character or delimiter gets a backslash, and the result is never shorter |
| InertiaMiddleware.PregQuotePlainText | app/Http/Middleware/HandleInertiaRequests.php:143 | text without special characters, the delimiter or NUL passes through `preg_quote` unchanged |
| InertiaMiddleware.RoutePath | app/Http/Middleware/HandleInertiaRequests.php:132 | the path always starts with '/' |
| InertiaMiddleware.ParameterInner | app/Http/Middleware/HandleInertiaRequests.php:142 | a parameter name is found only when the segment is `{name}`, where PCRE's `$` also allows one trailing newline |
| InertiaMiddleware.ParameterInnerOfBraced | app/Http/Middleware/HandleInertiaRequests.php:142 | every `{name}` segment is recognised, with that name |
| InertiaMiddleware.ParameterInnerOfPlain | app/Http/Middleware/HandleInertiaRequests.php:142 | a segment without '{' is a literal |
| InertiaMiddleware.ParameterSegmentPattern | app/Http/Middleware/HandleInertiaRequests.php:166-177 | null or '' gives `[^/]+`; '.*' and '.+' are returned verbatim; any other constraint c is wrapped as `(?:c)` |
| InertiaMiddleware.ParameterName | app/Http/Middleware/HandleInertiaRequests.php:149-150 | optional exactly when the name ends in '?', and the lookup name is the parameter with that '?' removed |
| InertiaMiddleware.SegmentPattern | app/Http/Middleware/HandleInertiaRequests.php:141-161 | each segment contributes a piece starting with '/' or, when optional, with `(?:/` |
| InertiaMiddleware.RouteToClientPattern | app/Http/Middleware/HandleInertiaRequests.php:130-164 | every compiled pattern is anchored: it starts with '^' and ends with '$' |
| InertiaMiddleware.RootPatternIff | app/Http/Middleware/HandleInertiaRequests.php:132-136 | the pattern is exactly `^/$` if and only if the URI is '' or '/' after trimming leading slashes |
| InertiaMiddleware.DocsRoutePattern | app/Http/Middleware/HandleInertiaRequests.php:138-163 | `/docs/{slug}` with slug constrained to '.*' compiles to `^/docs/.*$` |
| InertiaMiddleware.OptionalParameterPattern | app/Http/Middleware/HandleInertiaRequests.php:149-155 | an unconstrained optional parameter compiles to `(?:/[^/]+)?` |
| InertiaMiddleware.CacheableRoutes | app/Http/Middleware/HandleInertiaRequests.php:113-120 | exactly the GET routes carrying the cacheable middleware |
| InertiaMiddleware.PatternsMembership | app/Http/Middleware/HandleInertiaRequests.php:121 | a string is among the mapped patterns exactly when some route compiles to it |
| InertiaMiddleware.FilterTruthy | app/Http/Middleware/HandleInertiaRequests.php:122 | keeps exactly the strings PHP treats as truthy |
| InertiaMiddleware.FilterTruthyOfPatterns | app/Http/Middleware/HandleInertiaRequests.php:121-122 | the falsy filter never removes a compiled pattern |
| InertiaMiddleware.Unique | app/Http/Middleware/HandleInertiaRequests.php:123 | same members as the input, without duplicates |
| InertiaMiddleware.CacheablePatternsExact | app/Http/Middleware/HandleInertiaRequests.php:113-125 | a pattern is shared if and only if some cacheable GET route compiles to it |
| InertiaMiddleware.ComputeCacheablePatterns | app/Http/Middleware/HandleInertiaRequests.php:113-125 | the shared list has no duplicates |
| InertiaMiddleware.AllPatternsAnchored | app/Http/Middleware/HandleInertiaRequests.php:113-125 | every shared pattern is anchored |
| InertiaMiddleware.CacheableInertiaRoutePatterns | app/Http/Middleware/HandleInertiaRequests.php:107-128 | a stored list is returned as is; otherwise the list is computed and stored |
| InertiaMiddleware.MemoStaysAnchored | app/Http/Middleware/HandleInertiaRequests.php:109-127 | the stored list only ever holds anchored patterns |
| InertiaMiddleware.InertiaCacheProp | app/Http/Middleware/HandleInertiaRequests.php:95-99 | queryParameter is always `__icv`; routePatterns are the shared list; currentRouteCacheable is the request attribute cast to bool, false when absent |
| InertiaMiddleware.Share | app/Http/Middleware/HandleInertiaRequests.php:84-101 | the shared props carry `name` (the application name, a parameter), that cache prop and `sidebarOpen: true`, and the stored list is updated as above |
| CacheVariant.CompiledPatterns | resources/js/lib/inertia-cache-variant.ts:54-58 | keeps exactly the non-empty strings that compile, and nothing that was not in the list |
| CacheVariant.Update | resources/js/lib/inertia-cache-variant.ts:38-63 | props or settings that are not objects leave the state alone; otherwise queryParameter is the supplied non-empty string, else `__icv`, and the matchers are the compiled patterns, or none when routePatterns is not an array |
| CacheVariant.BeforeVisit | resources/js/lib/inertia-cache-variant.ts:80-94 | only the query can change; an eligible visit (GET, not partial, same origin, matching path) without the parameter gets it appended with value '1'; every other visit is unchanged; after an eligible visit the parameter is present |
| CacheVariant.PartialVisitNotTagged | resources/js/lib/inertia-cache-variant.ts:22-24 | `isPartialInertiaVisit`: a visit naming `only` or `except` props is never tagged |
| CacheVariant.UnmatchedPathNotTagged | resources/js/lib/inertia-cache-variant.ts:64-66 | `isCacheableMarketingPath`: a path no compiled pattern matches is never tagged, so nothing is tagged before patterns arrive |
| CacheVariant.RegisterListeners | resources/js/lib/inertia-cache-variant.ts:69-95 | the first call registers the two router handlers; later calls change nothing |
| CacheVariant.Setup | resources/js/lib/inertia-cache-variant.ts:97-100 | after setup the listeners are registered |
| CacheVariant.OnNavigate | resources/js/lib/inertia-cache-variant.ts:76-78 | navigation only updates the settings, never the handlers |
| CacheVariant.SetupRegistersOnce | resources/js/lib/inertia-cache-variant.ts:69-74 | however many times setup runs, exactly two handlers are registered |
| CacheVariant.AdoptsSharedSettings | resources/js/lib/inertia-cache-variant.ts:38-63 | reading the server's shared props yields the server's parameter and exactly the shared patterns that compile |
| CacheVariant.TaggedVisitReportsSameUrl | resources/js/lib/inertia-cache-variant.ts:91-93 | the server reports a tagged visit under the same URL as the untagged one |
| Base64.Encode | app/Http/Controllers/Astrify/SignedUrlController.php:76 | the encoding of n bytes has 4·⌈n/3⌉ characters |
| Base64.DecodeEncode | app/Http/Controllers/Astrify/SignedUrlController.php:76 | decoding the encoding gives the bytes back |
| Base64.EncodeAppend | app/Http/Controllers/Astrify/SignedUrlController.php:76 | whole 3-byte groups encode independently of what follows |
| Base64.WholeGroupsUnpadded | app/Http/Controllers/Astrify/SignedUrlController.php:76 | input made of whole groups encodes without '=' |
| Base64.EncodePadding | app/Http/Controllers/Astrify/SignedUrlController.php:76 | padding appears only in the encoding of the final partial group |
| SignedUrl.Hex2Bin | app/Http/Controllers/Astrify/SignedUrlController.php:76 | decoding succeeds exactly for even-length hex strings, giving half as many bytes |
| SignedUrl.Hex2BinOfBin2Hex | app/Http/Controllers/Astrify/SignedUrlController.php:76 | hex-decoding the hex rendering of bytes gives them back |
| SignedUrl.HexPairsCaseInsensitive | app/Http/Controllers/Astrify/SignedUrlController.php:76 | hex decoding ignores letter case |
| SignedUrl.ObjectKey | app/Http/Controllers/Astrify/SignedUrlController.php:66 | 'uploads/' followed by the digest, lower-cased, at the same length |
| SignedUrl.ObjectKeySameObject | app/Http/Controllers/Astrify/SignedUrlController.php:66 | two digests share a key if and only if they agree ignoring case |
| SignedUrl.Checksum | app/Http/Controllers/Astrify/SignedUrlController.php:76 | defined exactly when the digest hex-decodes, and Base64-decoding it gives the digest bytes |
| SignedUrl.ChecksumOfDigest | app/Http/Controllers/Astrify/SignedUrlController.php:76 | a 64-digit digest gives a 44-character checksum whose only '=' is the last character, whatever the digest's letter case |
| SignedUrl.ChecksumOfBin2Hex | app/Http/Controllers/Astrify/SignedUrlController.php:76 | the checksum of a digest written in hex is the digest's Base64 |
| SignedUrl.ToFileRequest | app/Http/Controllers/Astrify/SignedUrlController.php:23-29 | a validated entry yields its content type, file name and digest unchanged, and as size the integer FILTER_VALIDATE_INT reads, between PHP_INT_MIN and 10485760 |
| SignedUrl.PutObjectFor | app/Http/Controllers/Astrify/SignedUrlController.php:78-84 | the PutObject command takes its content type, checksum and length from the same entry, with the derived key and the configured bucket |
| SignedUrl.SignAll | app/Http/Controllers/Astrify/SignedUrlController.php:64-96 | one signed entry per file, in order, echoing the digest unchanged with the bucket, the key, the file name and a '+5 minutes' presigned URL |
| SignedUrl.FileRequests | app/Http/Controllers/Astrify/SignedUrlController.php:64 | one request per validated entry, in order |
| SignedUrl.Invoke | app/Http/Controllers/Astrify/SignedUrlController.php:17-99 | 422 with the validator's errors exactly when validation fails; otherwise one entry per file |
| SignedUrl.InvokeSignsEveryFile | app/Http/Controllers/Astrify/SignedUrlController.php:64-95 | for well-formed digests, entry i echoes file i's digest and name, with the bucket and a 72-character key |
| SignedUrl.ServerErrorOnlyForNewlineDigest | app/Http/Controllers/Astrify/SignedUrlController.php:28 | a validated request fails afterwards only when some digest carries the trailing newline the regex lets through |
| SignedUrl.HeaderBlacklist | app/Http/Controllers/Astrify/SignedUrlController.php:105-111 | the parent's blacklist minus 'content-length', with nothing else changed |
| Validation.DecimalIntOfNat | app/Http/Controllers/Astrify/DocumentCreateController.php:22 | the `integer` rule accepts the decimal text of any natural number |
| Validation.IntegerValue | app/Http/Controllers/Astrify/DocumentCreateController.php:22 | whatever the `integer` rule (FILTER_VALIDATE_INT) accepts lies in PHP's 64-bit range |
| Validation.IntegerValueOfPaddedText | app/Http/Controllers/Astrify/DocumentCreateController.php:22 | the decimal text of any integer up to PHP_INT_MAX passes with its value, whatever spaces, tabs and line breaks surround it |
| Validation.IntegerValueBeyondRange | app/Http/Controllers/Astrify/DocumentCreateController.php:22 | beyond PHP's range neither the number nor its decimal text passes |
| Validation.IntegerValueOfBool | app/Http/Controllers/Astrify/DocumentCreateController.php:22 | `true` reads as 1 and `false` fails |
| Validation.TopErrors | app/Http/Controllers/Astrify/DocumentCreateController.php:17 | a top-level field is reported exactly when its rule fails |
| Validation.ItemErrors | app/Http/Controllers/Astrify/DocumentCreateController.php:19-23 | a field of an entry is reported exactly when its rule fails |
| Validation.ListErrors | app/Http/Controllers/Astrify/DocumentCreateController.php:18-23 | entry errors carry their own index, and there are none exactly when every entry passes |
| Validation.Validate | app/Http/Controllers/Astrify/DocumentCreateController.php:16-24 | passes, returning the input, exactly when every rule holds; otherwise at least one error |
| Validation.ErrorsEmptyIffValid | app/Http/Controllers/Astrify/DocumentCreateController.php:16-24 | no errors if and only if the request is valid |
| Validation.ErrorsExact | app/Http/Controllers/Astrify/DocumentCreateController.php:16-24 | the list is reported exactly when it is missing or not an array, and a field of entry i exactly when its rule fails |
| DocumentCreate.ValidatedItems | app/Http/Controllers/Astrify/DocumentCreateController.php:28 | each validated entry keeps only the fields named by a rule |
| DocumentCreate.Invoke | app/Http/Controllers/Astrify/DocumentCreateController.php:13-48 | redirects back with flash 'success' exactly when valid, logging the name; otherwise at least one error |
| DocumentCreate.SizePassesIff | app/Http/Controllers/Astrify/DocumentCreateController.php:22 | `integer\|min:0` accepts exactly the non-negative integers up to PHP_INT_MAX given as numbers, as `true`, or as decimal text with surrounding spaces, tabs or line breaks |
| DocumentCreate.FilePassesIff | app/Http/Controllers/Astrify/DocumentCreateController.php:19-23 | an entry passes exactly when id, name, sha256 and type are present strings and size is a non-negative integer |
| DocumentCreate.AcceptsExactlyWellFormed | app/Http/Controllers/Astrify/DocumentCreateController.php:16-24 | accepted if and only if the name is a present string of at most 255 characters and the file list is a non-empty array of well-formed entries |
| DocumentCreate.EmptyFilesRejected | app/Http/Controllers/Astrify/DocumentCreateController.php:18 | an empty uploadedFiles list is rejected, with the error on uploadedFiles |
| DocumentCreate.LogKeepsRuleFields | app/Http/Controllers/Astrify/DocumentCreateController.php:26-29 | the log holds one entry per file, carrying exactly the ruled fields with their values |
| DocumentCreate.Sha256NotFormatChecked | app/Http/Controllers/Astrify/DocumentCreateController.php:21 | any non-blank string is accepted as a digest, unlike at the signed-URL endpoint |
| UploadFile.CompleteFiles | resources/js/components/astrify/intertia-upload.tsx:63 | exactly the complete files |
| UploadFile.CompleteFilesAppend | resources/js/components/astrify/intertia-upload.tsx:63 | the filter keeps the files' order |
| UploadHelpers.FormatRejectionError | resources/js/components/astrify/upload.tsx:47-74 | the three known codes map to their fixed messages, any other code keeps the original message, and details is always the file name |
| UploadHelpers.MessageIgnoredIffKnown | resources/js/components/astrify/upload.tsx:47-74 | the original message matters if and only if the code is unknown |
| UploadHelpers.IsImageOnlyAccept | resources/js/components/astrify/upload.tsx:77-85 | true if and only if accept is given, has a MIME key, and every key starts with 'image/' |
| UploadHelpers.Extensions | resources/js/components/astrify/upload.tsx:111-117 | every listed extension is collected |
| UploadHelpers.ExtensionsAppend | resources/js/components/astrify/upload.tsx:111-117 | the extensions come in entry order |
| UploadHelpers.ExtensionLabel | resources/js/components/astrify/upload.tsx:114 | upper-cased, and one character shorter exactly when there was a '.' to drop |
| UploadHelpers.Labels | resources/js/components/astrify/upload.tsx:114 | one label per extension, in order |
| UploadHelpers.AcceptDescription | resources/js/components/astrify/upload.tsx:104-120 | 'Any file type' if and only if accept is missing or lists no extensions; otherwise the labels joined by ', ', each label contained |
| UploadHelpers.GetDropzoneText | resources/js/components/astrify/upload.tsx:123-157 | a given title or description wins; the default title picks image or file wording, singular iff maxFiles is 1; the count text is present iff maxFiles > 1 |
| UploadHelpers.FileCountRoundTrip | resources/js/components/astrify/upload.tsx:152-154 | the count text reads back as 'current/max' |
| UploadHelpers.TitleNamesButtonNoun | resources/js/components/astrify/upload.tsx:132-141 | the default title names the same noun as the select button |
| UploadHelpers.Settings | resources/js/components/astrify/upload.tsx:173-177 | maxSize is the prop, else the context's, else 50 MiB; maxFiles the prop, else the config's, else 10; multiple iff maxFiles > 1; the library cap is remainingSlots; count plus remaining equals maxFiles |
| UploadHelpers.MessageCount | resources/js/components/astrify/upload.tsx:180-209 | one message per (file, error) pair |
| UploadHelpers.RejectionMessagesAppend | resources/js/components/astrify/upload.tsx:187-201 | messages of consecutive rejections follow one another |
| UploadHelpers.OneMessagePerError | resources/js/components/astrify/upload.tsx:187-201 | the message for error j of file i sits at its place in order, formatted from that error, with the file name as details |
| UploadHelpers.HandleRejections | resources/js/components/astrify/upload.tsx:180-209 | returns all the messages, and hands them to addErrors exactly when there is at least one |
| UploadHelpers.HandleDrop | resources/js/components/astrify/upload.tsx:212-229 | a custom onDrop replaces everything; otherwise errors are cleared first, rejections scheduled only if any, and addFiles called last and only with a non-empty list |
| UploadHelpers.AcceptToString | resources/js/components/astrify/upload.tsx:344-357 | undefined exactly for undefined; otherwise a string containing every MIME key |
| UploadHelpers.AcceptPartsAppend | resources/js/components/astrify/upload.tsx:349-355 | each key is followed by its own extensions, in entry order |
| UploadHelpers.AcceptToStringSplits | resources/js/components/astrify/upload.tsx:344-357 | splitting the string at ',' gives back the keys and extensions in order |
| UploadHelpers.Header | resources/js/components/astrify/upload.tsx:368-441 | nothing when there are no files; the input is multiple iff (maxFiles ?? 10) > 1; Add is disabled iff more files cannot be accepted; the heading ends with the file count |
| UploadHelpers.HandleFileInputChange | resources/js/components/astrify/upload.tsx:387-395 | addFiles only for a non-empty selection, and the input is always reset |
| UploadHelpers.FileIcon | resources/js/components/astrify/upload.tsx:635-673 | the chosen icon qualifies, and no icon of higher precedence does |
| UploadHelpers.StatusDisplay | resources/js/components/astrify/upload.tsx:675-700 | pending shows 'Queued'; error shows the file's error or 'Upload failed'; complete shows the formatted size; uploading shows a percentage only when progress is non-zero; destructive iff error |
| UploadHelpers.PreviewProgress | resources/js/components/astrify/upload.tsx:507 | 0 while pending, the file's progress otherwise |
| UploadHelpers.List | resources/js/components/astrify/upload.tsx:708-780 | nothing when there are no files; one row per file keyed by its sha256; retry only for failed files; every action addresses the file's sha256 |
| UploadDropzone.FormatRejectionError | resources/js/components/astrify/upload/dropzone.tsx:22-52 | the copy agrees with the shared definition; the extra size and count arguments are unused |
| UploadDropzone.IsImageOnlyAccept | resources/js/components/astrify/upload/dropzone.tsx:54-62 | the copy agrees with the shared definition |
| UploadDropzone.AcceptDescription | resources/js/components/astrify/upload/dropzone.tsx:81-98 | the copy agrees with the shared definition |
| UploadDropzone.Title | resources/js/components/astrify/upload/dropzone.tsx:110-118 | the copy's default title agrees with the shared one |
| UploadDropzone.GetDropzoneText | resources/js/components/astrify/upload/dropzone.tsx:100-135 | the copy agrees with the shared definition |
| UploadDropzone.Settings | resources/js/components/astrify/upload/dropzone.tsx:150-154 | the copy's defaults agree with the shared definition |
| UploadDropzone.HandleRejections | resources/js/components/astrify/upload/dropzone.tsx:157-188 | the copy's loop produces the shared message list and the same addErrors rule |
| UploadDropzone.HandleDrop | resources/js/components/astrify/upload/dropzone.tsx:191-208 | the copy agrees with the shared drop handler |
| UploadDropzone.SelectNoun | resources/js/components/astrify/upload/dropzone.tsx:270-276 | image wording iff image-only, singular iff maxFiles is 1 |
| UploadHeader.Parts | resources/js/components/upload/header.tsx:14-21 | the copy lists the same parts |
| UploadHeader.AcceptToString | resources/js/components/upload/header.tsx:10-23 | the copy agrees with the shared definition |
| UploadHeader.Header | resources/js/components/upload/header.tsx:34-105 | the copy's visibility and enablement rules agree with the shared ones |
| UploadHeader.HandleFileInputChange | resources/js/components/upload/header.tsx:53-61 | the copy agrees with the shared handler |
| UploadList.FileIcon | resources/js/components/astrify/upload/list.tsx:154-192 | the copy's precedence agrees with the shared one |
| UploadList.StatusDisplay | resources/js/components/astrify/upload/list.tsx:194-219 | the copy agrees with the shared definition |
| UploadList.PreviewProgress | resources/js/components/astrify/upload/list.tsx:43 | the copy agrees with the shared definition |
| UploadList.List | resources/js/components/astrify/upload/list.tsx:227-290 | the copy's rows agree with the shared definition |
| UploadFakes.MockHash | resources/js/lib/upload-fakes.ts:29-31 | starts with 'mock-hash-' and is longer than that prefix plus the name, leaving room for '-' and the size |
| UploadFakes.MockHashCollidesIff | resources/js/lib/upload-fakes.ts:29-31 | two files get the same mock hash if and only if they agree on name and size |
| UploadFakes.ProgressValues | resources/js/lib/upload-fakes.ts:14-19 | 21 values from 0 to 1, strictly increasing |
| UploadFakes.SimulateProgress | resources/js/lib/upload-fakes.ts:10-24 | the loop reports exactly i/20 for i = 0..20 |
| UploadFakes.SignBatch | resources/js/lib/upload-fakes.ts:46-57 | one response per request, in order, carrying its sha256, the storage's bucket, the key 'uploads/'+name and a URL ending in that key and the signature |
| UploadFakes.SignFastError | resources/js/lib/upload-fakes.ts:219-238 | rejects only for validation_error, otherwise one response per request |
| UploadFakes.SignValidationFake | resources/js/lib/upload-fakes.ts:125-133 | signing always rejects with validation_error |
| UploadFakes.UploadSuccess | resources/js/lib/upload-fakes.ts:60-66 | resolves after 21 reports for the file's own sha256, from 0 to 1 |
| UploadFakes.UploadFast | resources/js/lib/upload-fakes.ts:196-203 | reports 0.25, 0.5, 0.75, 1 for the file's sha256, then resolves |
| UploadFakes.UploadFastError | resources/js/lib/upload-fakes.ts:240-251 | always rejects with the requested type and that type's fixed message |
| UploadFakes.UploadValidationFake | resources/js/lib/upload-fakes.ts:135-141 | upload always rejects with validation_error |
| UploadFakes.UploadDuplicateFake | resources/js/lib/upload-fakes.ts:166-172 | upload always rejects with duplicate_file |
| UploadFakes.UploadFailure | resources/js/lib/upload-fakes.ts:96-111 | rejects exactly when the name matches and the shared counter is still 0, then sets it to 1 |
| UploadFakes.OnlyFirstMatchFails | resources/js/lib/upload-fakes.ts:75-106 | upload i of a run fails if and only if the counter started at 0, its name matches, and no earlier name did |
| UploadFakes.UploadRetry | resources/js/lib/upload-fakes.ts:278-294 | counts the attempt; rejects with network_error on a digest's first attempt and succeeds reporting 1 after that |
| UploadFakes.FirstAttemptPerDigestFails | resources/js/lib/upload-fakes.ts:257-296 | in a run, an upload fails if and only if its digest was never attempted before, in the run or earlier |
| UploadForm.InertiaUploadConfig | resources/js/components/astrify/intertia-upload.tsx:126-144 | the defaults are '/upload/signed-url', 10 files, 10 MiB and PNG/JPEG/PDF; given props win |
| UploadForm.ConfigsAgree | resources/js/pages/upload.tsx:30-38 | the upload page's configuration equals the component's defaults; that 10 MiB limit is the signed-URL endpoint's, and the accept map is not image-only |
| UploadForm.Projection | resources/js/components/astrify/intertia-upload.tsx:68-74 | exactly the five fields the document endpoint validates, copied from the file |
| UploadForm.UploadedFiles | resources/js/pages/upload.tsx:71-80 | the complete files, in order, projected |
| UploadForm.CanSubmitIff | resources/js/components/astrify/intertia-upload.tsx:89 | `canSubmit` holds exactly when there is a complete file, every file has finished or failed, no error is shown and the name is not empty |
| UploadForm.Button | resources/js/components/astrify/intertia-upload.tsx:89-121 | disabled iff submission is not allowed or processing; the count is the number of complete files, at least one whenever enabled |
| UploadForm.PageSubmit | resources/js/pages/upload.tsx:67-97 | posts the name and the projected complete files, then clears the name and the files |
| UploadForm.InertiaSubmitAsWritten | resources/js/components/astrify/intertia-upload.tsx:54-85 | as written, the posted uploadedFiles is always empty |
| UploadForm.InertiaSubmitAsWrittenRejected | resources/js/components/astrify/intertia-upload.tsx:54-85 | the document endpoint rejects every submission made that way |
| UploadForm.InertiaSubmit | resources/js/components/astrify/intertia-upload.tsx:59-86 | corrected: posts what the page form posts |
| UploadForm.SubmitAccepted | resources/js/pages/upload.tsx:67-100 | when the button is enabled and the files are well formed, the endpoint accepts the submission |
| Combobox.FindFirst | resources/js/components/astrify/json-combobox.tsx:271 | the first option whose value matches, or none exactly when none does |
| Combobox.MergeWithSelected | resources/js/components/astrify/json-combobox.tsx:259-273 | `next` is always a suffix and the list grows by at most one; unchanged when the value is falsy or already present; grows exactly when the value is only in `prev`, by the first such option |
| Combobox.MergeKeepsSelected | resources/js/components/astrify/json-combobox.tsx:255-258 | an option selected before stays in the list |
| Combobox.InitialMode | resources/js/components/astrify/json-combobox.tsx:64-69 | controlled iff a value prop exists; otherwise the default value as text, '' for null |
| Combobox.CurrentValue | resources/js/components/astrify/json-combobox.tsx:70 | the controlled value, or the internal one, with null read as '' |
| Combobox.EmitChange | resources/js/components/astrify/json-combobox.tsx:71-74 | uncontrolled mode stores the value (null as ''); onChange receives it whenever given |
| Combobox.HandleSelect | resources/js/components/astrify/json-combobox.tsx:172-176 | picking the current value emits null and clears an uncontrolled value; any other non-empty pick is emitted and stored; the popover closes |
| Combobox.Selected | resources/js/components/astrify/json-combobox.tsx:167-170 | an option exactly when one carries the value |
| Combobox.TriggerLabel | resources/js/components/astrify/json-combobox.tsx:167-192 | the label of the FIRST option whose value reads the current value (`find`), a missing label rendering as nothing; the placeholder when no option matches |
| Combobox.TriggerLabelOfFirstMatch | resources/js/components/astrify/json-combobox.tsx:167-192 | options before the first match and all options after it never decide the label |
| Combobox.TriggerLabelExamples | resources/js/components/astrify/json-combobox.tsx:167-192 | of two options with value 'a' the first one's label 'X' is shown; an option without a label shows an empty trigger |
| Combobox.SeedOnMount | resources/js/components/astrify/json-combobox.tsx:88-94 | a synthetic option only when there are no options, the value is truthy and a default label is given |
| Combobox.EnsureSelected | resources/js/components/astrify/json-combobox.tsx:156-165 | a missing truthy value with a default label gets a synthetic option in front; otherwise unchanged |
| Combobox.EnsureSelectedSettles | resources/js/components/astrify/json-combobox.tsx:156-165 | after one pass the value is present, and a second pass adds nothing |
| Combobox.FetchUrl | resources/js/components/astrify/json-combobox.tsx:124-126 | the bare url iff the search is empty, else url + '?search=' + the encoded search |
| Combobox.ListOf | resources/js/components/astrify/json-combobox.tsx:132 | an array body is the list, anything else is [] |
| Combobox.FetchOptions | resources/js/components/astrify/json-combobox.tsx:109-148 | a cached search issues no request, merges the cached list and clears the error; otherwise the URL is requested and loading ends false; a body is cached and merged; a failure sets its message, empties the options and leaves the cache; an abort only clears the error; an error never shows next to options |
| Combobox.View | resources/js/components/astrify/json-combobox.tsx:217-247 | the error view iff the error is a non-empty string; the empty text iff there is no error, no option and no load in progress; the options, in order, iff there is no error and the list is non-empty, whether or not a load is running |
| ComboboxPreview.MatchingUsers | resources/js/components/previews/combobox-preview.tsx:32-33 | exactly the users whose lower-cased label starts with the lower-cased query |
| ComboboxPreview.MatchingUsersAppend | resources/js/components/previews/combobox-preview.tsx:33 | the filter keeps the users' order |
| ComboboxPreview.FilteredOptions | resources/js/components/previews/combobox-preview.tsx:30-34 | every user for an empty query, otherwise the matching ones |
| ComboboxPreview.LongerQueryNarrows | resources/js/components/previews/combobox-preview.tsx:30-34 | extending the query never adds a user |
| ComboboxPreview.HandleSelect | resources/js/components/previews/combobox-preview.tsx:36-40 | re-selecting clears the value to '', anything else becomes the value, and the popover closes |
| ComboboxPreview.SelectedOption | resources/js/components/previews/combobox-preview.tsx:42 | the user with that value, or none exactly when none has it |
| ComboboxPreview.NothingSelectedWhenCleared | resources/js/components/previews/combobox-preview.tsx:42 | a cleared value selects no user |
| ComboboxPreview.ListContent | resources/js/components/previews/combobox-preview.tsx:62-63 | the empty message iff no user matches, otherwise the filtered list |
| Paginator.FirstLabelled | resources/js/components/astrify/table/paginator.tsx:44-45 | the first link whose lower-cased label contains the word, or none exactly when none does |
| Paginator.NavUrl | resources/js/components/astrify/table/paginator.tsx:44-45 | that link's url when it is non-empty, otherwise nothing |
| Paginator.HandlePageClick | resources/js/components/astrify/table/paginator.tsx:39-42 | onChangePage is called exactly for a non-empty url |
| Paginator.OnClick | resources/js/components/astrify/table/paginator.tsx:47-48 | at most one call, never with an empty url; Prev calls iff not disabled and a previous url exists, Next likewise; a page link calls iff its url is present |
| Paginator.PageLinks | resources/js/components/astrify/table/paginator.tsx:85-87 | exactly the links whose label is neither navigation label |
| Paginator.PageLinksAppend | resources/js/components/astrify/table/paginator.tsx:85-87 | the filter keeps order |
| Paginator.Items | resources/js/components/astrify/table/paginator.tsx:101-118 | one item per kept link; '...' becomes an ellipsis and the rest numbered links |
| Paginator.CeilDiv | resources/js/components/astrify/table/paginator.tsx:53 | Math.ceil of the quotient for a positive divisor |
| Paginator.SimpleRangeAsWritten | resources/js/components/astrify/table/paginator.tsx:50-55 | as written: from uses ⌈total/lastPage⌉ as the page size; to − from + 1 is the items on the page whenever from > 0; 0 to 0 with no records or rows; with a page count of 0 the line prints Infinity, NaN or -Infinity as JavaScript computes them |
| Paginator.SimpleRangeAsWrittenMisreports | resources/js/components/astrify/table/paginator.tsx:53-55 | 15 records at 10 per page, page 2 of 2, is shown as 9 to 13 |
| Paginator.SimpleRangeAsWrittenExactWhenFull | resources/js/components/astrify/table/paginator.tsx:53-55 | when every page is full, the written range is exact |
| Paginator.SimpleRange | resources/js/components/astrify/table/paginator.tsx:50-55 | corrected range: 0 to 0 with no records or rows, and to − from + 1 equal to the rows shown |
| Paginator.SimpleRangeExact | resources/js/components/astrify/table/paginator.tsx:50-55 | for any consistent page of a length-aware paginator, the corrected range names exactly that page's records |
| Paginator.Render | resources/js/components/astrify/table/paginator.tsx:30-131 | Prev disabled iff page ≤ 1, Next iff page ≥ last; simple mode shows the as-written range (the ⌈total/lastPage⌉ estimate), numeric mode the filtered items |
| Paginator.RenderIntended | resources/js/components/astrify/table/paginator.tsx:50-55 | the corrected paginator: the same view as rendered except that simple mode shows the corrected range |
| PaginatedTable.OnClick | resources/js/components/astrify/paginated-table.tsx:49-58 | the copy's click handling agrees with the paginator's |
| PaginatedTable.PageLinks | resources/js/components/astrify/paginated-table.tsx:95 | the copy's filter agrees with the paginator's |
| PaginatedTable.SimpleRangeAsWritten | resources/js/components/astrify/paginated-table.tsx:60-65 | the copy carries the same estimated page size |
| PaginatedTable.PaginatorView | resources/js/components/astrify/paginated-table.tsx:48-131 | the copy's paginator renders the same view as the paginator, estimated range line included |
| PaginatedTable.Render | resources/js/components/astrify/paginated-table.tsx:136-181 | placeholder (the caller's if truthy, else the default) iff there is no data; otherwise the file's own paginator told that the page holds data.length rows, whose view is the paginator's |
| PaginatedTable.RenderIntended | resources/js/components/astrify/paginated-table.tsx:60-65 | the table with the corrected range line: the placeholder cases as rendered, the corrected paginator otherwise |
| PaginatedTable.SimpleFooterExactWhenFull | resources/js/components/astrify/paginated-table.tsx:60-65 | as rendered, the footer names exactly the page's records when every page is full |
| PaginatedTable.SimpleFooterMisreports | resources/js/components/astrify/paginated-table.tsx:60-65 | as rendered, 15 records at 10 per page on page 2 of 2 with 5 rows read 9 to 13, not the records shown |
| PaginatedTable.SimpleFooterShowsRecords | resources/js/components/astrify/paginated-table.tsx:60-65 | with the corrected range line, the footer names exactly the page's records on any consistent page |
| NumericPagination.TableBody | resources/js/components/astrify/table/numeric-pagination.tsx:56-70 | a single 'No data' cell spanning every column iff there is no data, otherwise the rows |
| NumericPagination.OnClick | resources/js/components/astrify/table/numeric-pagination.tsx:81-129 | Prev does nothing iff page ≤ 1, else passes the first 'previous' url or null; Next likewise; a page link forwards its url unchecked |
| NumericPagination.PresentCalls | resources/js/components/astrify/table/numeric-pagination.tsx:85 | exactly the calls with a non-empty url |
| NumericPagination.PageItems | resources/js/components/astrify/table/numeric-pagination.tsx:93-102 | the same items as the paginator's |
| NumericPagination.PageLinksOf | resources/js/components/astrify/table/numeric-pagination.tsx:94 | the same filter as the paginator's |
| SimplePagination.OnClick | resources/js/components/astrify/table/simple-pagination.tsx:80-98 | the numeric table's rules for Prev and Next |
| SimplePagination.TableBody | resources/js/components/astrify/table/simple-pagination.tsx:53-68 | the numeric table's body rule |
| SimplePagination.Caption | resources/js/components/astrify/table/simple-pagination.tsx:74 | 'Page X of Y, showing N of T total': splitting at spaces gives exactly those words |
| SimplePagination.CaptionReadsBack | resources/js/components/astrify/table/simple-pagination.tsx:74 | the page, row count and total parse back out of the caption |
| PaginatedTablePreview.TotalPages | resources/js/components/previews/paginated-table-preview.tsx:28 | the least page count that holds every user at 5 per page |
| PaginatedTablePreview.TotalPagesIsThree | resources/js/components/previews/paginated-table-preview.tsx:23-28 | there are 3 pages |
| PaginatedTablePreview.JsSlice | resources/js/components/previews/paginated-table-preview.tsx:30 | Array.slice with both bounds clamped to the length |
| PaginatedTablePreview.PagesPartitionUsers | resources/js/components/previews/paginated-table-preview.tsx:29-30 | page p is users (p−1)·5 up to p·5, and the three pages together are all users |
| PaginatedTablePreview.Row | resources/js/components/previews/paginated-table-preview.tsx:59 | one cell per column |
| PaginatedTablePreview.EntryAt | resources/js/components/previews/paginated-table-preview.tsx:38-42 | a numbered entry iff page i is shown, an ellipsis iff it is a gap, else nothing |
| PaginatedTablePreview.WindowOrdered | resources/js/components/previews/paginated-table-preview.tsx:37-43 | the entries are pages between 1 and the total, strictly ascending |
| PaginatedTablePreview.WindowKinds | resources/js/components/previews/paginated-table-preview.tsx:37-43 | an entry is numbered iff its page is shown, and every ellipsis stands on a gap |
| PaginatedTablePreview.WindowComplete | resources/js/components/previews/paginated-table-preview.tsx:37-43 | every shown page and every gap appears |
| PaginatedTablePreview.PrevLink | resources/js/components/previews/paginated-table-preview.tsx:35 | the url is null exactly on page 1 or before |
| PaginatedTablePreview.NextLink | resources/js/components/previews/paginated-table-preview.tsx:45 | the url is null exactly on the last page or after |
| PaginatedTablePreview.Links | resources/js/components/previews/paginated-table-preview.tsx:33-47 | Previous, then one link per window entry, then Next |
| PaginatedTablePreview.GenerateLinks | resources/js/components/previews/paginated-table-preview.tsx:33-47 | the loop builds exactly those links |
| PaginatedTablePreview.PageStep | resources/js/components/previews/paginated-table-preview.tsx:38-42 | one pass over page i appends the link of that page's window entry: its numbered link, an ellipsis, or nothing |
| PaginatedTablePreview.NumberedExactlyWhenShown | resources/js/components/previews/paginated-table-preview.tsx:38-39 | page i is numbered iff it is 1, the last page, or within one of the current page |
| PaginatedTablePreview.AtMostOneGapEachSide | resources/js/components/previews/paginated-table-preview.tsx:40-41 | at most one ellipsis on each side of the current page |
| PaginatedTablePreview.ExactlyOneActive | resources/js/components/previews/paginated-table-preview.tsx:39 | for a page within range exactly one link is active: the current page |
| PaginatedTablePreview.HandlePageChange | resources/js/components/previews/paginated-table-preview.tsx:49-53 | a missing or empty url changes nothing |
| PaginatedTablePreview.PageUrlRoundTrip | resources/js/components/previews/paginated-table-preview.tsx:49-52 | parsing 'page-'+i gives i back |
| PaginatedTablePreview.GeneratedLinksLeadToTheirPage | resources/js/components/previews/paginated-table-preview.tsx:35-51 | every generated url leads to its own page: p−1, p+1, or the entry's page |
| SimpleTableDemo.Links | resources/js/components/examples/simple-table-demo.tsx:38-41 | exactly Previous then Next, null on the first and last page, leading to p∓1, neither active |
| SimpleTableDemo.Config | resources/js/components/examples/simple-table-demo.tsx:55-62 | simple mode, total equal to all 15 users, lastPage the page count |
| SimpleTableDemo.Rows | resources/js/components/examples/simple-table-demo.tsx:28-30 | the current page's users projected to cells |
| SimpleTableDemo.NavLinksFound | resources/js/components/examples/simple-table-demo.tsx:38-41 | the paginator finds the demo's own Previous and Next links |
| SimpleTableDemo.NextWalksForward | resources/js/components/examples/simple-table-demo.tsx:32-41 | Next moves from page p to p+1 before the last page and does nothing on it |
| SimpleTableDemo.PreviousWalksBack | resources/js/components/examples/simple-table-demo.tsx:32-41 | Previous moves to p−1 after page 1 and does nothing on it |
| SimpleTableDemo.FooterShowsRecords | resources/js/components/examples/simple-table-demo.tsx:55-62 | the rendered footer names exactly the page's records, because all three pages are full |
| JsonTable.RowCells | resources/js/components/astrify/table/json-table.tsx:58-64 | one cell per column, in column order: row[key], or formatCell(key, value) when given |
| JsonTable.OnlyColumnKeysMatter | resources/js/components/astrify/table/json-table.tsx:58-64 | fields outside the columns never affect a row |
| JsonTable.TableData | resources/js/components/astrify/table/json-table.tsx:58-64 | no rows before a response, otherwise one row per record |
| JsonTable.OrDefault | resources/js/components/astrify/table/json-table.tsx:88-95 | `x \|\| d` on numbers: the value unless it is missing or 0 |
| JsonTable.PaginationOf | resources/js/components/astrify/table/json-table.tsx:88-95 | with no response: page 1 of 1, no links, total 0; otherwise the response's fields with those defaults |
| JsonTable.Start | resources/js/components/astrify/table/json-table.tsx:35 | loading starts and nothing else changes |
| JsonTable.Finish | resources/js/components/astrify/table/json-table.tsx:36-46 | loading ends either way; success replaces the data and clears the error; failure keeps the data and sets the error |
| JsonTable.FetchData | resources/js/components/astrify/table/json-table.tsx:34-47 | a whole fetch: loading ends; a body replaces the data and clears the error; a non-ok response shows 'Failed to fetch data', a thrown Error its message, anything else 'An error occurred', each keeping the old data |
| JsonTable.PageChange | resources/js/components/astrify/table/json-table.tsx:53-56 | a null or empty url fetches nothing, any other fetches exactly that url |
| JsonTable.PlaceholderOf | resources/js/components/astrify/table/json-table.tsx:66-84 | the loading view iff loading with no data; the error view iff not that and there is an error |
| JsonTable.Render | resources/js/components/astrify/table/json-table.tsx:58-101 | dimmed iff loading with data; the headers are the column captions; the table gets the projected rows, the pagination defaults and the placeholder choice |
| Toc.Preorder | resources/js/lib/toc.ts:9 | the visit starts at the node itself |
| Toc.FlattenNode | resources/js/lib/toc.ts:7-14 | a leaf contributes its own text |
| Toc.Texts | resources/js/lib/toc.ts:10-11 | one text per visited node |
| Toc.FlattenNodeFollowsVisit | resources/js/lib/toc.ts:7-14 | the flattened text is the concatenation of the text-like nodes' values in pre-order |
| Toc.Visit | resources/js/lib/toc.ts:32-41 | the title becomes the paragraph's text iff a link or text node occurs; the url is the last link's |
| Toc.GetItems | resources/js/lib/toc.ts:26-61 | unknown kinds give {}; a list gives one entry per child, in order; a paragraph keeps the items |
| Toc.TocOf | resources/js/lib/toc.ts:27-29 | a missing map gives {} |
| Toc.LinkParagraphReadsBack | resources/js/lib/toc.ts:31-44 | a linked heading paragraph reads back as its title and url |
| Toc.ListReadsBack | resources/js/lib/toc.ts:46-58 | a nested list of linked headings reads back as the outline it was built from |
| Toc.FlattenItems | resources/js/lib/toc.ts:86-100 | one heading per listed item, depths at least the starting depth, the first item first |
| Toc.Convert | resources/js/lib/toc.ts:79-104 | missing items give [] |
| Toc.BlockEnd | resources/js/lib/toc.ts:96-98 | the end of a block of deeper headings |
| Toc.FlattenItemsRoundTrip | resources/js/lib/toc.ts:86-100 | rebuilding the tree from the depths gives the items back: the flattening is a pre-order walk with depth + 1 per level |
| Toc.OutlineRoundTrip | resources/js/lib/toc.ts:79-104 | an outline's list reads and flattens to one heading per entry, starting at depth 2, from which the outline can be rebuilt |
| Mdx.HeadingId | resources/js/components/docs/mdx-components.tsx:26 | no id without children; otherwise the slug of the text |
| Mdx.Slug | resources/js/components/docs/mdx-components.tsx:26 | no space, apostrophe, question mark or upper-case letter, and never longer than the text |
| Mdx.SlugSteps | resources/js/components/docs/mdx-components.tsx:26 | the three replaces followed by lower-casing compute the slug |
| Mdx.SlugAppend | resources/js/components/docs/mdx-components.tsx:26 | the slug works character by character |
| Mdx.SlugIdempotent | resources/js/components/docs/mdx-components.tsx:26 | slugging a slug changes nothing |
| Mdx.LinkFor | resources/js/components/docs/mdx-components.tsx:54-74 | as written: not underlined iff the href starts with '#'; an Inertia link iff it starts with '/'; a new tab exactly for 'http' hrefs |
| Mdx.ProtocolRelativeIsInternal | resources/js/components/docs/mdx-components.tsx:54-65 | a '//' href becomes an Inertia link with no target |
| Mdx.LinkForIntended | resources/js/components/docs/mdx-components.tsx:54-74 | corrected: '#' links plain, 'http' and '//' links open in a new tab, other '/' links are Inertia links |
| Mdx.IntendedDiffersOnlyOnProtocolRelative | resources/js/components/docs/mdx-components.tsx:54-74 | the two classifiers differ exactly on '//' hrefs |
| Mdx.Code | resources/js/components/docs/mdx-components.tsx:151-172 | string children give inline code; else all four package-manager strings give a command block; else a code block with a copy button iff `__raw__` is set |
| Docs.Manifest | app/Http/Controllers/DocsController.php:10-15 | a missing file or null JSON gives []; an array gives its entries; a scalar is a type error |
| Docs.FirstWithSlug | app/Http/Controllers/DocsController.php:21 | the first entry with that slug, or none exactly when none has it |
| Docs.KeyOr | app/Http/Controllers/DocsController.php:28-29 | `??`: the value when present and not null, else the default |
| Docs.Show | app/Http/Controllers/DocsController.php:17-31 | 404 iff no entry has the slug; otherwise 'docs/posts/'+slug with meta (default []) and toc (default null) from the first match |
| Docs.Request | app/Http/Controllers/DocsController.php:17-31 | a manifest that cannot be read as an array is an error; otherwise the lookup above |
| Docs.FirstEntryDecides | app/Http/Controllers/DocsController.php:21 | later entries with the same slug never matter |
| Docs.FirstWithSlugPrefix | app/Http/Controllers/DocsController.php:21 | appending entries keeps an earlier match |
| Docs.OtherSlugsIgnored | app/Http/Controllers/DocsController.php:21 | entries with other slugs never change the answer |
| Docs.FirstWithSlugAfter | app/Http/Controllers/DocsController.php:21 | with no match in front, the match is found in the appended part |
| Installer.Decide | app/Commands/InstallFileUploadCommand.php:127-139 | a missing source is skipped; an existing target is kept unless --force or the user confirms; otherwise copied |
| Installer.CopyOne | app/Commands/InstallFileUploadCommand.php:126-144 | only that file's target changes, and it gets the source's content when copied |
| Installer.CopyFiles | app/Commands/InstallFileUploadCommand.php:122-147 | no file outside the listed targets changes, and no directory but the target's |
| Installer.CopyFilesOutcome | app/Commands/InstallFileUploadCommand.php:122-147 | each listed file ends up as its decision on the starting state says: the source's content, or untouched |
| Installer.CopyLaravelFiles | app/Commands/InstallFileUploadCommand.php:90-117 | fails iff the package directory is missing; copies the two controllers only when the Controllers directory exists |
| Installer.RoutesNameBothControllers | app/Commands/InstallFileUploadCommand.php:152-163 | the route block names both controllers |
| Installer.AddRoutes | app/Commands/InstallFileUploadCommand.php:189-195 | the old content is a prefix of the new one and the route block follows it; no other file changes |
| Installer.ShouldAddRoutesCases | app/Commands/InstallFileUploadCommand.php:168-184 | without routes/web.php nothing is added; the block is added when either controller name is missing, and not when both are present |
| Installer.AppendedRoutesArePresent | app/Commands/InstallFileUploadCommand.php:178-181 | after the append, the routes count as present |
| Installer.Handle | app/Commands/InstallFileUploadCommand.php:29-60 | exit 1 with nothing changed iff composer fails or the package is missing; otherwise 0, and web.php exists afterwards iff it did before |
| Installer.HandleRoutes | app/Commands/InstallFileUploadCommand.php:47-59 | a successful run appends the block iff the routes were not yet present, and leaves them present |
| Installer.SecondRunAppendsNothing | app/Commands/InstallFileUploadCommand.php:47-52 | running the command again leaves web.php unchanged |
| Installer.HandleCopiesControllers | app/Commands/InstallFileUploadCommand.php:103-111 | each controller ends up as its decision says, and no other file but web.php changes |

## Left out

- I/O and services: fetch, the Inertia router, the Laravel `File` facade, `Process::run` and composer, AWS presigning and Eloquent pagination. Their results are parameters (`composerOk`, `presign`, a fetch `Outcome`, the file-system map).
- React rendering, hooks, effects, toasts, timers, the debounce, the 50 ms rejection delay, ResizeObserver, AbortController and object-URL lifetimes. Only the state transitions they trigger are modelled.
- The upload library `@astrify/react-s3-upload` (addFiles, retry, removal, hashing, batching) is not part of this repository; its state reaches the model as plain inputs (`hasErrors`, `canAcceptMore`, `remainingSlots`, the file list).
- `formatBytes`, `Math.round`, `http_build_query`, `encodeURIComponent`, `new RegExp` and `RegExp.test`, `json_decode` and the presigner are function parameters, not models.
- Floating-point geometry (SVG dash offsets, percentage widths) is left out; progress values are reals, and `Math.round` is a parameter.
- The remark/mdast pipeline that builds the TOC tree is left out; `getItems` and the flattening work on a simplified node datatype with kind, value, url and children.
- Lower-casing and upper-casing are ASCII only; JavaScript's `toLowerCase` and PHP's `strtolower` on other scripts are not modelled.
- Absent numeric props are modelled as 0 where `|| 0` applies. Page numbers are integers; the only non-finite values modelled are the Infinity, -Infinity and NaN the range line prints when the page count is 0.
- PHP's loose `==` in `firstWhere` (numeric strings, `null == ''`) is not modelled; slugs are compared as strings.
- A fetch body that is not an object crashes the JSON table's render in the source; the model only takes pages.
- json-table.tsx and previews/paginated-table-preview.tsx both import a named `PaginatedTable` that table/paginated-table.tsx does not export by that name (it has only a default export); the model composes each of them with the table as if the import resolved.
- In the mdx `a` component, props spread after `target` can override it; props other than `href` are not modelled.
- Mdx.HeadingId: the `h2` component spreads its props after `id=`, so an `id` supplied by the MDX pipeline overrides the slug; and `children?.toString()` of non-string children (elements, arrays) is not their text. The model takes the heading's text as a string and states the slug only.
- Combobox.TriggerLabel: option fields are stored as the text `String()` gives them, so a label that is `null` or a boolean (which React renders as nothing) reads as its `String()` text; only a missing label renders as nothing.
- InertiaMiddleware.SegmentPattern: states only the shape of each piece; the exact pieces are stated by ParameterSegmentPattern, DocsRoutePattern and OptionalParameterPattern.
- InertiaMiddleware.PregQuote: a model of PHP's `preg_quote` (its character table, and NUL written as `\000`) rather than a parameter; its contract states that a leading special character is escaped, PregQuotePlainText that plain text is unchanged, UnquotePregQuote proves the escaping lossless, and the full table is not restated as a contract.
- SignedUrl: the trailing-newline digest accepted by the regex (PCRE `$` without the D modifier) makes `hex2bin` warn on its odd length; Laravel raises that warning as an exception, and the model's `ServerError` is the resulting 500 response. Laravel's default `TrimStrings` middleware, which would strip the newline before validation, is not part of this repository, so SignedUrl.ServerErrorOnlyForNewlineDigest describes the controller on its own.
- Validation: only the rules these controllers use (required, string, integer, array, min, max, regex) are modelled, and `max` on strings counts code points as the model's characters.
- JsonValue: JSON numbers are integers only. A fraction or exponent (`5.0`, `1e3`) is not representable, although `json_decode` makes it a float that the `integer` rule accepts when it is integral.
- Validation.IntegerValue: does not model floats, so an integral float such as `5.0` or `1e3` is not accepted as FILTER_VALIDATE_INT accepts it; trimming, `true` and the 64-bit range are modelled.
- DocumentCreate.SizePassesIff: the same float gap as Validation.IntegerValue: a `size` of `5.0` passes in Laravel but is not representable here.
- Validation.ListPasses: the `array` rule is PHP's `is_array`, which a JSON object also passes after `json_decode(…, true)`; objects are modelled as unordered maps, so the order `files.*` and `foreach` would visit them in cannot be represented, and only JSON arrays pass.
- DocumentCreate.AcceptsExactlyWellFormed: "exactly" is relative to the model's rules; an `uploadedFiles` sent as a non-empty JSON object of well-formed records, or a `size` written as an integral float, passes in Laravel but not here.
- SignedUrl.ToFileRequest: `filesize` is the integer the `integer` rule reads; the controller hands the raw value (`" 5"`, `true`) to the SDK's `ContentLength`, whose serialisation is not modelled, and a float filesize is not representable.
- Installer: a directory where a file is expected is not modelled, and `ensureDirectoryExists` creates only the target directory, not its parents; the composer call and its output are the `composerOk` input.
- CacheVariant: the client state is one record threaded through the calls rather than module-level variables.
- InertiaMiddleware.Share: the `name`, `inertiaCache` and `sidebarOpen` props are modelled, with the configured application name passed in; `...parent::share($request)`, `quote` (a random inspiring quote) and `auth.user` are left out because they come from the framework, randomness and the session.
- Combobox: an AbortError clears the error, because `setError(null)` runs before the request; the model follows that order.

## Findings

| source | as written | input that shows it | evidently intended | confidence | as-written member | corrected member |
|---|---|---|---|---|---|---|
| resources/js/components/astrify/intertia-upload.tsx:54-85 | `formData` with the complete files is computed but `post` sends the form state, whose uploadedFiles is always [] | any submission after one complete upload | post the projected complete files, as pages/upload.tsx does through `transform` | not executed; high | UploadForm.InertiaSubmitAsWritten, UploadForm.InertiaSubmitAsWrittenRejected | UploadForm.InertiaSubmit, UploadForm.SubmitAccepted |
| resources/js/components/astrify/table/paginator.tsx:53-55 | the page size is estimated as ⌈total/lastPage⌉ | 15 records, 10 per page, page 2 of 2 with 5 rows: "Showing 9 to 13 of 15" | 11 to 15: the last page holds the last records | not executed; medium | Paginator.SimpleRangeAsWritten, Paginator.SimpleRangeAsWrittenMisreports, PaginatedTable.SimpleFooterMisreports | Paginator.SimpleRange, Paginator.SimpleRangeExact, PaginatedTable.SimpleFooterShowsRecords |
| resources/js/components/docs/mdx-components.tsx:54-73 | the internal test `startsWith('/')` runs before the external one, so the `//` case of isExternal never applies | href "//cdn.example.com/x" becomes an Inertia link with no target | a protocol-relative link is external and opens in a new tab | not executed; medium | Mdx.LinkFor, Mdx.ProtocolRelativeIsInternal | Mdx.LinkForIntended, Mdx.IntendedDiffersOnlyOnProtocolRelative |

=== FILE: base64.dfy ===
/**
 * The base 64 encoding of section 4 of RFC 4648 (alphabet of Table 1, `=`
 * padding), as PHP's `base64_encode` produces it, and a decoder for it.
 */
module Base64 {
  import opened Text

  type Byte = x: int | 0 <= x < 256
  type Index = x: int | 0 <= x < 64

  /** Table 1 of RFC 4648: the character for a 6-bit value. */
  function Alphabet(i: Index): (c: char)
    ensures c != '='
  {
    if i < 26 then ('A' as int + i) as char
    else if i < 52 then ('a' as int + (i - 26)) as char
    else if i < 62 then ('0' as int + (i - 52)) as char
    else if i == 62 then '+'
    else '/'
  }

  predicate IsAlphabetChar(c: char) {
    IsUpper(c) || IsLower(c) || IsDigit(c) || c == '+' || c == '/'
  }

  /** The 6-bit value a character of Table 1 stands for. */
  function IndexOf(c: char): Index
    requires IsAlphabetChar(c)
  {
    if IsUpper(c) then c as int - 'A' as int
    else if IsLower(c) then c as int - 'a' as int + 26
    else if IsDigit(c) then c as int - '0' as int + 52
    else if c == '+' then 62
    else 63
  }

  lemma AlphabetInverse(i: Index)
    ensures IsAlphabetChar(Alphabet(i))
    ensures IndexOf(Alphabet(i)) == i
  {
  }

  /** The four characters for three bytes: each carries 6 of their 24 bits. */
  function Quad(b0: Byte, b1: Byte, b2: Byte): (r: string)
    ensures |r| == 4 && '=' !in r
  {
    [Alphabet(b0 / 4), Alphabet((b0 % 4) * 16 + b1 / 16),
     Alphabet((b1 % 16) * 4 + b2 / 64), Alphabet(b2 % 64)]
  }

  /** Encoding of a whole input; a final group of 1 or 2 bytes is zero-filled and padded with `=`. */
  function Encode(b: seq<Byte>): (r: string)
    ensures |r| == 4 * ((|b| + 2) / 3)
    decreases |b|
  {
    if |b| == 0 then ""
    else if |b| == 1 then Quad(b[0], 0, 0)[..2] + "=="
    else if |b| == 2 then Quad(b[0], b[1], 0)[..3] + "="
    else
      GroupCount(|b|);
      Quad(b[0], b[1], b[2]) + Encode(b[3..])
  }

  lemma GroupCount(n: int)
    requires n >= 3
    ensures (n + 2) / 3 == (n - 3 + 2) / 3 + 1
  {
  }

  /** Three bytes from four alphabet characters. */
  function DecodeQuad(s: string): Option<seq<Byte>>
    requires |s| == 4
  {
    if IsAlphabetChar(s[0]) && IsAlphabetChar(s[1]) && IsAlphabetChar(s[2]) && IsAlphabetChar(s[3]) then
      Some([IndexOf(s[0]) * 4 + IndexOf(s[1]) / 16,
            (IndexOf(s[1]) % 16) * 16 + IndexOf(s[2]) / 4,
            (IndexOf(s[2]) % 4) * 64 + IndexOf(s[3])])
    else None
  }

  /** The last group, which may be padded; the bits the padding drops must be zero. */
  function DecodeLast(s: string): Option<seq<Byte>>
    requires |s| == 4
  {
    if s[2] == '=' && s[3] == '=' then
      if IsAlphabetChar(s[0]) && IsAlphabetChar(s[1]) && IndexOf(s[1]) % 16 == 0 then
        Some([IndexOf(s[0]) * 4 + IndexOf(s[1]) / 16])
      else None
    else if s[3] == '=' then
      if IsAlphabetChar(s[0]) && IsAlphabetChar(s[1]) && IsAlphabetChar(s[2]) && IndexOf(s[2]) % 4 == 0 then
        Some([IndexOf(s[0]) * 4 + IndexOf(s[1]) / 16,
              (IndexOf(s[1]) % 16) * 16 + IndexOf(s[2]) / 4])
      else None
    else DecodeQuad(s)
  }

  /** Decoding of canonical padded input; `None` for anything else. */
  function Decode(s: string): Option<seq<Byte>>
    decreases |s|
  {
    if |s| == 0 then Some([])
    else if |s| < 4 then None
    else if |s| == 4 then DecodeLast(s)
    else
      match DecodeQuad(s[..4])
      case None => None
      case Some(g) =>
        match Decode(s[4..])
        case None => None
        case Some(rest) => Some(g + rest)
  }

  /** The three 6-bit splits of a byte pair recombine to the bytes. */
  lemma GroupArithmetic(b0: Byte, b1: Byte, b2: Byte)
    ensures (b0 / 4) * 4 + ((b0 % 4) * 16 + b1 / 16) / 16 == b0
    ensures (((b0 % 4) * 16 + b1 / 16) % 16) * 16 + ((b1 % 16) * 4 + b2 / 64) / 4 == b1
    ensures (((b1 % 16) * 4 + b2 / 64) % 4) * 64 + b2 % 64 == b2
    ensures ((b1 % 16) * 4) % 4 == 0
    ensures ((b0 % 4) * 16) % 16 == 0
  {
  }

  lemma QuadInverse(b0: Byte, b1: Byte, b2: Byte)
    ensures DecodeQuad(Quad(b0, b1, b2)) == Some([b0, b1, b2])
    ensures DecodeLast(Quad(b0, b1, b2)) == Some([b0, b1, b2])
  {
    AlphabetInverse(b0 / 4);
    AlphabetInverse((b0 % 4) * 16 + b1 / 16);
    AlphabetInverse((b1 % 16) * 4 + b2 / 64);
    AlphabetInverse(b2 % 64);
    GroupArithmetic(b0, b1, b2);
  }

  lemma LastOneInverse(b0: Byte)
    ensures DecodeLast(Quad(b0, 0, 0)[..2] + "==") == Some([b0])
  {
    AlphabetInverse(b0 / 4);
    AlphabetInverse((b0 % 4) * 16);
    GroupArithmetic(b0, 0, 0);
  }

  lemma LastTwoInverse(b0: Byte, b1: Byte)
    ensures DecodeLast(Quad(b0, b1, 0)[..3] + "=") == Some([b0, b1])
  {
    AlphabetInverse(b0 / 4);
    AlphabetInverse((b0 % 4) * 16 + b1 / 16);
    AlphabetInverse((b1 % 16) * 4);
    GroupArithmetic(b0, b1, 0);
  }

  /** A leading whole group encodes to its quad, followed by the encoding of the rest. */
  lemma EncodeStep(b: seq<Byte>)
    requires |b| >= 3
    ensures Encode(b) == Quad(b[0], b[1], b[2]) + Encode(b[3..])
  {
  }

  /** A leading quad decodes on its own, ahead of the rest. */
  lemma DecodeStep(q: string, rest: string, g: seq<Byte>, tail: seq<Byte>)
    requires |q| == 4 && |rest| > 0
    requires DecodeQuad(q) == Some(g) && Decode(rest) == Some(tail)
    ensures Decode(q + rest) == Some(g + tail)
  {
    var s := q + rest;
    assert s[..4] == q && s[4..] == rest;
  }

  /** Four characters are the last group. */
  lemma DecodeOfOneQuad(s: string)
    requires |s| == 4
    ensures Decode(s) == DecodeLast(s)
  {
  }

  /** A single byte: two characters and `==`. */
  lemma DecodeEncodeOne(b: seq<Byte>)
    requires |b| == 1
    ensures Decode(Encode(b)) == Some(b)
  {
    var s := Quad(b[0], 0, 0)[..2] + "==";
    assert Encode(b) == s;
    LastOneInverse(b[0]);
    DecodeOfOneQuad(s);
    assert b == [b[0]];
  }

  /** Two bytes: three characters and `=`. */
  lemma DecodeEncodeTwo(b: seq<Byte>)
    requires |b| == 2
    ensures Decode(Encode(b)) == Some(b)
  {
    var s := Quad(b[0], b[1], 0)[..3] + "=";
    assert Encode(b) == s;
    LastTwoInverse(b[0], b[1]);
    DecodeOfOneQuad(s);
    assert b == [b[0], b[1]];
  }

  /** Three bytes: one unpadded group. */
  lemma DecodeEncodeThree(b: seq<Byte>)
    requires |b| == 3
    ensures Decode(Encode(b)) == Some(b)
  {
    var s := Quad(b[0], b[1], b[2]);
    EncodeStep(b);
    assert Encode(b[3..]) == "";
    assert Encode(b) == s;
    QuadInverse(b[0], b[1], b[2]);
    DecodeOfOneQuad(s);
    assert b == [b[0], b[1], b[2]];
  }

  lemma Regroup(b: seq<Byte>)
    requires |b| >= 3
    ensures [b[0], b[1], b[2]] + b[3..] == b
  {
    assert [b[0], b[1], b[2]] == b[..3];
  }

  /** A leading whole group ahead of a non-empty rest that round-trips. */
  lemma DecodeEncodeLonger(b: seq<Byte>)
    requires |b| > 3
    requires Decode(Encode(b[3..])) == Some(b[3..])
    ensures Decode(Encode(b)) == Some(b)
  {
    var q, rest := Quad(b[0], b[1], b[2]), Encode(b[3..]);
    EncodeStep(b);
    QuadInverse(b[0], b[1], b[2]);
    DecodeStep(q, rest, [b[0], b[1], b[2]], b[3..]);
    Regroup(b);
  }

  /** Decoding an encoding returns the input bytes. */
  lemma {:induction false} DecodeEncode(b: seq<Byte>)
    ensures Decode(Encode(b)) == Some(b)
    decreases |b|
  {
    if |b| == 0 {
    } else if |b| == 1 {
      DecodeEncodeOne(b);
    } else if |b| == 2 {
      DecodeEncodeTwo(b);
    } else if |b| == 3 {
      DecodeEncodeThree(b);
    } else {
      DecodeEncode(b[3..]);
      DecodeEncodeLonger(b);
    }
  }

  /** Encoding works group by group, so whole groups encode independently. */
  lemma {:induction false} EncodeAppend(a: seq<Byte>, c: seq<Byte>)
    requires |a| % 3 == 0
    ensures Encode(a + c) == Encode(a) + Encode(c)
    decreases |a|
  {
    if |a| > 0 {
      EncodeAppend(a[3..], c);
      var ac := a + c;
      AppendGroup(a, c);
      var q, ea, ec := Quad(a[0], a[1], a[2]), Encode(a[3..]), Encode(c);
      EncodeStep(ac);
      EncodeStep(a);
      assert Encode(ac) == q + (ea + ec);
      assert q + (ea + ec) == (q + ea) + ec;
    } else {
      assert a + c == c;
    }
  }

  /** The first group of `a + c` is `a`'s, and the rest is the rest of `a` before `c`. */
  lemma AppendGroup(a: seq<Byte>, c: seq<Byte>)
    requires |a| >= 3
    ensures (a + c)[3..] == a[3..] + c
    ensures (a + c)[0] == a[0] && (a + c)[1] == a[1] && (a + c)[2] == a[2]
  {
  }

  /** Whole groups encode without padding. */
  lemma {:induction false} WholeGroupsUnpadded(b: seq<Byte>)
    requires |b| % 3 == 0
    ensures '=' !in Encode(b)
    decreases |b|
  {
    if |b| > 0 {
      WholeGroupsUnpadded(b[3..]);
      var q, rest := Quad(b[0], b[1], b[2]), Encode(b[3..]);
      EncodeStep(b);
      assert forall i :: 0 <= i < |q + rest| ==> (q + rest)[i] == (if i < |q| then q[i] else rest[i - |q|]);
    }
  }

  /** A final partial group is padded with `==` after one byte and `=` after two. */
  lemma TailPadding(t: seq<Byte>)
    requires |t| < 3
    ensures |t| == 0 ==> Encode(t) == ""
    ensures |t| == 1 ==> Encode(t)[2..] == "==" && '=' !in Encode(t)[..2]
    ensures |t| == 2 ==> Encode(t)[3..] == "=" && '=' !in Encode(t)[..3]
  {
  }

  /**
   * Padding appears only in the encoding of the final partial group: `k` is
   * the length of the whole groups, the largest multiple of three up to `|b|`.
   */
  lemma EncodePadding(b: seq<Byte>, k: nat)
    requires k <= |b| && k % 3 == 0 && |b| - k < 3
    ensures Encode(b) == Encode(b[..k]) + Encode(b[k..])
    ensures '=' !in Encode(b[..k])
  {
    var a, c := b[..k], b[k..];
    EncodeAppend(a, c);
    assert a + c == b;
    WholeGroupsUnpadded(a);
  }
}

=== FILE: cache_variant.dfy ===
/**
 * The client half of the Inertia cache variant: module state fed from the
 * shared `inertiaCache` prop, and the `before` hook that tags full GET visits
 * of cacheable same-origin pages with the variant query parameter.
 * Compiling a pattern (`new RegExp`) and testing a path against it are
 * parameters: `compiles(p)` says whether the constructor accepts `p`,
 * `test(p, path)` what the compiled expression answers.
 */
module CacheVariant {
  import opened Text
  import opened JsonValue
  import InertiaMiddleware

  const DefaultQueryParameter: string := "__icv"
  const VariantValue: string := "1"

  /** The module-level state: settings plus whether the router hooks exist yet. */
  datatype CacheState = CacheState(
    queryParameter: string,
    routeMatchers: seq<string>,
    listenersRegistered: bool,
    handlerCount: nat)

  const Initial: CacheState := CacheState(DefaultQueryParameter, [], false, 0)

  /** The route patterns kept: non-empty strings the RegExp constructor accepts, in order. */
  function CompiledPatterns(items: seq<Json>, compiles: string -> bool): (r: seq<string>)
    ensures |r| <= |items|
    ensures forall k :: 0 <= k < |r| ==> |r[k]| > 0 && compiles(r[k]) && JStr(r[k]) in items
    ensures forall k ::
      (0 <= k < |items| && items[k].JStr? && |items[k].s| > 0 && compiles(items[k].s)) ==> items[k].s in r
  {
    if |items| == 0 then []
    else
      var rest := CompiledPatterns(items[1..], compiles);
      match items[0]
      case JStr(p) => if |p| > 0 && compiles(p) then [p] + rest else rest
      case _ => rest
  }

  /** `updateInertiaCacheState`: reads `props.inertiaCache`; anything not object-like leaves the state alone. */
  function Update(state: CacheState, props: Json, compiles: string -> bool): (r: CacheState)
    ensures r.listenersRegistered == state.listenersRegistered && r.handlerCount == state.handlerCount
    ensures !IsRecord(props) ==> r == state
    ensures IsRecord(props) && (Get(props, "inertiaCache").None? || !IsRecord(Get(props, "inertiaCache").value)) ==> r == state
    ensures |r.queryParameter| > 0 || r == state
    ensures IsRecord(props) && Get(props, "inertiaCache").Some? && IsRecord(Get(props, "inertiaCache").value) ==>
      var settings := Get(props, "inertiaCache").value;
      var supplied := Get(settings, "queryParameter");
      var patterns := Get(settings, "routePatterns");
      && (supplied.Some? && supplied.value.JStr? && |supplied.value.s| > 0 ==> r.queryParameter == supplied.value.s)
      && (!(supplied.Some? && supplied.value.JStr? && |supplied.value.s| > 0) ==> r.queryParameter == DefaultQueryParameter)
      && (patterns.Some? && patterns.value.JArr? ==> r.routeMatchers == CompiledPatterns(patterns.value.items, compiles))
      && (!(patterns.Some? && patterns.value.JArr?) ==> r.routeMatchers == [])
  {
    if !IsRecord(props) then state
    else match Get(props, "inertiaCache")
      case None => state
      case Some(settings) =>
        if !IsRecord(settings) then state
        else
          var qp := match Get(settings, "queryParameter")
            case Some(JStr(q)) => if |q| > 0 then q else DefaultQueryParameter
            case _ => DefaultQueryParameter;
          var matchers := match Get(settings, "routePatterns")
            case Some(JArr(items)) => CompiledPatterns(items, compiles)
            case _ => [];
          state.(queryParameter := qp, routeMatchers := matchers)
  }

  /** `isCacheableMarketingPath`: some kept pattern matches the path. */
  predicate IsCacheablePath(state: CacheState, pathname: string, test: (string, string) -> bool) {
    exists k :: 0 <= k < |state.routeMatchers| && test(state.routeMatchers[k], pathname)
  }

  /** What the `before` hook reads of and changes in a visit. */
  datatype Visit = Visit(
    requestMethod: string,
    only: seq<string>,
    except: seq<string>,
    origin: string,
    pathname: string,
    search: seq<(string, string)>)

  predicate IsPartialVisit(v: Visit) {
    |v.only| > 0 || |v.except| > 0
  }

  predicate HasParam(search: seq<(string, string)>, key: string) {
    exists k :: 0 <= k < |search| && search[k].0 == key
  }

  /** Whether the hook tags the visit at all (before looking at the query). */
  predicate Eligible(state: CacheState, v: Visit, windowOrigin: string, test: (string, string) -> bool) {
    v.requestMethod == "get" && !IsPartialVisit(v) && v.origin == windowOrigin && IsCacheablePath(state, v.pathname, test)
  }

  /** The `before` listener: appends `param=1` to eligible visits that lack it. */
  function BeforeVisit(state: CacheState, v: Visit, windowOrigin: string, test: (string, string) -> bool): (r: Visit)
    ensures r.(search := v.search) == v
    ensures Eligible(state, v, windowOrigin, test) && !HasParam(v.search, state.queryParameter) ==>
      r.search == v.search + [(state.queryParameter, VariantValue)]
    ensures !Eligible(state, v, windowOrigin, test) || HasParam(v.search, state.queryParameter) ==> r == v
    ensures Eligible(state, v, windowOrigin, test) ==> HasParam(r.search, state.queryParameter)
  {
    if v.requestMethod != "get" || IsPartialVisit(v) then v
    else if v.origin != windowOrigin || !IsCacheablePath(state, v.pathname, test) then v
    else if !HasParam(v.search, state.queryParameter) then
      var search := v.search + [(state.queryParameter, VariantValue)];
      assert search[|v.search|].0 == state.queryParameter;
      v.(search := search)
    else v
  }

  /** A partial reload (one that names `only` or `except` props) is never tagged. */
  lemma PartialVisitNotTagged(state: CacheState, v: Visit, windowOrigin: string, test: (string, string) -> bool)
    requires |v.only| > 0 || |v.except| > 0
    ensures BeforeVisit(state, v, windowOrigin, test) == v
  {
  }

  /**
   * A path no compiled pattern matches is never tagged; in particular,
   * before any page has shared its patterns no visit is.
   */
  lemma UnmatchedPathNotTagged(state: CacheState, v: Visit, windowOrigin: string, test: (string, string) -> bool)
    requires forall k :: 0 <= k < |state.routeMatchers| ==> !test(state.routeMatchers[k], v.pathname)
    ensures BeforeVisit(state, v, windowOrigin, test) == v
  {
  }

  /** Running the hook twice tags a visit once. */
  lemma BeforeVisitIdempotent(state: CacheState, v: Visit, windowOrigin: string, test: (string, string) -> bool)
    ensures BeforeVisit(state, BeforeVisit(state, v, windowOrigin, test), windowOrigin, test)
         == BeforeVisit(state, v, windowOrigin, test)
  {
  }

  /** Partial reloads never carry the variant, so their responses stay apart from full pages'. */
  lemma PartialVisitUntouched(state: CacheState, v: Visit, windowOrigin: string, test: (string, string) -> bool)
    requires IsPartialVisit(v)
    ensures BeforeVisit(state, v, windowOrigin, test) == v
  {
  }

  /** `registerListeners`: the `navigate` and `before` hooks, added once. */
  function RegisterListeners(state: CacheState): (r: CacheState)
    ensures r.listenersRegistered
    ensures r.queryParameter == state.queryParameter && r.routeMatchers == state.routeMatchers
    ensures state.listenersRegistered ==> r == state
    ensures !state.listenersRegistered ==> r.handlerCount == state.handlerCount + 2
  {
    if state.listenersRegistered then state
    else state.(listenersRegistered := true, handlerCount := state.handlerCount + 2)
  }

  /** `setupInertiaCacheVariant`. */
  function Setup(state: CacheState, initialProps: Json, compiles: string -> bool): (r: CacheState)
    ensures r.listenersRegistered
  {
    RegisterListeners(Update(state, initialProps, compiles))
  }

  /** The `navigate` hook: the new page's props replace the settings. */
  function OnNavigate(state: CacheState, props: Json, compiles: string -> bool): (r: CacheState)
    ensures r.listenersRegistered == state.listenersRegistered && r.handlerCount == state.handlerCount
  {
    Update(state, props, compiles)
  }

  /** Hooks exist exactly when registered, one pair of them. */
  predicate HandlersConsistent(s: CacheState) {
    s.handlerCount == if s.listenersRegistered then 2 else 0
  }

  /** Setup any number of times: the state after each call, in order. */
  function SetupAll(state: CacheState, propsSeq: seq<Json>, compiles: string -> bool): CacheState
    decreases |propsSeq|
  {
    if |propsSeq| == 0 then state
    else SetupAll(Setup(state, propsSeq[0], compiles), propsSeq[1..], compiles)
  }

  /** However often the app boots the variant, the router holds one pair of hooks. */
  lemma {:induction false} SetupRegistersOnce(state: CacheState, propsSeq: seq<Json>, compiles: string -> bool)
    requires HandlersConsistent(state)
    ensures HandlersConsistent(SetupAll(state, propsSeq, compiles))
    ensures |propsSeq| > 0 ==> SetupAll(state, propsSeq, compiles).handlerCount == 2
    decreases |propsSeq|
  {
    if |propsSeq| > 0 {
      SetupRegistersOnce(Setup(state, propsSeq[0], compiles), propsSeq[1..], compiles);
    }
  }

  /** Reading the server's shared prop adopts its parameter and every compilable pattern. */
  lemma AdoptsSharedSettings(
    state: CacheState, appName: string, attributes: map<string, Json>,
    memo: Option<seq<string>>, routes: seq<InertiaMiddleware.Route>, compiles: string -> bool)
    requires InertiaMiddleware.MemoAnchored(memo)
    ensures var props := InertiaMiddleware.Share(appName, attributes, memo, routes).0;
      var patterns := InertiaMiddleware.CacheableInertiaRoutePatterns(memo, routes).0;
      var r := Update(state, props, compiles);
      && r.queryParameter == InertiaMiddleware.CacheVariantQueryParameter
      && (forall p :: p in patterns && compiles(p) ==> p in r.routeMatchers)
      && (forall p :: p in r.routeMatchers ==> p in patterns)
  {
    var props := InertiaMiddleware.Share(appName, attributes, memo, routes).0;
    var patterns := InertiaMiddleware.CacheableInertiaRoutePatterns(memo, routes).0;
    InertiaMiddleware.MemoStaysAnchored(memo, routes);
    UpdateOfSharedProp(state, props, attributes, patterns, compiles);
    CompiledStrings(patterns, compiles);
  }

  lemma UpdateOfSharedProp(state: CacheState, props: Json, attributes: map<string, Json>, patterns: seq<string>, compiles: string -> bool)
    requires props.JObj? && Get(props, "inertiaCache") == Some(InertiaMiddleware.InertiaCacheProp(attributes, patterns))
    ensures Update(state, props, compiles) == state.(
      queryParameter := InertiaMiddleware.CacheVariantQueryParameter,
      routeMatchers := CompiledPatterns(InertiaMiddleware.StringArray(patterns).items, compiles))
  {
  }

  /** A list of non-empty strings keeps exactly its compilable members. */
  lemma CompiledStrings(patterns: seq<string>, compiles: string -> bool)
    requires forall p :: p in patterns ==> |p| > 0
    ensures var r := CompiledPatterns(InertiaMiddleware.StringArray(patterns).items, compiles);
      && (forall p :: p in patterns && compiles(p) ==> p in r)
      && (forall p :: p in r ==> p in patterns)
  {
    var items := InertiaMiddleware.StringArray(patterns).items;
    var r := CompiledPatterns(items, compiles);
    forall p | p in patterns && compiles(p)
      ensures p in r
    {
      var k :| 0 <= k < |patterns| && patterns[k] == p;
      assert items[k] == JStr(p);
    }
    forall p | p in r
      ensures p in patterns
    {
      var k :| 0 <= k < |r| && r[k] == p;
      var j :| 0 <= j < |items| && items[j] == JStr(p);
      assert patterns[j] == p;
    }
  }

  /**
   * The tag the client adds is the parameter the server strips: the page URL
   * the server reports for a tagged visit is the one for the untagged visit.
   */
  lemma TaggedVisitReportsSameUrl(
    state: CacheState, v: Visit, windowOrigin: string, test: (string, string) -> bool,
    build: seq<(string, string)> -> string)
    requires state.queryParameter == InertiaMiddleware.CacheVariantQueryParameter
    ensures var tagged := BeforeVisit(state, v, windowOrigin, test);
      InertiaMiddleware.ResolveUrl(tagged.pathname, tagged.search, build)
        == InertiaMiddleware.ResolveUrl(v.pathname, v.search, build)
  {
    var tagged := BeforeVisit(state, v, windowOrigin, test);
    if tagged != v {
      InertiaMiddleware.ResolveUrlIgnoresVariant(v.pathname, v.search, |v.search|, VariantValue, build);
      assert v.search[..|v.search|] + [(InertiaMiddleware.CacheVariantQueryParameter, VariantValue)] + v.search[|v.search|..]
          == tagged.search;
    }
  }
}

=== FILE: combobox.dfy ===
/**
 * The JSON-backed combobox: its controlled/uncontrolled value, selection
 * toggling, the request URL, the per-search cache of fetched options, and
 * the rule that keeps the selected option in the list. React state is a
 * value passed in and returned; the network answer is a parameter.
 *
 * An option is a record whose fields are already the text `String()` gives
 * them; a missing field reads as `"undefined"`.
 */
module Combobox {
  import opened Text

  type Opt = map<string, string>

  /** The text `String(o[key])` yields. */
  function Field(o: Opt, key: string): string {
    if key in o then o[key] else "undefined"
  }

  /** A value as the component receives it: a string, a number, or null/undefined. */
  datatype Value = Str(s: string) | Num(n: int) | Null {
    /** JavaScript truthiness. */
    predicate Truthy() {
      match this
      case Str(s) => s != ""
      case Num(n) => n != 0
      case Null => false
    }
    /** `String(value)` for a truthy value. */
    function Text(): string {
      match this
      case Str(s) => s
      case Num(n) => IntToString(n)
      case Null => "null"
    }
  }

  /** The index of the first option whose `key` field reads `val`. */
  function FindFirst(opts: seq<Opt>, key: string, val: string): (r: Option<nat>)
    ensures r.Some? ==> r.value < |opts| && Field(opts[r.value], key) == val
    ensures r.Some? ==> forall j :: 0 <= j < r.value ==> Field(opts[j], key) != val
    ensures r.None? <==> forall j :: 0 <= j < |opts| ==> Field(opts[j], key) != val
    decreases |opts|
  {
    if |opts| == 0 then None
    else if Field(opts[0], key) == val then Some(0)
    else
      match FindFirst(opts[1..], key, val)
      case None => None
      case Some(k) => Some(k + 1)
  }

  /** Some option's `key` field reads `val`. */
  predicate Has(opts: seq<Opt>, key: string, val: string) {
    exists j :: 0 <= j < |opts| && Field(opts[j], key) == val
  }

  /**
   * `mergeWithSelected`: the new results, with the previously listed
   * selected option put back in front when the results lack it.
   */
  function MergeWithSelected(prev: seq<Opt>, next: seq<Opt>, current: Value, valueKey: string): (r: seq<Opt>)
    ensures |next| <= |r| <= |next| + 1
    ensures r[|r| - |next|..] == next
    ensures !current.Truthy() || Has(next, valueKey, current.Text()) ==> r == next
    ensures |r| == |next| + 1 <==>
      current.Truthy() && !Has(next, valueKey, current.Text()) && Has(prev, valueKey, current.Text())
    ensures |r| == |next| + 1 ==> r[0] == prev[FindFirst(prev, valueKey, current.Text()).value]
  {
    if !current.Truthy() then next
    else
      var val := current.Text();
      if FindFirst(next, valueKey, val).Some? then next
      else
        match FindFirst(prev, valueKey, val)
        case Some(k) => [prev[k]] + next
        case None => next
  }

  /** A selected option that was listed before is still listed after a merge. */
  lemma MergeKeepsSelected(prev: seq<Opt>, next: seq<Opt>, current: Value, valueKey: string)
    requires current.Truthy() && Has(prev, valueKey, current.Text())
    ensures Has(MergeWithSelected(prev, next, current, valueKey), valueKey, current.Text())
  {
    var r := MergeWithSelected(prev, next, current, valueKey);
    if !Has(next, valueKey, current.Text()) {
      assert Field(r[0], valueKey) == current.Text();
    } else {
      var j :| 0 <= j < |next| && Field(next[j], valueKey) == current.Text();
      assert r[j] == next[j];
    }
  }

  // ---------------------------------------------------------------------------
  // Value and selection
  // ---------------------------------------------------------------------------

  /** Controlled by a `value` prop, or holding the value itself. */
  datatype Mode = Controlled(prop: Value) | Uncontrolled(internal: string)

  /** The initial internal value: `String(defaultValue)` when given and not null. */
  function InitialMode(controlled: Option<Value>, defaultValue: Value): (r: Mode)
    ensures controlled.Some? ==> r == Controlled(controlled.value)
    ensures controlled.None? && defaultValue.Null? ==> r == Uncontrolled("")
    ensures controlled.None? && !defaultValue.Null? ==> r == Uncontrolled(defaultValue.Text())
  {
    match controlled
    case Some(v) => Controlled(v)
    case None => Uncontrolled(if defaultValue.Null? then "" else defaultValue.Text())
  }

  /** `(isControlled ? value : internalValue) ?? ""`. */
  function CurrentValue(m: Mode): (r: Value)
    ensures !r.Null?
    ensures m.Uncontrolled? ==> r == Str(m.internal)
    ensures m.Controlled? && !m.prop.Null? ==> r == m.prop
  {
    match m
    case Controlled(v) => if v.Null? then Str("") else v
    case Uncontrolled(s) => Str(s)
  }

  /** What a change does: the new mode and the values handed to `onChange` (none without a handler). */
  datatype Change = Change(mode: Mode, emitted: seq<Option<string>>)

  /** `emitChange`: an uncontrolled combobox stores the value (null as ""); the handler always hears it. */
  function EmitChange(m: Mode, hasOnChange: bool, next: Option<string>): (r: Change)
    ensures m.Controlled? ==> r.mode == m
    ensures m.Uncontrolled? ==> r.mode == Uncontrolled(next.GetOr(""))
    ensures r.emitted == if hasOnChange then [next] else []
  {
    Change(if m.Controlled? then m else Uncontrolled(next.GetOr("")), if hasOnChange then [next] else [])
  }

  /** A selection: the change it makes, and the popover closes. */
  datatype Selection = Selection(change: Change, open: bool)

  /**
   * `handleSelect`: choosing the current value clears it (emits null),
   * choosing anything else emits it. The comparison is strict, so a
   * numeric controlled value never equals the chosen text.
   */
  function HandleSelect(m: Mode, hasOnChange: bool, selected: string): (r: Selection)
    ensures !r.open
    ensures CurrentValue(m) == Str(selected) && hasOnChange ==> r.change.emitted == [None]
    ensures CurrentValue(m) != Str(selected) && selected != "" && hasOnChange ==> r.change.emitted == [Some(selected)]
    ensures m.Uncontrolled? ==> r.change.mode == Uncontrolled(if m.internal == selected then "" else selected)
  {
    var newValue := if CurrentValue(m) == Str(selected) then "" else selected;
    Selection(EmitChange(m, hasOnChange, if newValue == "" then None else Some(newValue)), false)
  }

  /** In an uncontrolled combobox, choosing the same option twice clears the selection again. */
  lemma SelectTwiceRestores(internal: string, hasOnChange: bool, selected: string)
    requires internal != selected
    ensures var once := HandleSelect(Uncontrolled(internal), hasOnChange, selected).change.mode;
      && once == Uncontrolled(selected)
      && HandleSelect(once, hasOnChange, selected).change.mode == Uncontrolled("")
  {
  }

  /** `selected`: the first option whose value field reads the current value. */
  function Selected(options: seq<Opt>, current: Value, valueKey: string): (r: Option<Opt>)
    ensures r.Some? <==> Has(options, valueKey, current.Text())
    ensures r.Some? ==> r.value in options && Field(r.value, valueKey) == current.Text()
  {
    match FindFirst(options, valueKey, current.Text())
    case Some(k) => Some(options[k])
    case None => None
  }

  /** What React shows for `o[key]` as a child: a missing field renders as nothing. */
  function Rendered(o: Opt, key: string): string {
    if key in o then o[key] else ""
  }

  /**
   * The trigger's text: the label of the first option whose value field
   * reads the current value (`find`), or the placeholder.
   */
  function TriggerLabel(options: seq<Opt>, current: Value, valueKey: string, labelKey: string, placeholder: string): (r: string)
    ensures !Has(options, valueKey, current.Text()) ==> r == placeholder
    ensures Has(options, valueKey, current.Text()) ==>
      exists j :: 0 <= j < |options| && Field(options[j], valueKey) == current.Text()
        && (forall i :: 0 <= i < j ==> Field(options[i], valueKey) != current.Text())
        && r == Rendered(options[j], labelKey)
  {
    match FindFirst(options, valueKey, current.Text())
    case Some(k) => Rendered(options[k], labelKey)
    case None => placeholder
  }

  /** Options before the first match never decide the label, and later ones never do either. */
  lemma TriggerLabelOfFirstMatch(before: seq<Opt>, o: Opt, after: seq<Opt>, current: Value, valueKey: string, labelKey: string, placeholder: string)
    requires forall i :: 0 <= i < |before| ==> Field(before[i], valueKey) != current.Text()
    requires Field(o, valueKey) == current.Text()
    ensures TriggerLabel(before + [o] + after, current, valueKey, labelKey, placeholder) == Rendered(o, labelKey)
  {
    var opts := before + [o] + after;
    assert opts[|before|] == o;
    forall i | 0 <= i < |before|
      ensures Field(opts[i], valueKey) != current.Text()
    {
      assert opts[i] == before[i];
    }
  }

  /** Two options with the same value: the first one's label is shown; an option without a label shows nothing. */
  lemma TriggerLabelExamples()
    ensures TriggerLabel([map["value" := "a", "label" := "X"], map["value" := "a", "label" := "Y"]], Str("a"), "value", "label", "Pick") == "X"
    ensures TriggerLabel([map["value" := "a"]], Str("a"), "value", "label", "Pick") == ""
  {
    var two := [map["value" := "a", "label" := "X"], map["value" := "a", "label" := "Y"]];
    assert Field(two[0], "value") == "a";
    var one := [map["value" := "a"]];
    assert Field(one[0], "value") == "a";
    assert "label" !in one[0];
  }

  /** The option made from a value and the default label. */
  function Synthetic(current: Value, valueKey: string, labelKey: string, caption: string): Opt {
    map[valueKey := current.Text()][labelKey := caption]
  }

  /** The mount-time seed: a lone option for an initial value with a default label. */
  function SeedOnMount(options: seq<Opt>, current: Value, valueKey: string, labelKey: string, defaultLabel: string): (r: seq<Opt>)
    ensures |options| == 0 && current.Truthy() && defaultLabel != "" ==> r == [Synthetic(current, valueKey, labelKey, defaultLabel)]
    ensures !(|options| == 0 && current.Truthy() && defaultLabel != "") ==> r == options
  {
    if |options| == 0 && current.Truthy() && defaultLabel != "" then [Synthetic(current, valueKey, labelKey, defaultLabel)]
    else options
  }

  /**
   * The effect that keeps an externally set value listed: a synthetic
   * option goes in front when the value is missing and a default label
   * (possibly empty text, which is falsy) is given.
   */
  function EnsureSelected(options: seq<Opt>, current: Value, valueKey: string, labelKey: string, defaultLabel: string): (r: seq<Opt>)
    ensures |options| <= |r| <= |options| + 1
    ensures r[|r| - |options|..] == options
    ensures |r| == |options| + 1 <==> current.Truthy() && !Has(options, valueKey, current.Text()) && defaultLabel != ""
    ensures |r| == |options| + 1 ==> r[0] == Synthetic(current, valueKey, labelKey, defaultLabel)
  {
    if !current.Truthy() then options
    else if !Has(options, valueKey, current.Text()) && defaultLabel != "" then
      [Synthetic(current, valueKey, labelKey, defaultLabel)] + options
    else options
  }

  /** With distinct value and label keys, the effect lists the value and running it again changes nothing. */
  lemma EnsureSelectedSettles(options: seq<Opt>, current: Value, valueKey: string, labelKey: string, defaultLabel: string)
    requires valueKey != labelKey
    requires current.Truthy() && defaultLabel != ""
    ensures var once := EnsureSelected(options, current, valueKey, labelKey, defaultLabel);
      && Has(once, valueKey, current.Text())
      && EnsureSelected(once, current, valueKey, labelKey, defaultLabel) == once
  {
    var once := EnsureSelected(options, current, valueKey, labelKey, defaultLabel);
    if |once| == |options| + 1 {
      assert Field(once[0], valueKey) == current.Text();
    }
  }

  // ---------------------------------------------------------------------------
  // Fetching
  // ---------------------------------------------------------------------------

  /**
   * The request URL: the bare URL for an empty search, else with a
   * `search` query parameter. `encode` is the form encoding
   * `URLSearchParams` applies.
   */
  function FetchUrl(url: string, search: string, encode: string -> string): (r: string)
    ensures search == "" <==> r == url
    ensures search != "" ==> r == url + "?search=" + encode(search)
  {
    if search == "" then url else url + "?search=" + encode(search)
  }

  /** The JSON body of a successful response: an array of options, or anything else. */
  datatype Payload = OptionArray(list: seq<Opt>) | NotArray

  /** How the request ends. */
  datatype Response =
    | Body(payload: Payload)
    | NotOk
    | Thrown(name: string, isError: bool, message: string)

  const FetchFailedMessage: string := "Failed to fetch options"
  const FallbackMessage: string := "An error occurred"

  datatype State = State(options: seq<Opt>, loading: bool, error: Option<string>, cache: map<string, seq<Opt>>)

  /** A fetch's effect: the new state and the URL requested, if any. */
  datatype Fetched = Fetched(state: State, requested: Option<string>)

  /** The array a body supplies. */
  function ListOf(p: Payload): (r: seq<Opt>)
    ensures p.OptionArray? ==> r == p.list
    ensures p.NotArray? ==> r == []
  {
    match p
    case OptionArray(l) => l
    case NotArray => []
  }

  /**
   * `fetchOptions`. A cached search is served without a request and clears
   * the error. Otherwise the error is cleared, the URL requested, and
   * loading ends false whatever the answer. An abort leaves the options
   * alone.
   */
  function FetchOptions(s: State, search: string, current: Value, valueKey: string,
                        url: string, encode: string -> string, response: Response): (r: Fetched)
    ensures r.state.error.None? || r.state.options == []
    ensures r.state.cache == if search !in s.cache && response.Body? then s.cache[search := ListOf(response.payload)] else s.cache
    ensures search in s.cache ==>
      && r.requested.None?
      && r.state == s.(options := MergeWithSelected(s.options, s.cache[search], current, valueKey), error := None)
    ensures search !in s.cache ==>
      && r.requested == Some(FetchUrl(url, search, encode))
      && !r.state.loading
    ensures search !in s.cache && response.Body? ==>
      && r.state.cache == s.cache[search := ListOf(response.payload)]
      && r.state.options == MergeWithSelected(s.options, ListOf(response.payload), current, valueKey)
      && r.state.error.None?
    ensures search !in s.cache && response.NotOk? ==>
      r.state.error == Some(FetchFailedMessage) && r.state.options == [] && r.state.cache == s.cache
    ensures search !in s.cache && response.Thrown? && response.name != "AbortError" ==>
      && r.state.error == Some(if response.isError then response.message else FallbackMessage)
      && r.state.options == []
      && r.state.cache == s.cache
    ensures search !in s.cache && response.Thrown? && response.name == "AbortError" ==>
      r.state == s.(loading := false, error := None)
  {
    if search in s.cache then
      Fetched(s.(options := MergeWithSelected(s.options, s.cache[search], current, valueKey), error := None), None)
    else
      var requested := Some(FetchUrl(url, search, encode));
      var started := s.(loading := true, error := None);
      var settled :=
        match response
        case Body(p) =>
          var list := ListOf(p);
          started.(cache := started.cache[search := list],
                   options := MergeWithSelected(started.options, list, current, valueKey))
        case NotOk => started.(error := Some(FetchFailedMessage), options := [])
        case Thrown(name, isError, message) =>
          if name != "AbortError" then
            started.(error := Some(if isError then message else FallbackMessage), options := [])
          else started;
      Fetched(settled.(loading := false), requested)
  }

  /** The cache only grows, and a cached list is never replaced. */
  lemma CacheOnlyGrows(s: State, search: string, current: Value, valueKey: string,
                       url: string, encode: string -> string, response: Response)
    ensures var c := FetchOptions(s, search, current, valueKey, url, encode, response).state.cache;
      forall k :: k in s.cache ==> k in c && c[k] == s.cache[k]
  {
  }

  /** After a successful fetch, the same search is answered from the cache with the same list. */
  lemma SecondFetchHitsCache(s: State, search: string, current: Value, valueKey: string,
                             url: string, encode: string -> string, p: Payload, again: Response)
    requires search !in s.cache
    ensures var first := FetchOptions(s, search, current, valueKey, url, encode, Body(p)).state;
      var second := FetchOptions(first, search, current, valueKey, url, encode, again);
      && second.requested.None?
      && second.state.options == MergeWithSelected(first.options, ListOf(p), current, valueKey)
      && second.state.error.None?
  {
  }

  /** The trigger's click fetches the empty search when it is not cached and nothing is loading. */
  predicate FetchesOnOpen(s: State) {
    "" !in s.cache && !s.loading
  }

  /** What the list area shows. */
  datatype ListView = ErrorView(message: string) | EmptyView(text: string) | OptionsView(items: seq<Opt>) | Blank

  function View(s: State, emptyText: string): (r: ListView)
    ensures s.error.Some? && s.error.value != "" <==> r.ErrorView?
    ensures r.EmptyView? <==> (s.error.None? || s.error.value == "") && |s.options| == 0 && !s.loading
    ensures r.OptionsView? <==> (s.error.None? || s.error.value == "") && |s.options| > 0
    ensures r.OptionsView? ==> r.items == s.options
  {
    if s.error.Some? && s.error.value != "" then ErrorView(s.error.value)
    else if |s.options| == 0 && !s.loading then EmptyView(emptyText)
    else if |s.options| > 0 then OptionsView(s.options)
    else Blank
  }
}

=== FILE: combobox_preview.dfy ===
/**
 * The combobox preview: a fixed list of users filtered by a starts-with
 * search, as a server would, and a toggling selection.
 */
module ComboboxPreview {
  import opened Text

  datatype User = User(value: string, email: string)

  const Users: seq<User> := [
    User("1", "alice@example.com"), User("2", "bob@example.com"), User("3", "carol@example.com"),
    User("4", "david@example.com"), User("5", "emma@example.com"), User("6", "frank@example.com"),
    User("7", "grace@example.com"), User("8", "henry@example.com"), User("9", "ivy@example.com"),
    User("10", "jack@example.com"), User("11", "acooper@example.com"), User("12", "emily@example.com")
  ]

  const EmptyMessage: string := "No email found."

  /** The user's lowercased email starts with the lowercased query. */
  predicate Matches(u: User, query: string) {
    StartsWith(Lower(u.email), Lower(query))
  }

  /** The matching users, in list order. */
  function MatchingUsers(users: seq<User>, query: string): (r: seq<User>)
    ensures |r| <= |users|
    ensures forall u :: u in r <==> u in users && Matches(u, query)
    decreases |users|
  {
    if |users| == 0 then []
    else if Matches(users[0], query) then [users[0]] + MatchingUsers(users[1..], query)
    else MatchingUsers(users[1..], query)
  }

  /** Filtering keeps list order: the matches of a concatenation are the matches of each part, in turn. */
  lemma {:induction false} MatchingUsersAppend(a: seq<User>, b: seq<User>, query: string)
    ensures MatchingUsers(a + b, query) == MatchingUsers(a, query) + MatchingUsers(b, query)
    decreases |a|
  {
    if |a| > 0 {
      assert (a + b)[1..] == a[1..] + b;
      MatchingUsersAppend(a[1..], b, query);
    } else {
      assert a + b == b;
    }
  }

  /** The filtered options: everyone for an empty query, else the starts-with matches. */
  function FilteredOptions(searchQuery: string): (r: seq<User>)
    ensures searchQuery == "" ==> r == Users
    ensures forall u :: u in r <==> u in Users && Matches(u, searchQuery)
  {
    if searchQuery == "" then
      assert forall u :: u in Users ==> Matches(u, "");
      Users
    else MatchingUsers(Users, searchQuery)
  }

  /** Typing more never brings back a user that a shorter query filtered out. */
  lemma LongerQueryNarrows(q: string, more: string)
    ensures forall u :: u in FilteredOptions(q + more) ==> u in FilteredOptions(q)
  {
    forall u | u in FilteredOptions(q + more)
      ensures Matches(u, q)
    {
      var lq := Lower(q);
      var lm := Lower(q + more);
      assert lm[..|lq|] == lq;
      assert Lower(u.email)[..|lq|] == lm[..|lq|];
    }
  }

  /** `handleSelect`: the current value is cleared to "", anything else becomes the value. */
  function HandleSelect(value: string, selected: string): (r: (string, bool))
    ensures !r.1
    ensures r.0 == "" <==> value == selected || selected == ""
    ensures value != selected ==> r.0 == selected
  {
    (if selected == value then "" else selected, false)
  }

  /** `users.find`: the first user whose value is the selection. */
  function SelectedOption(users: seq<User>, value: string): (r: Option<User>)
    ensures r.Some? ==> r.value in users && r.value.value == value
    ensures r.None? <==> forall i :: 0 <= i < |users| ==> users[i].value != value
    decreases |users|
  {
    if |users| == 0 then None
    else if users[0].value == value then Some(users[0])
    else SelectedOption(users[1..], value)
  }

  /** No user has an empty value, so the cleared selection shows the placeholder. */
  lemma NothingSelectedWhenCleared(value: string)
    requires value == ""
    ensures SelectedOption(Users, value).None?
  {
    assert forall i :: 0 <= i < |Users| ==> |Users[i].value| > 0;
  }

  /** The list shows the empty message exactly when nothing matches, and the options otherwise. */
  function ListContent(searchQuery: string): (r: Result<seq<User>, string>)
    ensures r.Err? <==> forall u :: u in Users ==> !Matches(u, searchQuery)
    ensures r.Err? ==> r.error == EmptyMessage
    ensures r.Ok? ==> r.value == FilteredOptions(searchQuery)
  {
    var options := FilteredOptions(searchQuery);
    if |options| == 0 then Err(EmptyMessage)
    else
      assert options[0] in options;
      Ok(options)
  }
}

=== FILE: docs.dfy ===
/**
 * The docs controller: it reads the build's MDX manifest and renders the
 * page whose manifest entry has the requested slug, or answers 404.
 */
module Docs {
  import opened Text
  import opened JsonValue

  /** The file system: contents by path. */
  type Files = map<string, string>

  const ManifestPath := "bootstrap/cache/mdx.json"

  /**
   * What `json_decode($text, true)` gives, as far as the controller can
   * tell: `null` (also for text that is not JSON), an array (its values in
   * order; JSON lists and objects alike), or another scalar.
   */
  datatype Decoded = DecodedNull | DecodedArray(values: seq<Json>) | DecodedScalar

  /** `manifest()`'s declared `array` return type rejects a scalar. */
  datatype ManifestError = ReturnTypeError

  /** `manifest()`: no file or `null` give no entries; an array gives its values. */
  function Manifest(files: Files, decode: string -> Decoded): (r: Result<seq<Json>, ManifestError>)
    ensures ManifestPath !in files ==> r == Ok([])
    ensures ManifestPath in files && decode(files[ManifestPath]).DecodedNull? ==> r == Ok([])
    ensures ManifestPath in files && decode(files[ManifestPath]).DecodedArray? ==> r == Ok(decode(files[ManifestPath]).values)
    ensures r.Err? <==> ManifestPath in files && decode(files[ManifestPath]).DecodedScalar?
  {
    if ManifestPath !in files then Ok([])
    else
      match decode(files[ManifestPath])
      case DecodedNull => Ok([])
      case DecodedArray(values) => Ok(values)
      case DecodedScalar => Err(ReturnTypeError)
  }

  /** An entry whose `slug` is the given one. */
  predicate HasSlug(entry: Json, slug: string) {
    Get(entry, "slug") == Some(JStr(slug))
  }

  /** `firstWhere('slug', $slug)`: the index of the first entry with that slug. */
  function FirstWithSlug(entries: seq<Json>, slug: string): (r: Option<nat>)
    ensures r.Some? ==> r.value < |entries| && HasSlug(entries[r.value], slug)
    ensures r.Some? ==> forall j :: 0 <= j < r.value ==> !HasSlug(entries[j], slug)
    ensures r.None? <==> forall j :: 0 <= j < |entries| ==> !HasSlug(entries[j], slug)
    decreases |entries|
  {
    if |entries| == 0 then None
    else if HasSlug(entries[0], slug) then Some(0)
    else
      var rest := FirstWithSlug(entries[1..], slug);
      assert forall j :: 1 <= j < |entries| ==> entries[j] == entries[1..][j - 1];
      if rest.None? then None else Some(rest.value + 1)
  }

  /** The controller's answer: 404, or the Inertia page with its props. */
  datatype Response = NotFound | Page(component: string, slug: string, meta: Json, toc: Json)

  /** `$array[$key] ?? $default`. */
  function KeyOr(entry: Json, key: string, default: Json): (r: Json)
    ensures Get(entry, key).Some? && !Get(entry, key).value.JNull? ==> r == Get(entry, key).value
    ensures Get(entry, key).None? || Get(entry, key).value.JNull? ==> r == default
  {
    match Get(entry, key)
    case Some(v) => if v.JNull? then default else v
    case None => default
  }

  const PagePrefix := "docs/posts/"

  /** `show($slug)` over the manifest's entries. */
  function Show(entries: seq<Json>, slug: string): (r: Response)
    ensures r.NotFound? <==> forall j :: 0 <= j < |entries| ==> !HasSlug(entries[j], slug)
    ensures r.Page? ==> r.component == PagePrefix + slug && r.slug == slug
    ensures r.Page? ==> FirstWithSlug(entries, slug).Some?
    ensures r.Page? ==> r.meta == KeyOr(entries[FirstWithSlug(entries, slug).value], "meta", JArr([]))
    ensures r.Page? ==> r.toc == KeyOr(entries[FirstWithSlug(entries, slug).value], "toc", JNull)
  {
    var found := FirstWithSlug(entries, slug);
    if found.None? then NotFound
    else
      var entry := entries[found.value];
      Page(PagePrefix + slug, slug, KeyOr(entry, "meta", JArr([])), KeyOr(entry, "toc", JNull))
  }

  /** The request as a whole: the manifest read from the files, then the lookup. */
  function Request(files: Files, decode: string -> Decoded, slug: string): (r: Result<Response, ManifestError>)
    ensures ManifestPath !in files ==> r == Ok(NotFound)
    ensures r.Err? <==> Manifest(files, decode).Err?
    ensures r.Ok? ==> r.value == Show(Manifest(files, decode).value, slug)
  {
    match Manifest(files, decode)
    case Ok(entries) => Ok(Show(entries, slug))
    case Err(e) => Err(e)
  }

  /** The first entry with the slug decides: entries after it never matter. */
  lemma {:induction false} FirstEntryDecides(entries: seq<Json>, later: seq<Json>, slug: string)
    requires exists j :: 0 <= j < |entries| && HasSlug(entries[j], slug)
    ensures Show(entries + later, slug) == Show(entries, slug)
  {
    var i := FirstWithSlug(entries, slug).value;
    FirstWithSlugPrefix(entries, later, slug);
    assert (entries + later)[i] == entries[i];
  }

  lemma {:induction false} FirstWithSlugPrefix(entries: seq<Json>, later: seq<Json>, slug: string)
    requires FirstWithSlug(entries, slug).Some?
    ensures FirstWithSlug(entries + later, slug) == FirstWithSlug(entries, slug)
    decreases |entries|
  {
    if !HasSlug(entries[0], slug) {
      assert (entries + later)[1..] == entries[1..] + later;
      FirstWithSlugPrefix(entries[1..], later, slug);
    }
  }

  /** Entries with other slugs in front change nothing. */
  lemma {:induction false} OtherSlugsIgnored(others: seq<Json>, entries: seq<Json>, slug: string)
    requires forall j :: 0 <= j < |others| ==> !HasSlug(others[j], slug)
    ensures Show(others + entries, slug) == Show(entries, slug)
  {
    FirstWithSlugAfter(others, entries, slug);
    var f := FirstWithSlug(entries, slug);
    if f.Some? {
      assert (others + entries)[|others| + f.value] == entries[f.value];
    }
  }

  lemma {:induction false} FirstWithSlugAfter(others: seq<Json>, entries: seq<Json>, slug: string)
    requires forall j :: 0 <= j < |others| ==> !HasSlug(others[j], slug)
    ensures var f := FirstWithSlug(entries, slug);
      FirstWithSlug(others + entries, slug) == (if f.None? then None else Some(|others| + f.value))
    decreases |others|
  {
    if |others| > 0 {
      assert (others + entries)[0] == others[0];
      assert (others + entries)[1..] == others[1..] + entries;
      FirstWithSlugAfter(others[1..], entries, slug);
    } else {
      assert others + entries == entries;
    }
  }
}

=== FILE: document_create.dfy ===
/**
 * The document-creation endpoint: it validates a name and a non-empty list
 * of uploaded-file records, logs what passed validation and redirects back
 * with a success flash. Persisting documents is commented out in the
 * controller and so is not part of the behaviour.
 */
module DocumentCreate {
  import opened Text
  import opened JsonValue
  import opened Validation

  const MaxNameLength: nat := 255
  const FilesField: string := "uploadedFiles"
  const NameRules: seq<(string, Rule)> := [("name", StringRule(Some(MaxNameLength)))]
  const FileRules: seq<(string, Rule)> := [
    ("id", StringRule(None)),
    ("name", StringRule(None)),
    ("sha256", StringRule(None)),
    ("size", IntegerRule(Some(0), None)),
    ("type", StringRule(None))]
  const FileKeys: set<string> := {"id", "name", "sha256", "size", "type"}

  const LogMessage: string := "Document creation request received"
  const FlashKey: string := "success"
  const FlashMessage: string := "Files uploaded successfully"

  /** The `Log::info` call: its message, the validated name and the validated file records. */
  datatype LogEntry = LogEntry(message: string, name: Json, uploadedFiles: seq<Json>)

  datatype Outcome =
    | RedirectBack(log: LogEntry, flashKey: string, flashMessage: string)
    | InvalidRedirectBack(errors: seq<Attribute>)   // back to the form, errors in the session

  /**
   * What `validated()` keeps of one record: only the keys a `uploadedFiles.*.x`
   * rule names (unvalidated array keys are excluded).
   */
  function ValidatedItem(item: Json): Json {
    match item
    case JObj(fields) => JObj(map k | k in fields && k in FileKeys :: fields[k])
    case _ => item
  }

  function ValidatedItems(items: seq<Json>): (r: seq<Json>)
    ensures |r| == |items|
    ensures forall i :: 0 <= i < |items| ==> r[i] == ValidatedItem(items[i])
  {
    seq(|items|, i requires 0 <= i < |items| => ValidatedItem(items[i]))
  }

  /** The controller: validation, then the log entry and the redirect. */
  function Invoke(body: Json): (r: Outcome)
    ensures r.RedirectBack? <==> Valid(body, NameRules, FilesField, FileRules)
    ensures r.InvalidRedirectBack? ==> |r.errors| > 0
    ensures r.RedirectBack? ==>
      && r.flashKey == FlashKey && r.flashMessage == FlashMessage
      && r.log.message == LogMessage
      && Get(body, "name") == Some(r.log.name)
  {
    match Validate(body, NameRules, FilesField, FileRules)
    case Err(errors) => InvalidRedirectBack(errors)
    case Ok(validated) =>
      RedirectBack(
        LogEntry(LogMessage, Get(validated, "name").value, ValidatedItems(Get(validated, FilesField).value.items)),
        FlashKey, FlashMessage)
  }

  /** A string field `required|string` accepts. */
  predicate PresentString(v: Option<Json>) {
    v.Some? && v.value.JStr? && !IsBlank(v.value.s)
  }

  /**
   * A `size` value `required|integer|min:0` accepts: a non-negative integer
   * PHP can hold, given as a number, as `true` (read as 1), or as its
   * decimal text with any spaces, tabs and line breaks around it.
   */
  predicate NonNegativeInteger(v: Option<Json>) {
    match v
    case Some(JNum(n)) => 0 <= n <= PhpIntMax
    case Some(JBool(b)) => b
    case Some(JStr(s)) =>
      var t := FilterTrim(s);
      DecimalInt(t).Some? && 0 <= DecimalInt(t).value <= PhpIntMax
    case _ => false
  }

  /** One uploaded-file record as the rules describe it, written out field by field. */
  predicate WellFormedFile(f: Json) {
    && PresentString(Get(f, "id"))
    && PresentString(Get(f, "name"))
    && PresentString(Get(f, "sha256"))
    && NonNegativeInteger(Get(f, "size"))
    && PresentString(Get(f, "type"))
  }

  /** A request the endpoint accepts, written out field by field. */
  predicate WellFormedRequest(body: Json) {
    && PresentString(Get(body, "name"))
    && |Get(body, "name").value.s| <= MaxNameLength
    && Get(body, FilesField).Some?
    && Get(body, FilesField).value.JArr?
    && |Get(body, FilesField).value.items| > 0
    && forall i :: 0 <= i < |Get(body, FilesField).value.items| ==> WellFormedFile(Get(body, FilesField).value.items[i])
  }

  /** A string holding a decimal literal is never blank: the literal ends in a digit. */
  lemma DecimalIntNotBlank(s: string)
    requires DecimalInt(FilterTrim(s)).Some?
    ensures !IsBlank(s)
  {
    var u := TrimFilterStart(s);
    var t := TrimFilterEnd(u);
    assert t[|t| - 1] == u[|t| - 1] == s[|s| - |u| + |t| - 1];
    assert !IsPhpSpace(s[|s| - |u| + |t| - 1]);
  }

  lemma SizePassesIff(v: Option<Json>)
    ensures FieldPasses(v, IntegerRule(Some(0), None)) <==> NonNegativeInteger(v)
  {
    if v.Some? && v.value.JStr? {
      TextSizePassesIff(v.value.s);
    }
  }

  lemma TextSizePassesIff(s: string)
    ensures FieldPasses(Some(JStr(s)), IntegerRule(Some(0), None)) <==> NonNegativeInteger(Some(JStr(s)))
  {
    var d := DecimalInt(FilterTrim(s));
    assert IntegerValue(JStr(s)) == (if d.Some? then InPhpRange(d.value) else None);
    if d.Some? {
      DecimalIntNotBlank(s);
    }
  }

  lemma FilePassesIff(f: Json)
    ensures ItemPasses(f, FileRules) <==> WellFormedFile(f)
  {
    SizePassesIff(Get(f, "size"));
    if WellFormedFile(f) {
      forall k | 0 <= k < |FileRules|
        ensures FieldPasses(Get(f, FileRules[k].0), FileRules[k].1)
      {
        if k == 3 {
          assert FileRules[k] == ("size", IntegerRule(Some(0), None));
        }
      }
    }
    if ItemPasses(f, FileRules) {
      assert FieldPasses(Get(f, FileRules[0].0), FileRules[0].1);
      assert FieldPasses(Get(f, FileRules[1].0), FileRules[1].1);
      assert FieldPasses(Get(f, FileRules[2].0), FileRules[2].1);
      assert FieldPasses(Get(f, FileRules[3].0), FileRules[3].1);
      assert FieldPasses(Get(f, FileRules[4].0), FileRules[4].1);
    }
  }

  /** The endpoint accepts exactly the well-formed requests. */
  lemma AcceptsExactlyWellFormed(body: Json)
    ensures Invoke(body).RedirectBack? <==> WellFormedRequest(body)
  {
    var list := Get(body, FilesField);
    if list.Some? && list.value.JArr? {
      forall i | 0 <= i < |list.value.items|
        ensures ItemPasses(list.value.items[i], FileRules) <==> WellFormedFile(list.value.items[i])
      {
        FilePassesIff(list.value.items[i]);
      }
    }
    if Valid(body, NameRules, FilesField, FileRules) {
      assert FieldPasses(Get(body, NameRules[0].0), NameRules[0].1);
    }
    if WellFormedRequest(body) {
      forall k | 0 <= k < |NameRules|
        ensures FieldPasses(Get(body, NameRules[k].0), NameRules[k].1)
      {
        assert k == 0;
      }
    }
  }

  /** An empty `uploadedFiles` list is rejected, and the error names that field. */
  lemma EmptyFilesRejected(body: Json)
    requires Get(body, FilesField) == Some(JArr([]))
    ensures Invoke(body).InvalidRedirectBack?
    ensures Field(FilesField) in Invoke(body).errors
  {
    assert !ListPasses(Get(body, FilesField));
    ErrorsExact(body, NameRules, FilesField, FileRules, 0, "");
    ErrorsEmptyIffValid(body, NameRules, FilesField, FileRules);
  }

  /**
   * The log carries each file record in order, cut down to the five rule
   * keys, each holding the value the request sent.
   */
  lemma LogKeepsRuleFields(body: Json, i: nat, k: string)
    requires Invoke(body).RedirectBack?
    requires k in FileKeys
    ensures var items := Get(body, FilesField).value.items;
      var logged := Invoke(body).log.uploadedFiles;
      && |logged| == |items|
      && (i < |items| ==> logged[i].JObj? && logged[i].fields.Keys == FileKeys && Get(logged[i], k) == Get(items[i], k))
  {
    var items := Get(body, FilesField).value.items;
    assert Validate(body, NameRules, FilesField, FileRules) == Ok(body);
    assert Invoke(body).log.uploadedFiles == ValidatedItems(items);
    if i < |items| {
      AcceptsExactlyWellFormed(body);
      ValidatedItemKeeps(items[i], k);
    }
  }

  /** A well-formed record keeps exactly the five rule keys, with their values. */
  lemma ValidatedItemKeeps(f: Json, k: string)
    requires WellFormedFile(f)
    requires k in FileKeys
    ensures ValidatedItem(f).JObj? && ValidatedItem(f).fields.Keys == FileKeys
    ensures Get(ValidatedItem(f), k) == Get(f, k)
  {
    var fields := f.fields;
    assert "id" in fields && "name" in fields && "sha256" in fields && "size" in fields && "type" in fields;
    assert (map key | key in fields && key in FileKeys :: fields[key]).Keys == FileKeys;
  }

  /**
   * The `sha256` field is only required to be a non-blank string: any such
   * value in place of a valid record's digest is still accepted.
   */
  lemma Sha256NotFormatChecked(body: Json, i: nat, digest: string)
    requires WellFormedRequest(body)
    requires i < |Get(body, FilesField).value.items|
    requires !IsBlank(digest)
    ensures var items := Get(body, FilesField).value.items;
      var item := JObj(items[i].fields["sha256" := JStr(digest)]);
      WellFormedRequest(JObj(body.fields[FilesField := JArr(items[i := item])]))
  {
    var items := Get(body, FilesField).value.items;
    var item := JObj(items[i].fields["sha256" := JStr(digest)]);
    var body' := JObj(body.fields[FilesField := JArr(items[i := item])]);
    assert Get(body', "name") == Get(body, "name");
    var updated := items[i := item];
    forall j | 0 <= j < |updated|
      ensures WellFormedFile(updated[j])
    {
      if j == i {
        assert Get(item, "id") == Get(items[i], "id");
        assert Get(item, "size") == Get(items[i], "size");
      }
    }
  }
}

=== FILE: inertia_middleware.dfy ===
/**
 * The server half of the Inertia cache variant: the `HandleInertiaRequests`
 * middleware strips the variant query parameter, marks partial reloads as
 * uncacheable, reports page URLs without the parameter, and shares the
 * client-side regular expressions of every cacheable GET route.
 */
module InertiaMiddleware {
  import opened Text
  import opened JsonValue

  /** The query parameter the client adds to full visits of cacheable pages. */
  const CacheVariantQueryParameter: string := "__icv"

  /** The request attribute `MarkInertiaCacheable` sets to `true`. */
  const CacheableAttribute: string := "inertia_cacheable"

  /** The class name a route's gathered middleware must list to be cacheable. */
  const MarkCacheableMiddleware: string := "App\\Http\\Middleware\\MarkInertiaCacheable"

  /** Header names are stored lower-cased, as Symfony's header bag normalises them. */
  const PartialComponentHeader: string := "x-inertia-partial-component"

  const NoStoreCacheControl: string := "no-store, no-cache, must-revalidate, max-age=0"

  // ---------------------------------------------------------------------------
  // Query strings
  // ---------------------------------------------------------------------------

  /** A query string in order, one pair per parameter. */
  type Query = seq<(string, string)>

  /** `unset($query[$key])` / `$request->query->remove($key)`. */
  function RemoveParam(q: Query, key: string): (r: Query)
    ensures forall i :: 0 <= i < |r| ==> r[i].0 != key
    ensures forall k :: 0 <= k < |q| && q[k].0 != key ==> q[k] in r
    ensures forall x :: x in r ==> x in q
    ensures |r| <= |q|
  {
    if |q| == 0 then []
    else if q[0].0 == key then RemoveParam(q[1..], key)
    else [q[0]] + RemoveParam(q[1..], key)
  }

  lemma {:induction false} RemoveParamAppend(a: Query, b: Query, key: string)
    ensures RemoveParam(a + b, key) == RemoveParam(a, key) + RemoveParam(b, key)
    decreases |a|
  {
    if |a| == 0 {
      assert a + b == b;
    } else {
      assert (a + b)[1..] == a[1..] + b;
      RemoveParamAppend(a[1..], b, key);
    }
  }

  /** Adding the parameter anywhere in a query does not survive its removal. */
  lemma RemoveParamInserted(q: Query, i: nat, key: string, value: string)
    requires i <= |q|
    ensures RemoveParam(q[..i] + [(key, value)] + q[i..], key) == RemoveParam(q, key)
  {
    var a, b := q[..i], q[i..];
    var one: Query := [(key, value)];
    var ra, rb := RemoveParam(a, key), RemoveParam(b, key);
    assert RemoveParam(one, key) == [] by {
      assert one[1..] == [];
    }
    RemoveParamAppend(a, one, key);
    assert RemoveParam(a + one, key) == ra;
    RemoveParamAppend(a + one, b, key);
    assert RemoveParam(a + one + b, key) == ra + rb;
    assert a + b == q;
    RemoveParamAppend(a, b, key);
  }

  // ---------------------------------------------------------------------------
  // handle and urlResolver
  // ---------------------------------------------------------------------------

  datatype Request = Request(path: string, query: Query, headers: set<string>)

  datatype Response = Response(headers: map<string, string>, body: string)

  predicate IsPartialReload(req: Request) {
    PartialComponentHeader in req.headers
  }

  /**
   * `handle`: the rest of the pipeline (`next`) sees the request without the
   * variant parameter; a partial reload's response is marked uncacheable for
   * the browser, CDNs and Cloudflare.
   */
  function Handle(req: Request, next: Request -> Response): (r: Response)
    ensures var inner := next(req.(query := RemoveParam(req.query, CacheVariantQueryParameter)));
      && (!IsPartialReload(req) ==> r == inner)
      && (IsPartialReload(req) ==>
            && r.body == inner.body
            && r.headers.Keys == inner.headers.Keys + {"cache-control", "cdn-cache-control", "cloudflare-cdn-cache-control"}
            && r.headers["cache-control"] == NoStoreCacheControl
            && r.headers["cdn-cache-control"] == "no-store"
            && r.headers["cloudflare-cdn-cache-control"] == "no-store"
            && forall h :: h in inner.headers && h !in {"cache-control", "cdn-cache-control", "cloudflare-cdn-cache-control"}
                 ==> r.headers[h] == inner.headers[h])
  {
    var stripped := req.(query := RemoveParam(req.query, CacheVariantQueryParameter));
    var response := next(stripped);
    if IsPartialReload(req) then
      response.(headers := response.headers
        ["cache-control" := NoStoreCacheControl]
        ["cdn-cache-control" := "no-store"]
        ["cloudflare-cdn-cache-control" := "no-store"])
    else response
  }

  /** Whatever value of the variant parameter a visit carries, the pipeline behaves the same. */
  lemma HandleIgnoresVariant(req: Request, i: nat, value: string, next: Request -> Response)
    requires i <= |req.query|
    ensures Handle(req.(query := req.query[..i] + [(CacheVariantQueryParameter, value)] + req.query[i..]), next)
         == Handle(req, next)
  {
    RemoveParamInserted(req.query, i, CacheVariantQueryParameter, value);
  }

  /**
   * The URL Inertia puts into the page object: the path, then `?` and the
   * remaining query when any is left. `build` is `http_build_query`.
   */
  function ResolveUrl(path: string, query: Query, build: Query -> string): (r: string)
    ensures RemoveParam(query, CacheVariantQueryParameter) == [] ==> r == path
    ensures RemoveParam(query, CacheVariantQueryParameter) != [] ==>
      r == path + "?" + build(RemoveParam(query, CacheVariantQueryParameter))
  {
    var rest := RemoveParam(query, CacheVariantQueryParameter);
    if rest == [] then path else path + "?" + build(rest)
  }

  /** The page URL never reflects the variant parameter: adding it changes nothing. */
  lemma ResolveUrlIgnoresVariant(path: string, query: Query, i: nat, value: string, build: Query -> string)
    requires i <= |query|
    ensures ResolveUrl(path, query[..i] + [(CacheVariantQueryParameter, value)] + query[i..], build)
         == ResolveUrl(path, query, build)
  {
    RemoveParamInserted(query, i, CacheVariantQueryParameter, value);
  }

  /** A visit of `/?__icv=1` reports the URL `/`. */
  lemma ResolveUrlOfVariantOnly(build: Query -> string)
    ensures ResolveUrl("/", [(CacheVariantQueryParameter, "1")], build) == "/"
  {
    assert RemoveParam([(CacheVariantQueryParameter, "1")], CacheVariantQueryParameter) == [];
  }

  // ---------------------------------------------------------------------------
  // preg_quote
  // ---------------------------------------------------------------------------

  /** Characters `preg_quote` escapes with a backslash, besides the delimiter. */
  predicate IsRegexSpecial(c: char) {
    || c == '.' || c == '\\' || c == '+' || c == '*' || c == '?' || c == '[' || c == '^'
    || c == ']' || c == '$' || c == '(' || c == ')' || c == '{' || c == '}' || c == '='
    || c == '!' || c == '<' || c == '>' || c == '|' || c == ':' || c == '-' || c == '#'
  }

  function QuoteChar(c: char, delimiter: char): (r: string)
    ensures |r| >= 1
  {
    if c == '\0' then "\\000"
    else if IsRegexSpecial(c) || c == delimiter then ['\\', c]
    else [c]
  }

  /**
   * `preg_quote($s, $delimiter)`: each special character and the delimiter
   * gets a backslash, and NUL becomes `\000`.
   */
  function PregQuote(s: string, delimiter: char): (r: string)
    ensures |r| >= |s|
    ensures |s| > 0 && s[0] != '\0' && (IsRegexSpecial(s[0]) || s[0] == delimiter) ==> |r| >= 2 && r[..2] == ['\\', s[0]]
  {
    if |s| == 0 then "" else QuoteChar(s[0], delimiter) + PregQuote(s[1..], delimiter)
  }

  /** What a PCRE pattern matches for a quoted literal: the escapes undone. */
  function Unquote(s: string): string
  {
    if |s| == 0 then ""
    else if |s| >= 4 && s[..4] == "\\000" then "\0" + Unquote(s[4..])
    else if |s| >= 2 && s[0] == '\\' then [s[1]] + Unquote(s[2..])
    else [s[0]] + Unquote(s[1..])
  }

  lemma UnquoteQuoteChar(c: char, delimiter: char, rest: string)
    requires delimiter != '0'
    ensures Unquote(QuoteChar(c, delimiter) + rest) == [c] + Unquote(rest)
  {
    if c == '\0' {
      UnquoteNul(rest);
    } else if IsRegexSpecial(c) || c == delimiter {
      assert c != '0';
      UnquoteEscaped(c, rest);
    } else {
      UnquotePlain(c, rest);
    }
  }

  lemma UnquoteNul(rest: string)
    ensures Unquote("\\000" + rest) == "\0" + Unquote(rest)
  {
    var t := "\\000" + rest;
    assert t[..4] == "\\000";
    assert t[4..] == rest;
  }

  lemma UnquoteEscaped(c: char, rest: string)
    requires c != '0'
    ensures Unquote(['\\', c] + rest) == [c] + Unquote(rest)
  {
    var t := ['\\', c] + rest;
    assert t[0] == '\\' && t[1] == c;
    assert |t| >= 4 ==> t[..4] != "\\000" by {
      if |t| >= 4 {
        assert t[..4][1] == c;
      }
    }
    assert t[2..] == rest;
  }

  lemma UnquotePlain(c: char, rest: string)
    requires c != '\\'
    ensures Unquote([c] + rest) == [c] + Unquote(rest)
  {
    var t := [c] + rest;
    assert t[0] == c;
    assert |t| >= 4 ==> t[..4] != "\\000" by {
      if |t| >= 4 {
        assert t[..4][0] == c;
      }
    }
    assert t[1..] == rest;
  }

  /** A quoted segment stands for exactly the segment's own text. */
  lemma {:induction false} UnquotePregQuote(s: string, delimiter: char)
    requires delimiter != '0'
    ensures Unquote(PregQuote(s, delimiter)) == s
  {
    if |s| > 0 {
      var rest := PregQuote(s[1..], delimiter);
      assert PregQuote(s, delimiter) == QuoteChar(s[0], delimiter) + rest;
      UnquotePregQuote(s[1..], delimiter);
      UnquoteQuoteChar(s[0], delimiter, rest);
      assert [s[0]] + s[1..] == s;
    }
  }

  // ---------------------------------------------------------------------------
  // routeToClientPattern
  // ---------------------------------------------------------------------------

  /** What the middleware reads of a registered route. */
  datatype Route = Route(uri: string, methods: seq<string>, middleware: seq<string>, wheres: map<string, string>)

  /** `'/' . ltrim($uri, '/')`. */
  function RoutePath(uri: string): (r: string)
    ensures |r| >= 1 && r[0] == '/'
  {
    "/" + TrimLeft(uri, '/')
  }

  /** `array_filter(..., fn ($s) => $s !== '')`, keeping order. */
  function NonEmpty(parts: seq<string>): (r: seq<string>)
    ensures forall k :: 0 <= k < |r| ==> |r[k]| > 0
    ensures forall s :: s in r <==> s in parts && |s| > 0
  {
    if |parts| == 0 then []
    else if |parts[0]| == 0 then NonEmpty(parts[1..])
    else [parts[0]] + NonEmpty(parts[1..])
  }

  /** The path's non-empty `/`-separated segments. */
  function PathSegments(uri: string): seq<string>
  {
    NonEmpty(Split(TrimRight(TrimLeft(RoutePath(uri), '/'), '/'), '/'))
  }

  /**
   * `preg_match('/^\{(.+)\}$/', $segment, $m)`: the text inside the braces
   * (one or more characters, none a newline; `$` also matches before a final
   * newline).
   */
  function ParameterInner(seg: string): (r: Option<string>)
    ensures r.Some? ==>
      && |r.value| >= 1 && '\n' !in r.value
      && (seg == "{" + r.value + "}" || seg == "{" + r.value + "}\n")
  {
    var body := if |seg| >= 1 && seg[|seg| - 1] == '\n' then seg[..|seg| - 1] else seg;
    if |body| >= 3 && body[0] == '{' && body[|body| - 1] == '}' && '\n' !in body[1..|body| - 1] then
      Some(body[1..|body| - 1])
    else None
  }

  lemma ParameterInnerOfBraced(inner: string)
    requires |inner| >= 1 && '\n' !in inner
    ensures ParameterInner("{" + inner + "}") == Some(inner)
  {
    var seg := "{" + inner + "}";
    assert seg[1..|seg| - 1] == inner;
  }

  lemma ParameterInnerOfPlain(seg: string)
    requires '{' !in seg
    ensures ParameterInner(seg) == None
  {
    if |seg| >= 3 {
      var body := if seg[|seg| - 1] == '\n' then seg[..|seg| - 1] else seg;
      if |body| >= 1 {
        assert body[0] in seg;
      }
    }
  }

  /** `parameterSegmentPattern`: the regular expression for one parameter's value. */
  function ParameterSegmentPattern(constraint: Option<string>): (r: string)
    ensures |r| >= 2
    ensures constraint == None || constraint == Some("") ==> r == "[^/]+"
    ensures constraint == Some(".*") || constraint == Some(".+") ==> r == constraint.value
    ensures constraint.Some? && constraint.value !in {"", ".*", ".+"} ==>
      |r| >= 4 && StartsWith(r, "(?:") && EndsWith(r, ")") && r[3..|r| - 1] == constraint.value
  {
    match constraint
    case None => "[^/]+"
    case Some(c) =>
      if c == "" then "[^/]+"
      else if c == ".*" || c == ".+" then c
      else "(?:" + c + ")"
  }

  /** The parameter name and whether it is optional (`{name?}`). */
  function ParameterName(inner: string): (r: (string, bool))
    ensures r.1 <==> EndsWith(inner, "?")
    ensures r.1 ==> inner == r.0 + "?"
    ensures !r.1 ==> inner == r.0
  {
    if EndsWith(inner, "?") then (inner[..|inner| - 1], true) else (inner, false)
  }

  /** The regular expression one path segment contributes. */
  function SegmentPattern(seg: string, wheres: map<string, string>): (r: string)
    ensures |r| >= 2 || (|seg| == 0 && r == "/")
    ensures r[0] == '/' || StartsWith(r, "(?:/")
  {
    match ParameterInner(seg)
    case None => "/" + PregQuote(seg, '/')
    case Some(inner) =>
      var (name, optional) := ParameterName(inner);
      var sp := ParameterSegmentPattern(if name in wheres then Some(wheres[name]) else None);
      if optional then "(?:/" + sp + ")?" else "/" + sp
  }

  function SegmentsPattern(segs: seq<string>, wheres: map<string, string>): string
  {
    if |segs| == 0 then "" else SegmentPattern(segs[0], wheres) + SegmentsPattern(segs[1..], wheres)
  }

  /** `routeToClientPattern`: an anchored expression matching the route's paths. */
  function RouteToClientPattern(route: Route): (r: string)
    ensures |r| >= 2 && r[0] == '^' && r[|r| - 1] == '$'
  {
    if RoutePath(route.uri) == "/" then "^/$"
    else "^" + SegmentsPattern(PathSegments(route.uri), route.wheres) + "$"
  }

  /** The segments of a path with some non-slash character are never all empty. */
  lemma TrimmedPathHasSegment(uri: string)
    requires RoutePath(uri) != "/"
    ensures |PathSegments(uri)| > 0
  {
    var t := TrimLeft(uri, '/');
    assert RoutePath(uri)[1..] == t;
    assert TrimLeft(RoutePath(uri), '/') == t;
    var u := TrimRight(t, '/');
    TrimRightKeepsFirst(t, '/');
    var parts := Split(u, '/');
    assert parts == [[u[0]] + Split(u[1..], '/')[0]] + Split(u[1..], '/')[1..];
    assert parts[0] in parts;
  }

  lemma {:induction false} TrimRightKeepsFirst(s: string, c: char)
    requires |s| > 0 && s[0] != c
    ensures |TrimRight(s, c)| > 0 && TrimRight(s, c)[0] == s[0]
    decreases |s|
  {
    if s[|s| - 1] == c {
      TrimRightKeepsFirst(s[..|s| - 1], c);
    }
  }

  lemma {:induction false} SegmentsPatternLength(segs: seq<string>, wheres: map<string, string>)
    requires forall k :: 0 <= k < |segs| ==> |segs[k]| > 0
    ensures |SegmentsPattern(segs, wheres)| >= 2 * |segs|
    decreases |segs|
  {
    if |segs| > 0 {
      SegmentsPatternLength(segs[1..], wheres);
    }
  }

  /** Only the root route (a URI of slashes alone) yields `^/$`. */
  lemma RootPatternIff(route: Route)
    ensures RouteToClientPattern(route) == "^/$" <==> RoutePath(route.uri) == "/"
  {
    if RoutePath(route.uri) != "/" {
      var segs := PathSegments(route.uri);
      TrimmedPathHasSegment(route.uri);
      SegmentsPatternLength(segs, route.wheres);
    }
  }

  /** The documentation route `docs/{slug}` constrained to `.*` matches every path under `/docs/`. */
  lemma DocsRoutePattern(route: Route)
    requires route.uri == "/docs/{slug}" && route.wheres == map["slug" := ".*"]
    ensures RouteToClientPattern(route) == "^/docs/.*$"
  {
    DocsTrim(route.uri);
    DocsRouteSegments(route.uri);
    DocsSegmentsPattern(route.wheres);
    DocsPatternLiteral();
  }

  lemma DocsPatternLiteral()
    ensures "^" + "/docs/.*" + "$" == "^/docs/.*$"
  {
  }

  lemma DocsSegmentsPattern(wheres: map<string, string>)
    requires wheres == map["slug" := ".*"]
    ensures SegmentsPattern(["docs", "{slug}"], wheres) == "/docs/.*"
  {
    SegmentsPatternOfTwo("docs", "{slug}", wheres);
    DocsLiteralSegment(wheres);
    DocsSlugSegment();
  }

  lemma SegmentsPatternOfTwo(a: string, b: string, wheres: map<string, string>)
    ensures SegmentsPattern([a, b], wheres) == SegmentPattern(a, wheres) + SegmentPattern(b, wheres)
  {
    assert [a, b][1..] == [b];
    assert [b][1..] == [];
    var pb := SegmentPattern(b, wheres);
    assert SegmentsPattern([b], wheres) == pb + SegmentsPattern([], wheres);
    assert pb + "" == pb;
  }

  lemma DocsLiteralSegment(wheres: map<string, string>)
    ensures SegmentPattern("docs", wheres) == "/docs"
  {
    ParameterInnerOfPlain("docs");
    PregQuotePlainText("docs", '/');
  }

  /** Text without special characters, the delimiter or NUL passes through `preg_quote` unchanged. */
  lemma {:induction false} PregQuotePlainText(s: string, delimiter: char)
    requires forall i :: 0 <= i < |s| ==> !IsRegexSpecial(s[i]) && s[i] != delimiter && s[i] != '\0'
    ensures PregQuote(s, delimiter) == s
  {
    if |s| > 0 {
      PregQuotePlainText(s[1..], delimiter);
      assert [s[0]] + s[1..] == s;
    }
  }

  lemma DocsSlugSegment()
    ensures SegmentPattern("{slug}", map["slug" := ".*"]) == "/.*"
  {
    ParameterInnerOfBraced("slug");
    assert "{slug}" == "{" + "slug" + "}";
    assert !EndsWith("slug", "?");
  }

  lemma DocsRouteSegments(uri: string)
    requires uri == "/docs/{slug}"
    ensures PathSegments(uri) == ["docs", "{slug}"]
  {
    DocsTrim(uri);
    DocsSplit("docs/{slug}");
    assert NonEmpty(["{slug}"]) == ["{slug}"];
    assert ["docs", "{slug}"][1..] == ["{slug}"];
  }

  lemma DocsTrim(uri: string)
    requires uri == "/docs/{slug}"
    ensures RoutePath(uri) == uri
    ensures TrimRight(TrimLeft(RoutePath(uri), '/'), '/') == "docs/{slug}"
  {
    var body := "docs/{slug}";
    assert uri[1..] == body;
    assert TrimLeft(body, '/') == body;
    assert TrimLeft(uri, '/') == body;
    assert ("/" + body)[1..] == body;
    assert TrimLeft("/" + body, '/') == body;
    assert TrimRight(body, '/') == body;
  }

  lemma DocsSplit(body: string)
    requires body == "docs/{slug}"
    ensures Split(body, '/') == ["docs", "{slug}"]
  {
    var parts := ["docs", "{slug}"];
    assert Join(parts, "/") == body;
    assert '/' !in parts[0] && '/' !in parts[1];
    SplitJoin(parts, '/');
  }

  /** An optional parameter with no constraint becomes an optional one-segment group. */
  lemma OptionalParameterPattern(name: string, wheres: map<string, string>)
    requires |name| >= 1 && '\n' !in name && name !in wheres
    ensures SegmentPattern("{" + name + "?}", wheres) == "(?:/[^/]+)?"
  {
    assert "{" + name + "?}" == "{" + (name + "?") + "}";
    ParameterInnerOfBraced(name + "?");
    assert (name + "?")[..|name + "?"| - 1] == name;
  }

  // ---------------------------------------------------------------------------
  // cacheableInertiaRoutePatterns and share
  // ---------------------------------------------------------------------------

  /** A route whose pattern is shared: answers GET and gathers `MarkInertiaCacheable`. */
  predicate IsCacheableRoute(r: Route) {
    "GET" in r.methods && MarkCacheableMiddleware in r.middleware
  }

  function CacheableRoutes(routes: seq<Route>): (r: seq<Route>)
    ensures forall x :: x in r <==> x in routes && IsCacheableRoute(x)
  {
    if |routes| == 0 then []
    else if IsCacheableRoute(routes[0]) then [routes[0]] + CacheableRoutes(routes[1..])
    else CacheableRoutes(routes[1..])
  }

  function Patterns(routes: seq<Route>): (r: seq<string>)
    ensures |r| == |routes|
    ensures forall k :: 0 <= k < |r| ==> r[k] == RouteToClientPattern(routes[k])
  {
    seq(|routes|, k requires 0 <= k < |routes| => RouteToClientPattern(routes[k]))
  }

  /** PHP truthiness of a string, what `Collection::filter()` keeps. */
  predicate PhpTruthyString(s: string) {
    s != "" && s != "0"
  }

  function FilterTruthy(xs: seq<string>): (r: seq<string>)
    ensures forall s :: s in r <==> s in xs && PhpTruthyString(s)
  {
    if |xs| == 0 then []
    else if PhpTruthyString(xs[0]) then [xs[0]] + FilterTruthy(xs[1..])
    else FilterTruthy(xs[1..])
  }

  /** Every route pattern is truthy, so the `filter()` step drops nothing. */
  lemma FilterTruthyOfPatterns(routes: seq<Route>)
    ensures FilterTruthy(Patterns(routes)) == Patterns(routes)
  {
    var ps := Patterns(routes);
    forall k | 0 <= k < |ps|
      ensures PhpTruthyString(ps[k])
    {
      assert ps[k][0] == '^';
    }
    FilterTruthyKeepsTruthy(ps);
  }

  lemma {:induction false} FilterTruthyKeepsTruthy(xs: seq<string>)
    requires forall k :: 0 <= k < |xs| ==> PhpTruthyString(xs[k])
    ensures FilterTruthy(xs) == xs
    decreases |xs|
  {
    if |xs| > 0 {
      FilterTruthyKeepsTruthy(xs[1..]);
      assert [xs[0]] + xs[1..] == xs;
    }
  }

  /** `unique()`: later repeats dropped, first occurrences kept in order. */
  function Unique(xs: seq<string>): (r: seq<string>)
    ensures forall s :: s in r <==> s in xs
    ensures forall i, j :: 0 <= i < j < |r| ==> r[i] != r[j]
    decreases |xs|
  {
    if |xs| == 0 then []
    else
      var rest := Unique(xs[..|xs| - 1]);
      if xs[|xs| - 1] in rest then rest else rest + [xs[|xs| - 1]]
  }

  /** The shared patterns as computed from a route table. */
  function ComputeCacheablePatterns(routes: seq<Route>): (r: seq<string>)
    ensures forall i, j :: 0 <= i < j < |r| ==> r[i] != r[j]
  {
    Unique(FilterTruthy(Patterns(CacheableRoutes(routes))))
  }

  lemma PatternsMembership(rs: seq<Route>, p: string)
    ensures p in Patterns(rs) <==> exists r :: r in rs && RouteToClientPattern(r) == p
  {
    var ps := Patterns(rs);
    if p in ps {
      var k :| 0 <= k < |ps| && ps[k] == p;
      assert rs[k] in rs && RouteToClientPattern(rs[k]) == p;
    }
    if exists r :: r in rs && RouteToClientPattern(r) == p {
      var r :| r in rs && RouteToClientPattern(r) == p;
      var k :| 0 <= k < |rs| && rs[k] == r;
      assert ps[k] == p;
    }
  }

  /** The shared list holds exactly the patterns of the cacheable routes, each once. */
  lemma CacheablePatternsExact(routes: seq<Route>, p: string)
    ensures p in ComputeCacheablePatterns(routes) <==>
      exists r :: r in routes && IsCacheableRoute(r) && RouteToClientPattern(r) == p
  {
    var cr := CacheableRoutes(routes);
    FilterTruthyOfPatterns(cr);
    PatternsMembership(cr, p);
  }

  /** Every shared pattern is anchored at both ends. */
  lemma AllPatternsAnchored(routes: seq<Route>)
    ensures forall p :: p in ComputeCacheablePatterns(routes) ==> |p| >= 2 && p[0] == '^' && p[|p| - 1] == '$'
  {
    var cr := CacheableRoutes(routes);
    var ps := Patterns(cr);
    assert ComputeCacheablePatterns(routes) == Unique(FilterTruthy(ps));
    forall p | p in ComputeCacheablePatterns(routes)
      ensures |p| >= 2 && p[0] == '^' && p[|p| - 1] == '$'
    {
      assert p in FilterTruthy(ps);
      var k :| 0 <= k < |ps| && ps[k] == p;
      assert p == RouteToClientPattern(cr[k]);
    }
  }

  /** A memo holds nothing but anchored patterns (true of every memo the middleware writes). */
  predicate MemoAnchored(memo: Option<seq<string>>) {
    memo.Some? ==> forall p :: p in memo.value ==> |p| >= 2 && p[0] == '^' && p[|p| - 1] == '$'
  }

  /**
   * `cacheableInertiaRoutePatterns`: computed on first use and then kept for
   * the life of the process (a static property), whatever the route table.
   */
  function CacheableInertiaRoutePatterns(memo: Option<seq<string>>, routes: seq<Route>): (r: (seq<string>, Option<seq<string>>))
    ensures r.1 == Some(r.0)
    ensures memo.Some? ==> r.0 == memo.value
    ensures memo.None? ==> r.0 == ComputeCacheablePatterns(routes)
  {
    match memo
    case Some(p) => (p, memo)
    case None =>
      var p := ComputeCacheablePatterns(routes);
      (p, Some(p))
  }

  /** Once computed, the shared list never changes. */
  lemma MemoStaysAnchored(memo: Option<seq<string>>, routes: seq<Route>)
    requires MemoAnchored(memo)
    ensures MemoAnchored(CacheableInertiaRoutePatterns(memo, routes).1)
  {
    AllPatternsAnchored(routes);
  }

  lemma PatternsStable(memo: Option<seq<string>>, routes1: seq<Route>, routes2: seq<Route>)
    ensures var (p1, m1) := CacheableInertiaRoutePatterns(memo, routes1);
      CacheableInertiaRoutePatterns(m1, routes2).0 == p1
  {
  }

  /** PHP's `(bool)` cast. */
  predicate PhpTruthy(v: Json) {
    match v
    case JNull => false
    case JBool(b) => b
    case JNum(n) => n != 0
    case JStr(s) => PhpTruthyString(s)
    case JArr(items) => |items| > 0
    case JObj(fields) => |fields| > 0
  }

  function StringArray(xs: seq<string>): (r: Json)
    ensures r.JArr? && |r.items| == |xs|
    ensures forall k :: 0 <= k < |xs| ==> r.items[k] == JStr(xs[k])
  {
    JArr(seq(|xs|, k requires 0 <= k < |xs| => JStr(xs[k])))
  }

  /** The `inertiaCache` prop of `share`. */
  function InertiaCacheProp(attributes: map<string, Json>, patterns: seq<string>): (r: Json)
    ensures Get(r, "queryParameter") == Some(JStr(CacheVariantQueryParameter))
    ensures Get(r, "routePatterns") == Some(StringArray(patterns))
    ensures Get(r, "currentRouteCacheable") ==
      Some(JBool(CacheableAttribute in attributes && PhpTruthy(attributes[CacheableAttribute])))
  {
    JObj(map[
      "currentRouteCacheable" := JBool(CacheableAttribute in attributes && PhpTruthy(attributes[CacheableAttribute])),
      "queryParameter" := JStr(CacheVariantQueryParameter),
      "routePatterns" := StringArray(patterns)])
  }

  /**
   * The shared props this model keeps: `name`, `inertiaCache` and
   * `sidebarOpen` (the quote and the user are left out), and the memo after
   * the call.
   */
  function Share(appName: string, attributes: map<string, Json>, memo: Option<seq<string>>, routes: seq<Route>)
    : (r: (Json, Option<seq<string>>))
    ensures Get(r.0, "inertiaCache") == Some(InertiaCacheProp(attributes, CacheableInertiaRoutePatterns(memo, routes).0))
    ensures Get(r.0, "name") == Some(JStr(appName))
    ensures Get(r.0, "sidebarOpen") == Some(JBool(true))
    ensures r.1 == CacheableInertiaRoutePatterns(memo, routes).1
  {
    var (patterns, memo2) := CacheableInertiaRoutePatterns(memo, routes);
    (JObj(map[
      "name" := JStr(appName),
      "inertiaCache" := InertiaCacheProp(attributes, patterns),
      "sidebarOpen" := JBool(true)]), memo2)
  }

  /** A route that ran `MarkInertiaCacheable` is reported as cacheable. */
  lemma MarkedRouteIsCacheable(attributes: map<string, Json>, patterns: seq<string>)
    ensures Get(InertiaCacheProp(attributes[CacheableAttribute := JBool(true)], patterns), "currentRouteCacheable")
         == Some(JBool(true))
  {
  }
}

=== FILE: installer.dfy ===
/**
 * The `react-s3-upload:install` console command: it installs a composer
 * dependency, copies two controllers out of the npm package, and appends
 * the upload routes to `routes/web.php` unless they are already there.
 * The file system is a map from paths to contents plus a set of
 * directories; composer's result and the user's answers are inputs.
 */
module Installer {
  import opened Text

  datatype Fs = Fs(files: map<string, string>, dirs: set<string>)

  /** `File::exists`: a file or a directory. */
  predicate Exists(fs: Fs, path: string) {
    path in fs.files || path in fs.dirs
  }

  const PackageDir := "node_modules" + "/@benbjurstrom/react-s3-upload/src/laravel"
  const ControllersSource := PackageDir + "/Controllers"
  const ControllersTarget := "app/Http/Controllers"
  const WebRoutes := "routes/web.php"
  const ControllerNames: seq<string> := ["PresignController.php", "DocumentCreateController.php"]

  // ---------------------------------------------------------------------------
  // Copying files
  // ---------------------------------------------------------------------------

  function Source(src: string, name: string): string { src + "/" + name }
  function Target(tgt: string, name: string): string { tgt + "/" + name }

  /** What happens to one listed file. */
  datatype CopyDecision = MissingSource | Declined | Copy

  /**
   * A missing source is skipped; an existing target is kept unless `--force`
   * is given or the user confirms the overwrite; otherwise the file is copied.
   */
  function Decide(fs: Fs, src: string, tgt: string, name: string, force: bool, confirm: string -> bool): (r: CopyDecision)
    ensures r == MissingSource <==> !Exists(fs, Source(src, name))
    ensures r == Declined <==> Exists(fs, Source(src, name)) && Exists(fs, Target(tgt, name)) && !force && !confirm(name)
  {
    if !Exists(fs, Source(src, name)) then MissingSource
    else if Exists(fs, Target(tgt, name)) && !force && !confirm(name) then Declined
    else Copy
  }

  /** One iteration of `copyFiles`: the target directory is made and the source's content written to the target. */
  function CopyOne(fs: Fs, src: string, tgt: string, name: string, force: bool, confirm: string -> bool): (r: Fs)
    ensures forall p :: p != Target(tgt, name) ==> (p in r.files <==> p in fs.files) && (p in fs.files ==> r.files[p] == fs.files[p])
    ensures forall p :: p != tgt ==> (p in r.dirs <==> p in fs.dirs)
    ensures Decide(fs, src, tgt, name, force, confirm) != Copy ==> r == fs
    ensures Decide(fs, src, tgt, name, force, confirm) == Copy && Source(src, name) in fs.files ==>
      Target(tgt, name) in r.files && r.files[Target(tgt, name)] == fs.files[Source(src, name)]
  {
    if Decide(fs, src, tgt, name, force, confirm) != Copy then fs
    else
      var made := fs.(dirs := fs.dirs + {tgt});
      var s := Source(src, name);
      if s in fs.files then made.(files := fs.files[Target(tgt, name) := fs.files[s]]) else made
  }

  /** The targets of a list of names. */
  function Targets(tgt: string, names: seq<string>): set<string> {
    set n | n in names :: Target(tgt, n)
  }

  /** `copyFiles`: each listed file in turn; nothing outside the listed targets changes. */
  function CopyFiles(fs: Fs, src: string, tgt: string, names: seq<string>, force: bool, confirm: string -> bool): (r: Fs)
    ensures forall p :: p !in Targets(tgt, names) ==> (p in r.files <==> p in fs.files) && (p in fs.files ==> r.files[p] == fs.files[p])
    ensures forall p :: p != tgt ==> (p in r.dirs <==> p in fs.dirs)
    decreases |names|
  {
    if |names| == 0 then fs
    else
      var next := CopyOne(fs, src, tgt, names[0], force, confirm);
      var r := CopyFiles(next, src, tgt, names[1..], force, confirm);
      assert forall n :: n in names[1..] ==> n in names;
      r
  }

  /** Source and target paths never coincide, and no source is the target directory. */
  predicate Separate(src: string, tgt: string, names: seq<string>) {
    forall n, m :: n in names && m in names ==> Source(src, n) != Target(tgt, m) && Source(src, n) != tgt
  }

  predicate Distinct(names: seq<string>) {
    forall i, j :: 0 <= i < j < |names| ==> names[i] != names[j]
  }

  /**
   * Each listed file ends up as its decision on the original file system
   * says: copied from its source, or left as it was.
   */
  lemma {:induction false} CopyFilesOutcome(fs: Fs, src: string, tgt: string, names: seq<string>, force: bool, confirm: string -> bool, k: nat)
    requires Distinct(names) && Separate(src, tgt, names)
    requires k < |names|
    ensures var r := CopyFiles(fs, src, tgt, names, force, confirm);
      var t := Target(tgt, names[k]);
      && (Decide(fs, src, tgt, names[k], force, confirm) == Copy && Source(src, names[k]) in fs.files ==>
            t in r.files && r.files[t] == fs.files[Source(src, names[k])])
      && (Decide(fs, src, tgt, names[k], force, confirm) != Copy ==>
            (t in r.files <==> t in fs.files) && (t in fs.files ==> r.files[t] == fs.files[t]))
    decreases |names|
  {
    var next := CopyOne(fs, src, tgt, names[0], force, confirm);
    var rest := names[1..];
    if k == 0 {
      FirstTargetNotLater(tgt, names);
    } else {
      var s := Source(src, names[k]);
      var t := Target(tgt, names[k]);
      assert names[k] == rest[k - 1];
      assert names[0] in names && names[k] in names;
      assert s != Target(tgt, names[0]) && s != tgt;
      TargetsDiffer(tgt, names[k], names[0]);
      assert Exists(next, s) == Exists(fs, s) && Exists(next, t) == Exists(fs, t);
      assert Decide(next, src, tgt, names[k], force, confirm) == Decide(fs, src, tgt, names[k], force, confirm);
      RestSeparate(src, tgt, names);
      CopyFilesOutcome(next, src, tgt, rest, force, confirm, k - 1);
    }
  }

  /** Distinct names have distinct targets, and no target is the directory itself. */
  lemma TargetsDiffer(tgt: string, a: string, b: string)
    ensures Target(tgt, a) != tgt
    ensures a != b ==> Target(tgt, a) != Target(tgt, b)
  {
    assert |Target(tgt, a)| > |tgt|;
    assert Target(tgt, a)[|tgt| + 1..] == a;
    assert Target(tgt, b)[|tgt| + 1..] == b;
  }

  /** The first name's target is not among the targets of the names after it. */
  lemma FirstTargetNotLater(tgt: string, names: seq<string>)
    requires Distinct(names) && |names| > 0
    ensures Target(tgt, names[0]) !in Targets(tgt, names[1..])
  {
    forall n | n in names[1..]
      ensures Target(tgt, n) != Target(tgt, names[0])
    {
      var j :| 0 <= j < |names[1..]| && names[1..][j] == n;
      assert n == names[j + 1];
      TargetsDiffer(tgt, n, names[0]);
    }
  }

  /** Dropping the first name keeps the names distinct and the paths separate. */
  lemma RestSeparate(src: string, tgt: string, names: seq<string>)
    requires Distinct(names) && Separate(src, tgt, names) && |names| > 0
    ensures Distinct(names[1..]) && Separate(src, tgt, names[1..])
  {
    assert forall n :: n in names[1..] ==> n in names;
    forall i, j | 0 <= i < j < |names[1..]|
      ensures names[1..][i] != names[1..][j]
    {
      assert names[1..][i] == names[i + 1] && names[1..][j] == names[j + 1];
    }
  }

  /** `copyLaravelFiles`: fails without the package; copies the two controllers only when their directory exists. */
  function CopyLaravelFiles(fs: Fs, force: bool, confirm: string -> bool): (r: Option<Fs>)
    ensures r.None? <==> !Exists(fs, PackageDir)
    ensures r.Some? && !Exists(fs, ControllersSource) ==> r.value == fs
    ensures r.Some? && Exists(fs, ControllersSource) ==>
      r.value == CopyFiles(fs, ControllersSource, ControllersTarget, ControllerNames, force, confirm)
  {
    if !Exists(fs, PackageDir) then None
    else if Exists(fs, ControllersSource) then Some(CopyFiles(fs, ControllersSource, ControllersTarget, ControllerNames, force, confirm))
    else Some(fs)
  }

  // ---------------------------------------------------------------------------
  // Routes
  // ---------------------------------------------------------------------------

  const RoutesHead := "\n// React S3 Upload Routes\nRoute::post('/documents', App\\Http\\Controllers\\"
  const RoutesMiddle := "::class)\n    ->middleware(['auth'])\n    ->name('documents.create');\n\nRoute::post('/presign', App\\Http\\Controllers\\"
  const RoutesTail := "::class)\n    ->middleware(['auth'])\n    ->name('documents.presign');"

  /** `getRoutesToAdd()`: the two POST routes, naming both controllers. */
  const RoutesToAdd := RoutesHead + "DocumentCreateController" + RoutesMiddle + "PresignController" + RoutesTail

  lemma RoutesNameBothControllers()
    ensures Contains(RoutesToAdd, "DocumentCreateController")
    ensures Contains(RoutesToAdd, "PresignController")
  {
    ContainsMiddle(RoutesHead, "DocumentCreateController", RoutesMiddle + "PresignController" + RoutesTail);
    assert RoutesToAdd == RoutesHead + "DocumentCreateController" + (RoutesMiddle + "PresignController" + RoutesTail);
    ContainsMiddle(RoutesHead + "DocumentCreateController" + RoutesMiddle, "PresignController", RoutesTail);
  }

  /** `shouldAddRoutes`: not without `web.php`, not when it already names both controllers. */
  predicate ShouldAddRoutes(fs: Fs) {
    && WebRoutes in fs.files
    && !(Contains(fs.files[WebRoutes], "DocumentCreateController") && Contains(fs.files[WebRoutes], "PresignController"))
  }

  /** `addRoutesToWebFile`: the block appended to the current content. */
  function AddRoutes(fs: Fs): (r: Fs)
    requires WebRoutes in fs.files
    ensures WebRoutes in r.files && StartsWith(r.files[WebRoutes], fs.files[WebRoutes])
    ensures r.files[WebRoutes][|fs.files[WebRoutes]|..] == RoutesToAdd
    ensures forall p :: p != WebRoutes ==> (p in r.files <==> p in fs.files) && (p in fs.files ==> r.files[p] == fs.files[p])
    ensures r.dirs == fs.dirs
  {
    var content := fs.files[WebRoutes] + RoutesToAdd;
    assert content[..|fs.files[WebRoutes]|] == fs.files[WebRoutes];
    fs.(files := fs.files[WebRoutes := content])
  }

  /**
   * The block is appended when `routes/web.php` exists and lacks either
   * controller name: a file naming only one of them gets both routes again.
   * Without the file nothing is appended.
   */
  lemma ShouldAddRoutesCases(fs: Fs)
    ensures WebRoutes !in fs.files ==> !ShouldAddRoutes(fs)
    ensures WebRoutes in fs.files && !Contains(fs.files[WebRoutes], "PresignController") ==> ShouldAddRoutes(fs)
    ensures WebRoutes in fs.files && !Contains(fs.files[WebRoutes], "DocumentCreateController") ==> ShouldAddRoutes(fs)
    ensures WebRoutes in fs.files ==>
      (Contains(fs.files[WebRoutes], "DocumentCreateController") && Contains(fs.files[WebRoutes], "PresignController")
       ==> !ShouldAddRoutes(fs))
  {
  }

  /** After the block is appended, the routes count as present. */
  lemma AppendedRoutesArePresent(fs: Fs)
    requires WebRoutes in fs.files
    ensures !ShouldAddRoutes(AddRoutes(fs))
  {
    var old_ := fs.files[WebRoutes];
    RoutesNameBothControllers();
    ContainsInSuffix(old_, RoutesToAdd, "DocumentCreateController");
    ContainsInSuffix(old_, RoutesToAdd, "PresignController");
    assert AddRoutes(fs).files[WebRoutes] == old_ + RoutesToAdd;
  }

  // ---------------------------------------------------------------------------
  // The command
  // ---------------------------------------------------------------------------

  /**
   * `handle()`: exit 1 when composer fails (nothing copied) or the package
   * is missing; otherwise the controllers are copied, the routes appended
   * when needed, and the exit code is 0.
   */
  function Handle(fs: Fs, composerOk: bool, force: bool, confirm: string -> bool): (r: (int, Fs))
    ensures r.0 == 1 <==> !composerOk || !Exists(fs, PackageDir)
    ensures r.0 == 0 <==> composerOk && Exists(fs, PackageDir)
    ensures r.0 == 1 ==> r.1 == fs
    ensures r.0 == 0 ==> (WebRoutes in r.1.files <==> WebRoutes in fs.files)
  {
    if !composerOk then (1, fs)
    else
      match CopyLaravelFiles(fs, force, confirm)
      case None => (1, fs)
      case Some(copied) =>
        TargetsAreNotWebRoutes();
        (0, if ShouldAddRoutes(copied) then AddRoutes(copied) else copied)
  }

  lemma TargetsAreNotWebRoutes()
    ensures WebRoutes !in Targets(ControllersTarget, ControllerNames)
  {
    forall n | n in ControllerNames
      ensures Target(ControllersTarget, n) != WebRoutes
    {
      assert Target(ControllersTarget, n)[0] == 'a';
    }
  }

  /**
   * `web.php` after a successful run: unchanged when it already named both
   * controllers, otherwise the old content followed by the route block.
   */
  lemma HandleRoutes(fs: Fs, composerOk: bool, force: bool, confirm: string -> bool)
    requires composerOk && Exists(fs, PackageDir) && WebRoutes in fs.files
    ensures var (code, after) := Handle(fs, composerOk, force, confirm);
      && code == 0
      && WebRoutes in after.files
      && (ShouldAddRoutes(fs) ==> after.files[WebRoutes] == fs.files[WebRoutes] + RoutesToAdd)
      && (!ShouldAddRoutes(fs) ==> after.files[WebRoutes] == fs.files[WebRoutes])
      && !ShouldAddRoutes(after)
  {
    var copied := CopyLaravelFiles(fs, force, confirm).value;
    TargetsAreNotWebRoutes();
    assert copied.files[WebRoutes] == fs.files[WebRoutes];
    if ShouldAddRoutes(copied) {
      AppendedRoutesArePresent(copied);
    }
  }

  /** Running the command again appends nothing: the route block goes in at most once. */
  lemma SecondRunAppendsNothing(fs: Fs, force: bool, confirm: string -> bool, force2: bool, confirm2: string -> bool)
    requires Exists(fs, PackageDir) && WebRoutes in fs.files
    ensures var first := Handle(fs, true, force, confirm).1;
      var second := Handle(first, true, force2, confirm2).1;
      WebRoutes in second.files && second.files[WebRoutes] == first.files[WebRoutes]
  {
    HandleRoutes(fs, true, force, confirm);
    var first := Handle(fs, true, force, confirm).1;
    assert Exists(first, PackageDir) by {
      var copied := CopyLaravelFiles(fs, force, confirm).value;
      assert PackageDir in copied.files || PackageDir in copied.dirs by {
        if PackageDir in fs.files {
          assert PackageDir !in Targets(ControllersTarget, ControllerNames) by {
            forall n | n in ControllerNames
              ensures Target(ControllersTarget, n) != PackageDir
            {
              assert Target(ControllersTarget, n)[0] == 'a';
            }
          }
        } else {
          assert PackageDir != ControllersTarget;
        }
      }
    }
    HandleRoutes(first, true, force2, confirm2);
  }

  /** A missing `web.php` does not fail the command. */
  lemma MissingWebRoutesStillSucceeds(fs: Fs, force: bool, confirm: string -> bool)
    requires Exists(fs, PackageDir) && WebRoutes !in fs.files
    ensures Handle(fs, true, force, confirm).0 == 0
    ensures WebRoutes !in Handle(fs, true, force, confirm).1.files
  {
  }

  /** On a successful run each controller ends up as its decision says, and no other file but `web.php` changes. */
  lemma HandleCopiesControllers(fs: Fs, force: bool, confirm: string -> bool, k: nat)
    requires Exists(fs, PackageDir) && Exists(fs, ControllersSource) && k < 2
    ensures var after := Handle(fs, true, force, confirm).1;
      var name := ControllerNames[k];
      var t := Target(ControllersTarget, name);
      && (Decide(fs, ControllersSource, ControllersTarget, name, force, confirm) == Copy && Source(ControllersSource, name) in fs.files ==>
            t in after.files && after.files[t] == fs.files[Source(ControllersSource, name)])
      && (Decide(fs, ControllersSource, ControllersTarget, name, force, confirm) != Copy ==>
            (t in after.files <==> t in fs.files) && (t in fs.files ==> after.files[t] == fs.files[t]))
    ensures var after := Handle(fs, true, force, confirm).1;
      forall p :: p != WebRoutes && p !in Targets(ControllersTarget, ControllerNames) ==>
        (p in after.files <==> p in fs.files) && (p in fs.files ==> after.files[p] == fs.files[p])
  {
    assert Distinct(ControllerNames);
    assert Separate(ControllersSource, ControllersTarget, ControllerNames) by {
      forall n, m | n in ControllerNames && m in ControllerNames
        ensures Source(ControllersSource, n) != Target(ControllersTarget, m) && Source(ControllersSource, n) != ControllersTarget
      {
        assert Source(ControllersSource, n)[0] == ControllersSource[0] == PackageDir[0];
        assert Target(ControllersTarget, m)[0] == 'a';
      }
    }
    CopyFilesOutcome(fs, ControllersSource, ControllersTarget, ControllerNames, force, confirm, k);
    TargetsAreNotWebRoutes();
    assert Target(ControllersTarget, ControllerNames[k]) != WebRoutes by {
      assert ControllerNames[k] in ControllerNames;
    }
  }
}

=== FILE: json_table.dfy ===
/**
 * The JSON table: it fetches a Laravel paginator's JSON from a URL, projects
 * each record onto the configured columns, and hands the rows and the
 * paginator fields to the paginated table, with a loading or error
 * placeholder and a dimmed table while a later page loads.
 */
module JsonTable {
  import opened Text
  import opened JsonValue
  import Paginator
  import PaginatedTable

  type Link = Paginator.Link

  /** A record of the response's `data` array. */
  type Record = map<string, Json>

  /** A column: the record key it shows and its header caption. */
  datatype Column = Column(key: string, caption: string)

  /**
   * The paginator's JSON. The numeric fields and the links may be absent
   * (`None`); `data` is an array of records.
   */
  datatype Page = Page(data: seq<Record>, currentPage: Option<int>, lastPage: Option<int>, total: Option<int>, links: Option<seq<Link>>)

  /** A cell: the raw `row[key]` (`None` is `undefined`), or what `formatCell` made of it. */
  datatype CellValue = Raw(value: Option<Json>) | Formatted(cell: PaginatedTable.Cell)

  /** The caller's optional `formatCell(key, value)`. */
  type Formatter = Option<(string, Option<Json>) -> PaginatedTable.Cell>

  /** `row[key]`. */
  function Lookup(row: Record, key: string): Option<Json> {
    if key in row then Some(row[key]) else None
  }

  /** One record's cells, one per column in column order. */
  function RowCells(row: Record, columns: seq<Column>, formatCell: Formatter): (r: seq<CellValue>)
    ensures |r| == |columns|
    ensures formatCell.None? ==> forall k :: 0 <= k < |r| ==> r[k] == Raw(Lookup(row, columns[k].key))
    ensures formatCell.Some? ==> forall k :: 0 <= k < |r| ==>
      r[k] == Formatted(formatCell.value(columns[k].key, Lookup(row, columns[k].key)))
  {
    seq(|columns|, k requires 0 <= k < |columns| =>
      var value := Lookup(row, columns[k].key);
      if formatCell.Some? then Formatted(formatCell.value(columns[k].key, value)) else Raw(value))
  }

  /** Two records that agree on the column keys give the same cells: other fields are never shown. */
  lemma OnlyColumnKeysMatter(a: Record, b: Record, columns: seq<Column>, formatCell: Formatter)
    requires forall k :: 0 <= k < |columns| ==> Lookup(a, columns[k].key) == Lookup(b, columns[k].key)
    ensures RowCells(a, columns, formatCell) == RowCells(b, columns, formatCell)
  {
    var ra := RowCells(a, columns, formatCell);
    var rb := RowCells(b, columns, formatCell);
    assert forall k :: 0 <= k < |ra| ==> ra[k] == rb[k];
  }

  /** `tableData`: one row per record, or none before any response. */
  function TableData(data: Option<Page>, columns: seq<Column>, formatCell: Formatter): (r: seq<seq<CellValue>>)
    ensures data.None? ==> r == []
    ensures data.Some? ==> |r| == |data.value.data|
    ensures data.Some? ==> forall i :: 0 <= i < |r| ==> r[i] == RowCells(data.value.data[i], columns, formatCell)
  {
    if data.None? then []
    else
      var rows := data.value.data;
      seq(|rows|, i requires 0 <= i < |rows| => RowCells(rows[i], columns, formatCell))
  }

  /** `x || d` for a number that may be absent: absent and `0` fall back to `d`. */
  function OrDefault(x: Option<int>, d: int): (r: int)
    ensures x.Some? && x.value != 0 ==> r == x.value
    ensures x.None? || x.value == 0 ==> r == d
  {
    if x.Some? && x.value != 0 then x.value else d
  }

  /** The pagination handed to the table, with its defaults. */
  function PaginationOf(data: Option<Page>, kind: Paginator.Kind): (r: PaginatedTable.Config)
    ensures r.kind == kind
    ensures data.None? ==> r == PaginatedTable.Config(kind, 1, 1, [], 0)
    ensures data.Some? ==> r.currentPage == OrDefault(data.value.currentPage, 1)
    ensures data.Some? ==> r.lastPage == OrDefault(data.value.lastPage, 1)
    ensures data.Some? ==> r.total == OrDefault(data.value.total, 0)
    ensures data.Some? && data.value.links.Some? ==> r.links == data.value.links.value
    ensures data.Some? && data.value.links.None? ==> r.links == []
  {
    if data.None? then PaginatedTable.Config(kind, 1, 1, [], 0)
    else
      var page := data.value;
      PaginatedTable.Config(kind, OrDefault(page.currentPage, 1), OrDefault(page.lastPage, 1),
        if page.links.Some? then page.links.value else [], OrDefault(page.total, 0))
  }

  // ---------------------------------------------------------------------------
  // Fetching
  // ---------------------------------------------------------------------------

  /** The component's state: the last response (`None` before one, or after a JSON `null`), loading, error. */
  datatype State = State(data: Option<Page>, loading: bool, error: Option<string>)

  /** On mount: nothing loaded, loading, no error. */
  const Initial := State(None, true, None)

  /** How a fetch ends: a body, a response that is not OK, or a thrown `Error` or other value. */
  datatype Outcome = Received(body: Option<Page>) | NotOk | ThrewError(message: string) | ThrewOther

  /** The message kept for a failed fetch. */
  function FailureMessage(o: Outcome): string
    requires !o.Received?
  {
    match o
    case NotOk => "Failed to fetch data"
    case ThrewError(message) => message
    case ThrewOther => "An error occurred"
  }

  /** `setLoading(true)` at the start of `fetchData`. */
  function Start(s: State): (r: State)
    ensures r.loading && r.data == s.data && r.error == s.error
  {
    s.(loading := true)
  }

  /**
   * The end of `fetchData`: a body replaces the data and clears the error; a
   * failure keeps the data and records the message; loading ends either way.
   */
  function Finish(s: State, o: Outcome): (r: State)
    ensures !r.loading
    ensures o.Received? ==> r.data == o.body && r.error.None?
    ensures !o.Received? ==> r.data == s.data && r.error == Some(FailureMessage(o))
  {
    match o
    case Received(body) => State(body, false, None)
    case _ => State(s.data, false, Some(FailureMessage(o)))
  }

  /**
   * A whole `fetchData` call: loading ends; a body replaces the data and
   * clears the error; a failure keeps the previous data and shows its message.
   */
  function FetchData(s: State, o: Outcome): (r: State)
    ensures !r.loading
    ensures o.Received? ==> r.data == o.body && r.error.None?
    ensures o.NotOk? ==> r.data == s.data && r.error == Some("Failed to fetch data")
    ensures o.ThrewError? ==> r.data == s.data && r.error == Some(o.message)
    ensures o.ThrewOther? ==> r.data == s.data && r.error == Some("An error occurred")
  {
    Finish(Start(s), o)
  }

  /** `handlePageChange`: the URLs fetched for a page change, none for a falsy URL. */
  function PageChange(pageUrl: Option<string>): (r: seq<string>)
    ensures r == [] <==> !Paginator.Present(pageUrl)
    ensures r != [] ==> r == [pageUrl.value]
  {
    if Paginator.Present(pageUrl) then [pageUrl.value] else []
  }

  /** A click on the table's paginator fetches exactly the URL the paginator passes on. */
  lemma ClickFetchesThePaginatorsUrl(currentPage: int, lastPage: int, links: seq<Link>, control: Paginator.Control)
    ensures var calls := Paginator.OnClick(currentPage, lastPage, links, control);
      forall k :: 0 <= k < |calls| ==> PageChange(Some(calls[k])) == [calls[k]]
  {
  }

  // ---------------------------------------------------------------------------
  // Rendering
  // ---------------------------------------------------------------------------

  /** The placeholders the component passes to the table. */
  datatype Placeholder = LoadingView | ErrorView(message: string)

  /** Loading before any data gives the loading view; otherwise a truthy error gives the error view. */
  function PlaceholderOf(s: State): (r: Option<Placeholder>)
    ensures r == Some(LoadingView) <==> s.loading && s.data.None?
    ensures (r.Some? && r.value.ErrorView?) <==> !(s.loading && s.data.None?) && s.error.Some? && s.error.value != ""
    ensures r.Some? && r.value.ErrorView? ==> r.value.message == s.error.value
  {
    if s.loading && s.data.None? then Some(LoadingView)
    else if s.error.Some? && s.error.value != "" then Some(ErrorView(s.error.value))
    else None
  }

  /** The component: the table, dimmed and inert while a later page loads over existing data. */
  datatype View = View(dimmed: bool, table: PaginatedTable.View<CellValue, Placeholder>)

  function Render(s: State, columns: seq<Column>, kind: Paginator.Kind, formatCell: Formatter): (r: View)
    ensures r.dimmed <==> s.loading && s.data.Some?
    ensures |r.table.header| == |columns| && forall k :: 0 <= k < |columns| ==> r.table.header[k] == columns[k].caption
    ensures r.table == PaginatedTable.Render(r.table.header, TableData(s.data, columns, formatCell), PaginationOf(s.data, kind), PlaceholderOf(s))
  {
    var captions := seq(|columns|, k requires 0 <= k < |columns| => columns[k].caption);
    View(s.loading && s.data.Some?,
      PaginatedTable.Render(captions, TableData(s.data, columns, formatCell), PaginationOf(s.data, kind), PlaceholderOf(s)))
  }

  /** Before the first response: no rows, the loading view, the default pagination, nothing dimmed. */
  lemma FirstRenderShowsLoading(columns: seq<Column>, kind: Paginator.Kind, formatCell: Formatter)
    ensures var v := Render(Initial, columns, kind, formatCell);
      && !v.dimmed && v.table.rows == []
      && v.table.footer == PaginatedTable.CustomPlaceholder(LoadingView)
  {
  }

  /** Loading a later page dims the table exactly when rows from an earlier response are present, and leaves them shown. */
  lemma LoadingKeepsRowsDimmed(s: State, columns: seq<Column>, kind: Paginator.Kind, formatCell: Formatter)
    requires s.data.Some?
    ensures var v := Render(Start(s), columns, kind, formatCell);
      && v.dimmed
      && v.table.rows == Render(s, columns, kind, formatCell).table.rows
  {
  }

  /**
   * A failed fetch keeps the rows already shown; when there are some, the
   * footer stays the paginator, so the error message is not on screen.
   */
  lemma FailureKeepsRows(s: State, o: Outcome, columns: seq<Column>, kind: Paginator.Kind, formatCell: Formatter)
    requires !o.Received?
    ensures var before := Render(s, columns, kind, formatCell);
      var after := Render(FetchData(s, o), columns, kind, formatCell);
      && after.table.rows == before.table.rows
      && !after.dimmed
      && (|before.table.rows| > 0 ==> after.table.footer.Pager?)
      && (|before.table.rows| == 0 && FailureMessage(o) != "" ==>
            after.table.footer == PaginatedTable.CustomPlaceholder(ErrorView(FailureMessage(o))))
  {
  }

  /**
   * A received page replaces the rows with its records' projection and
   * clears the error: the paginator shows when it has records, the default
   * placeholder when it has none.
   */
  lemma SuccessShowsPage(s: State, page: Page, columns: seq<Column>, kind: Paginator.Kind, formatCell: Formatter)
    ensures var after := Render(FetchData(s, Received(Some(page))), columns, kind, formatCell);
      && |after.table.rows| == |page.data|
      && (forall i :: 0 <= i < |page.data| ==> after.table.rows[i] == RowCells(page.data[i], columns, formatCell))
      && !after.dimmed
      && (|page.data| > 0 ==> after.table.footer.Pager?)
      && (|page.data| == 0 ==> after.table.footer.DefaultPlaceholder?)
  {
  }
}

=== FILE: json_value.dfy ===
/**
 * Decoded JSON values: request bodies on the PHP side and `unknown` page props
 * and fetch bodies on the TypeScript side. Numbers are integers only.
 */
module JsonValue {
  import opened Text

  datatype Json =
    | JNull
    | JBool(b: bool)
    | JNum(n: int)
    | JStr(s: string)
    | JArr(items: seq<Json>)
    | JObj(fields: map<string, Json>)

  /** Property access `v[key]`; `None` is `undefined`. Arrays carry no named keys. */
  function Get(v: Json, key: string): (r: Option<Json>)
    ensures r.Some? ==> v.JObj? && key in v.fields && r.value == v.fields[key]
    ensures v.JObj? && key in v.fields ==> r.Some?
  {
    if v.JObj? && key in v.fields then Some(v.fields[key]) else None
  }

  /** `typeof v === 'object' && v !== null`: objects and arrays alike. */
  predicate IsRecord(v: Json) {
    v.JObj? || v.JArr?
  }

  /** JavaScript truthiness of a possibly-undefined value. */
  predicate Truthy(v: Option<Json>) {
    match v
    case None => false
    case Some(JNull) => false
    case Some(JBool(b)) => b
    case Some(JNum(n)) => n != 0
    case Some(JStr(s)) => |s| > 0
    case Some(_) => true
  }
}

=== FILE: mdx.dfy ===
/**
 * The docs' MDX overrides: the `h2` anchor id made from the heading text,
 * the `a` element chosen from the link's href, and the `code` element's
 * choice between inline code, a package-manager command block and a code
 * block with an optional copy button.
 */
module Mdx {
  import opened Text

  // ---------------------------------------------------------------------------
  // Heading ids
  // ---------------------------------------------------------------------------

  /**
   * The `h2` id: spaces become `-`, apostrophes and question marks are
   * dropped, then the text is lower-cased. No text, no id.
   */
  function HeadingId(text: Option<string>): (r: Option<string>)
    ensures r.None? <==> text.None?
    ensures r.Some? ==> r.value == Slug(text.value)
  {
    if text.None? then None
    else
      var s := text.value;
      SlugSteps(s);
      Some(Lower(RemoveAll(RemoveAll(ReplaceAll(s, ' ', '-'), '\''), '?')))
  }

  /** Characters the id leaves out. */
  predicate Dropped(c: char) {
    c == '\'' || c == '?'
  }

  /** The id character by character: a reference definition of the four steps. */
  function Slug(s: string): (r: string)
    ensures |r| <= |s|
    ensures forall i :: 0 <= i < |r| ==> r[i] != ' ' && !Dropped(r[i]) && !IsUpper(r[i])
    decreases |s|
  {
    if |s| == 0 then ""
    else
      var rest := Slug(s[1..]);
      var r := if Dropped(s[0]) then rest else [LowerChar(if s[0] == ' ' then '-' else s[0])] + rest;
      assert forall i :: 1 <= i < |r| && !Dropped(s[0]) ==> r[i] == rest[i - 1];
      r
  }

  /** The four string steps compute the reference definition. */
  lemma {:induction false} SlugSteps(s: string)
    ensures Lower(RemoveAll(RemoveAll(ReplaceAll(s, ' ', '-'), '\''), '?')) == Slug(s)
    decreases |s|
  {
    if |s| > 0 {
      SlugSteps(s[1..]);
      var c := if s[0] == ' ' then '-' else s[0];
      assert ReplaceAll(s, ' ', '-') == [c] + ReplaceAll(s[1..], ' ', '-');
      var t := ReplaceAll(s[1..], ' ', '-');
      assert ([c] + t)[1..] == t;
      if !Dropped(c) {
        assert Lower([c] + RemoveAll(RemoveAll(t, '\''), '?')) == [LowerChar(c)] + Lower(RemoveAll(RemoveAll(t, '\''), '?'));
      }
    }
  }

  /** The id of two pieces of text is the two ids joined. */
  lemma {:induction false} SlugAppend(a: string, b: string)
    ensures Slug(a + b) == Slug(a) + Slug(b)
    decreases |a|
  {
    if |a| > 0 {
      assert (a + b)[0] == a[0];
      assert (a + b)[1..] == a[1..] + b;
      SlugAppend(a[1..], b);
    } else {
      assert a + b == b;
    }
  }

  /** An id is its own id: making one twice changes nothing. */
  lemma {:induction false} SlugIdempotent(s: string)
    ensures Slug(Slug(s)) == Slug(s)
    decreases |s|
  {
    if |s| > 0 {
      SlugIdempotent(s[1..]);
      var rest := Slug(s[1..]);
      if !Dropped(s[0]) {
        var c := LowerChar(if s[0] == ' ' then '-' else s[0]);
        assert Slug(s) == [c] + rest;
        SlugAppend([c], rest);
        assert Slug([c]) == [c];
      }
    }
  }

  // ---------------------------------------------------------------------------
  // Links
  // ---------------------------------------------------------------------------

  /** A plain anchor, or Inertia's client-side `Link`. */
  datatype Element = Anchor | InertiaLink

  /** The rendered link: element, href, whether it is styled as an underlined link, and `target`/`rel`. */
  datatype LinkView = LinkView(element: Element, href: Option<string>, underlined: bool, target: Option<string>, rel: Option<string>)

  predicate HrefStarts(href: Option<string>, p: string) {
    href.Some? && StartsWith(href.value, p)
  }

  /** Prefixes that begin with different characters never both start one string. */
  lemma Exclusive(h: string, p: string, q: string)
    requires |p| > 0 && |q| > 0 && p[0] != q[0]
    ensures !(StartsWith(h, p) && StartsWith(h, q))
  {
  }

  const NewTab := "_blank"
  const NoOpener := "noopener noreferrer"

  /**
   * The `a` override, as written: a `#` link is a bare anchor, a link
   * starting with `/` an Inertia `Link`, and anything else an anchor that
   * opens in a new tab when it counts as external (`http…` or `//…`).
   */
  function LinkFor(href: Option<string>): (r: LinkView)
    ensures r.href == href
    ensures !r.underlined <==> HrefStarts(href, "#")
    ensures r.element == InertiaLink <==> HrefStarts(href, "/")
    ensures r.target.Some? <==> HrefStarts(href, "http")
    ensures r.target.Some? ==> r.target.value == NewTab && r.rel == Some(NoOpener)
    ensures r.target.None? ==> r.rel.None?
  {
    var isExternal := HrefStarts(href, "http") || HrefStarts(href, "//");
    var isInternal := HrefStarts(href, "/");
    var isHashLink := HrefStarts(href, "#");
    if isHashLink then LinkView(Anchor, href, false, None, None)
    else if isInternal then LinkView(InertiaLink, href, true, None, None)
    else if isExternal then LinkView(Anchor, href, true, Some(NewTab), Some(NoOpener))
    else LinkView(Anchor, href, true, None, None)
  }

  /** A protocol-relative link is taken for an internal route: the `//` case of the external test is never reached. */
  lemma ProtocolRelativeIsInternal(rest: string)
    ensures var v := LinkFor(Some("//" + rest));
      v.element == InertiaLink && v.target.None?
  {
    assert ("//" + rest)[..1] == "/";
    assert ("//" + rest)[..2] == "//";
    Exclusive("//" + rest, "//", "http");
  }

  /** The `a` override with the external test first, so that `//` links leave the site in a new tab. */
  function LinkForIntended(href: Option<string>): (r: LinkView)
    ensures r.href == href
    ensures !r.underlined <==> HrefStarts(href, "#")
    ensures r.element == InertiaLink <==> HrefStarts(href, "/") && !HrefStarts(href, "//")
    ensures r.target.Some? <==> HrefStarts(href, "http") || HrefStarts(href, "//")
    ensures r.target.Some? ==> r.target.value == NewTab && r.rel == Some(NoOpener)
  {
    var isExternal := HrefStarts(href, "http") || HrefStarts(href, "//");
    Exclusive(href.GetOr(""), "#", "http");
    Exclusive(href.GetOr(""), "#", "//");
    if HrefStarts(href, "#") then LinkView(Anchor, href, false, None, None)
    else if isExternal then LinkView(Anchor, href, true, Some(NewTab), Some(NoOpener))
    else if HrefStarts(href, "/") then LinkView(InertiaLink, href, true, None, None)
    else LinkView(Anchor, href, true, None, None)
  }

  /** The two agree on every link but the protocol-relative ones. */
  lemma IntendedDiffersOnlyOnProtocolRelative(href: Option<string>)
    ensures LinkForIntended(href) == LinkFor(href) <==> !HrefStarts(href, "//")
  {
    if HrefStarts(href, "//") {
      assert href.value[..1] == "/";
      assert LinkFor(href).element == InertiaLink;
    }
  }

  // ---------------------------------------------------------------------------
  // Code
  // ---------------------------------------------------------------------------

  /** What the `code` override receives: whether its children are a string, and the rehype-added props. */
  datatype CodeProps = CodeProps(
    childrenIsString: bool, raw: Option<string>, src: Option<string>,
    npm: Option<string>, yarn: Option<string>, pnpm: Option<string>, bun: Option<string>)

  datatype CodeView =
    | InlineCode
    | CommandBlock(npm: string, yarn: string, pnpm: string, bun: string)
    | CodeBlock(copy: Option<(string, Option<string>)>)

  predicate Truthy(s: Option<string>) {
    s.Some? && s.value != ""
  }

  /**
   * String children are inline code; otherwise all four package-manager
   * commands make a command block, and anything else is a code block with a
   * copy button for its raw text when there is some.
   */
  function Code(p: CodeProps): (r: CodeView)
    ensures r.InlineCode? <==> p.childrenIsString
    ensures r.CommandBlock? <==> !p.childrenIsString && Truthy(p.npm) && Truthy(p.yarn) && Truthy(p.pnpm) && Truthy(p.bun)
    ensures r.CommandBlock? ==> r == CommandBlock(p.npm.value, p.yarn.value, p.pnpm.value, p.bun.value)
    ensures r.CodeBlock? ==> (r.copy.Some? <==> Truthy(p.raw))
    ensures r.CodeBlock? && r.copy.Some? ==> r.copy.value == (p.raw.value, p.src)
  {
    if p.childrenIsString then InlineCode
    else if Truthy(p.npm) && Truthy(p.yarn) && Truthy(p.pnpm) && Truthy(p.bun) then
      CommandBlock(p.npm.value, p.yarn.value, p.pnpm.value, p.bun.value)
    else CodeBlock(if Truthy(p.raw) then Some((p.raw.value, p.src)) else None)
  }
}

=== FILE: numeric_pagination.dfy ===
/**
 * The numeric-pagination table: rows (or a "No data" row), then
 * Previous/numbered/Next controls. Unlike the paginator, its handlers do
 * not check the URL: an enabled button may hand `null` to `onChangePage`,
 * and a numbered link hands on whatever URL it has.
 */
module NumericPagination {
  import opened Text
  import Paginator
  import PaginatedTable

  type Link = Paginator.Link

  /** The table body: the rows, or one "No data" cell across every column. */
  datatype Body = NoData(colSpan: nat) | Rows(rows: seq<seq<PaginatedTable.Cell>>)

  function TableBody(columns: seq<string>, data: seq<seq<PaginatedTable.Cell>>): (r: Body)
    ensures r.NoData? <==> |data| == 0
    ensures r.NoData? ==> r.colSpan == |columns|
    ensures r.Rows? ==> r.rows == data
  {
    if |data| > 0 then Rows(data) else NoData(|columns|)
  }

  /** A click's calls to `onChangePage`; `None` is a call with `null`. */
  function OnClick(currentPage: int, lastPage: int, links: seq<Link>, control: Paginator.Control): (r: seq<Option<string>>)
    ensures |r| <= 1
    ensures control.Prev? ==> (r == [] <==> currentPage <= 1)
    ensures control.Next? ==> (r == [] <==> currentPage >= lastPage)
    ensures control.Prev? && r != [] ==> r[0] == Paginator.NavUrl(links, "previous")
    ensures control.Next? && r != [] ==> r[0] == Paginator.NavUrl(links, "next")
    ensures control.Page? ==> r == [control.link.url]
  {
    match control
    case Prev => if currentPage <= 1 then [] else [Paginator.NavUrl(links, "previous")]
    case Next => if currentPage >= lastPage then [] else [Paginator.NavUrl(links, "next")]
    case Page(link) => [link.url]
  }

  /** The calls that carry a truthy URL. */
  function PresentCalls(calls: seq<Option<string>>): (r: seq<string>)
    ensures forall k :: 0 <= k < |r| ==> r[k] != ""
    ensures forall u :: u in r <==> Some(u) in calls && u != ""
    decreases |calls|
  {
    if |calls| == 0 then []
    else if Paginator.Present(calls[0]) then [calls[0].value] + PresentCalls(calls[1..])
    else PresentCalls(calls[1..])
  }

  /**
   * The paginator makes exactly this table's calls that have a truthy URL:
   * the two differ only where this one passes `null` or an empty URL on.
   */
  lemma PaginatorMakesThePresentCalls(currentPage: int, lastPage: int, links: seq<Link>, control: Paginator.Control)
    ensures Paginator.OnClick(currentPage, lastPage, links, control) == PresentCalls(OnClick(currentPage, lastPage, links, control))
  {
  }

  /** The numbered entries: every link but the two navigation labels, `...` as an ellipsis. */
  function PageItems(links: seq<Link>): (r: seq<Paginator.Item>)
    ensures r == Paginator.Items(links)
  {
    var shown := PageLinksOf(links);
    seq(|shown|, k requires 0 <= k < |shown| => if shown[k].caption == "..." then Paginator.Ellipsis else Paginator.Numbered(shown[k]))
  }

  /** The table's own copy of the filter. */
  function PageLinksOf(links: seq<Link>): (r: seq<Link>)
    ensures r == Paginator.PageLinks(links)
    decreases |links|
  {
    if |links| == 0 then []
    else if links[0].caption in ["Next &raquo;", "&laquo; Previous"] then PageLinksOf(links[1..])
    else [links[0]] + PageLinksOf(links[1..])
  }
}

=== FILE: paginated_table.dfy ===
/**
 * The paginated table: the column headers, one row per data row, and below
 * them either a placeholder (when there is no data) or the paginator. The
 * file carries its own copy of the paginator; each of its rules is written
 * out again here and shown to agree with `Paginator`.
 */
module PaginatedTable {
  import opened Text
  import Paginator

  type Link = Paginator.Link

  /** A cell: text or a number. */
  datatype Cell = TextCell(s: string) | NumberCell(n: int)

  /** The copy's click handling. */
  function OnClick(currentPage: int, lastPage: int, links: seq<Link>, control: Paginator.Control): (r: seq<string>)
    ensures r == Paginator.OnClick(currentPage, lastPage, links, control)
  {
    var handlePageClick := (url: Option<string>) => if url.Some? && url.value != "" then [url.value] else [];
    match control
    case Prev => if currentPage <= 1 then [] else handlePageClick(Paginator.NavUrl(links, "previous"))
    case Next => if currentPage >= lastPage then [] else handlePageClick(Paginator.NavUrl(links, "next"))
    case Page(link) => handlePageClick(link.url)
  }

  /** The copy's numeric-mode filter. */
  function PageLinks(links: seq<Link>): (r: seq<Link>)
    ensures r == Paginator.PageLinks(links)
    decreases |links|
  {
    if |links| == 0 then []
    else if links[0].caption == "Next &raquo;" || links[0].caption == "&laquo; Previous" then PageLinks(links[1..])
    else [links[0]] + PageLinks(links[1..])
  }

  /** The copy's range line, with the same estimated page size. */
  function SimpleRangeAsWritten(total: int, itemsOnPage: int, currentPage: int, lastPage: int): (r: Paginator.Range)
    ensures r == Paginator.SimpleRangeAsWritten(total, itemsOnPage, currentPage, lastPage)
  {
    if total <= 0 || itemsOnPage <= 0 then Paginator.Range(0, 0, total)
    else if lastPage == 0 then
      if currentPage > 1 then Paginator.NonFinite("Infinity", "Infinity", total)
      else if currentPage == 1 then Paginator.NonFinite("NaN", "0", total)
      else Paginator.NonFinite("-Infinity", "0", total)
    else
      var perPage := if lastPage > 0 then Paginator.CeilDiv(total, lastPage) else Paginator.CeilDiv(-total, -lastPage);
      var from := (currentPage - 1) * perPage + 1;
      Paginator.Range(from, if from > 0 then from + itemsOnPage - 1 else 0, total)
  }

  /** The copy's paginator: the same view as `Paginator.Render`, range line included. */
  function PaginatorView(kind: Paginator.Kind, currentPage: int, lastPage: int, links: seq<Link>, total: int, currentPageSize: int): (r: Paginator.View)
    ensures r == Paginator.Render(kind, currentPage, lastPage, links, total, currentPageSize)
  {
    var prevDisabled := currentPage <= 1;
    var nextDisabled := currentPage >= lastPage;
    match kind
    case Simple => Paginator.SimpleView(SimpleRangeAsWritten(total, currentPageSize, currentPage, lastPage), prevDisabled, nextDisabled)
    case Numeric => Paginator.NumericView(Paginator.Items(links), prevDisabled, nextDisabled)
  }

  /** The configuration handed to the table. */
  datatype Config = Config(kind: Paginator.Kind, currentPage: int, lastPage: int, links: seq<Link>, total: int)

  /** Below the rows: a caller's placeholder node, the default one, or the paginator. */
  datatype Footer<N> = CustomPlaceholder(node: N) | DefaultPlaceholder | Pager(view: Paginator.View)

  /** The rendered table, over any kind of cell `C` and placeholder node `N`. */
  datatype View<C, N> = View(header: seq<string>, rows: seq<seq<C>>, footer: Footer<N>)

  /**
   * The table. With no data the placeholder is shown (the caller's when it
   * is truthy, else the default); otherwise the file's own paginator, told
   * that the current page holds as many rows as there are. `None` stands
   * for every falsy placeholder (`null`, `undefined`, `false`, an empty
   * string).
   */
  function Render<C, N>(columns: seq<string>, data: seq<seq<C>>, config: Config, placeholder: Option<N>): (r: View<C, N>)
    ensures r.header == columns && r.rows == data
    ensures r.footer.Pager? <==> |data| > 0
    ensures r.footer.CustomPlaceholder? <==> |data| == 0 && placeholder.Some?
    ensures r.footer.CustomPlaceholder? ==> r.footer.node == placeholder.value
    ensures r.footer.Pager? ==>
      r.footer.view == Paginator.Render(config.kind, config.currentPage, config.lastPage, config.links, config.total, |data|)
  {
    var footer :=
      if |data| == 0 then
        (if placeholder.Some? then CustomPlaceholder(placeholder.value) else DefaultPlaceholder)
      else Pager(PaginatorView(config.kind, config.currentPage, config.lastPage, config.links, config.total, |data|));
    View(columns, data, footer)
  }

  /** The table with the corrected range line under the rows; the rest is as rendered. */
  function RenderIntended<C, N>(columns: seq<string>, data: seq<seq<C>>, config: Config, placeholder: Option<N>): (r: View<C, N>)
    ensures r.header == columns && r.rows == data
    ensures !r.footer.Pager? ==> r == Render(columns, data, config, placeholder)
    ensures r.footer.Pager? <==> |data| > 0
    ensures r.footer.Pager? ==>
      r.footer.view == Paginator.RenderIntended(config.kind, config.currentPage, config.lastPage, config.links, config.total, |data|)
  {
    if |data| == 0 then Render(columns, data, config, placeholder)
    else View(columns, data, Pager(Paginator.RenderIntended(config.kind, config.currentPage, config.lastPage, config.links, config.total, |data|)))
  }

  /**
   * In simple mode the line under the rows names exactly the records on the
   * page when every page is full.
   */
  lemma SimpleFooterExactWhenFull<C, N>(columns: seq<string>, data: seq<seq<C>>, config: Config, placeholder: Option<N>, perPage: int)
    requires config.kind == Paginator.Simple
    requires Paginator.Consistent(config.total, perPage, config.currentPage, config.lastPage, |data|)
    requires config.total == config.lastPage * perPage
    ensures var footer := Render(columns, data, config, placeholder).footer;
      && footer.Pager?
      && Paginator.ShowsRecords(footer.view.range, config.total, perPage, config.currentPage)
  {
    assert |data| == perPage;
    Paginator.SimpleRangeAsWrittenExactWhenFull(config.total, perPage, config.currentPage, config.lastPage);
  }

  /**
   * On a partly filled last page it does not: fifteen records at ten a page
   * leave five on page 2, and the line reads 9 to 13 instead of 11 to 15.
   */
  lemma SimpleFooterMisreports<C, N>(columns: seq<string>, data: seq<seq<C>>, config: Config, placeholder: Option<N>)
    requires config == Config(Paginator.Simple, 2, 2, config.links, 15) && |data| == 5
    ensures Paginator.Consistent(config.total, 10, config.currentPage, config.lastPage, |data|)
    ensures var footer := Render(columns, data, config, placeholder).footer;
      && footer.Pager?
      && footer.view.range == Paginator.Range(9, 13, 15)
      && !Paginator.ShowsRecords(footer.view.range, config.total, 10, config.currentPage)
  {
    Paginator.SimpleRangeAsWrittenMisreports(15, 10, 2, 2, 5);
  }

  /**
   * With the corrected range line, the footer names exactly the records on
   * any page of a length-aware paginator.
   */
  lemma SimpleFooterShowsRecords<C, N>(columns: seq<string>, data: seq<seq<C>>, config: Config, placeholder: Option<N>, perPage: int)
    requires config.kind == Paginator.Simple
    requires Paginator.Consistent(config.total, perPage, config.currentPage, config.lastPage, |data|)
    ensures var footer := RenderIntended(columns, data, config, placeholder).footer;
      && footer.Pager?
      && Paginator.ShowsRecords(footer.view.range, config.total, perPage, config.currentPage)
  {
    Paginator.SimpleRangeExact(config.total, perPage, config.currentPage, config.lastPage, |data|);
  }
}

=== FILE: paginated_table_preview.dfy ===
/**
 * The paginated-table preview: fifteen users paged five at a time on the
 * client, with Laravel-style links generated for the current page (a
 * window around it, the first and last page, and an ellipsis where the
 * window leaves a gap) and a page-change handler that reads the page
 * number back out of a `page-N` URL.
 */
module PaginatedTablePreview {
  import opened Text
  import Paginator
  import PaginatedTable

  type Link = Paginator.Link

  datatype User = User(id: int, name: string, email: string, role: string, status: string, createdAt: string)

  const AllUsers: seq<User> := [
    User(1, "Alice Johnson", "alice@example.com", "Admin", "Active", "2024-01-15"),
    User(2, "Bob Smith", "bob@example.com", "User", "Active", "2024-02-20"),
    User(3, "Carol Williams", "carol@example.com", "Editor", "Active", "2024-03-10"),
    User(4, "David Brown", "david@example.com", "User", "Inactive", "2024-04-05"),
    User(5, "Eve Davis", "eve@example.com", "User", "Active", "2024-05-12"),
    User(6, "Frank Miller", "frank@example.com", "Editor", "Active", "2024-06-18"),
    User(7, "Grace Wilson", "grace@example.com", "User", "Active", "2024-07-22"),
    User(8, "Henry Moore", "henry@example.com", "User", "Inactive", "2024-08-30"),
    User(9, "Ivy Taylor", "ivy@example.com", "Admin", "Active", "2024-09-14"),
    User(10, "Jack Anderson", "jack@example.com", "User", "Active", "2024-09-28"),
    User(11, "Kate Johnson", "kate@example.com", "User", "Active", "2024-10-02"),
    User(12, "Liam White", "liam@example.com", "Editor", "Active", "2024-10-15"),
    User(13, "Mia Harris", "mia@example.com", "User", "Active", "2024-11-01"),
    User(14, "Noah Clark", "noah@example.com", "Admin", "Active", "2024-11-12"),
    User(15, "Olivia Lewis", "olivia@example.com", "User", "Inactive", "2024-11-20")
  ]

  const ItemsPerPage: int := 5

  /** `Math.ceil(allUsers.length / ITEMS_PER_PAGE)`. */
  function TotalPages(): (r: int)
    ensures (r - 1) * ItemsPerPage < |AllUsers| <= r * ItemsPerPage
  {
    Paginator.CeilDiv(|AllUsers|, ItemsPerPage)
  }

  lemma TotalPagesIsThree()
    ensures TotalPages() == 3
  {
    assert |AllUsers| == 15;
  }

  /** `Array.prototype.slice`: negative bounds count from the end, and both bounds are clamped. */
  function JsSlice<T>(s: seq<T>, start: int, end: int): (r: seq<T>)
    ensures 0 <= start <= end ==>
      r == s[(if start < |s| then start else |s|)..(if end < |s| then end else |s|)]
    ensures |r| <= |s|
  {
    var from := if start < 0 then (if |s| + start < 0 then 0 else |s| + start) else (if start < |s| then start else |s|);
    var to := if end < 0 then (if |s| + end < 0 then 0 else |s| + end) else (if end < |s| then end else |s|);
    if to <= from then [] else s[from..to]
  }

  /** The users on a page. */
  function CurrentData(currentPage: int): (r: seq<User>)
  {
    var startIndex := (currentPage - 1) * ItemsPerPage;
    JsSlice(AllUsers, startIndex, startIndex + ItemsPerPage)
  }

  /** Page `p` of the preview's three shows the five users `5(p-1)` to `5p - 1`, and the pages in turn give everyone once. */
  lemma PagesPartitionUsers()
    ensures forall p :: 1 <= p <= 3 ==> CurrentData(p) == AllUsers[(p - 1) * ItemsPerPage..p * ItemsPerPage]
    ensures CurrentData(1) + CurrentData(2) + CurrentData(3) == AllUsers
  {
    assert |AllUsers| == 15;
    assert AllUsers[0..5] + AllUsers[5..10] + AllUsers[10..15] == AllUsers;
  }

  /** One row of the table: the user's fields in column order. */
  function Row(u: User): (r: seq<PaginatedTable.Cell>)
    ensures |r| == |Columns|
  {
    [PaginatedTable.NumberCell(u.id), PaginatedTable.TextCell(u.name), PaginatedTable.TextCell(u.email),
     PaginatedTable.TextCell(u.role), PaginatedTable.TextCell(u.status), PaginatedTable.TextCell(u.createdAt)]
  }

  const Columns: seq<string> := ["ID", "Name", "Email", "Role", "Status", "Created"]

  // ---------------------------------------------------------------------------
  // Links
  // ---------------------------------------------------------------------------

  /** Page `i` gets a numbered link: the first, the last, and the current page with its neighbours. */
  predicate Shown(p: int, n: int, i: int) {
    i == 1 || i == n || (p - 1 <= i <= p + 1)
  }

  /** Page `i` is replaced by an ellipsis: not shown, and two away from the current page. */
  predicate Gap(p: int, n: int, i: int) {
    !Shown(p, n, i) && (i == p - 2 || i == p + 2)
  }

  /** What the loop emits for a page: a numbered link or an ellipsis, each tagged with its page. */
  datatype Entry = PageEntry(page: int) | GapEntry(page: int)

  function EntryAt(p: int, n: int, i: int): (r: seq<Entry>)
    ensures Shown(p, n, i) ==> r == [PageEntry(i)]
    ensures Gap(p, n, i) ==> r == [GapEntry(i)]
    ensures !Shown(p, n, i) && !Gap(p, n, i) ==> r == []
  {
    if Shown(p, n, i) then [PageEntry(i)] else if i == p - 2 || i == p + 2 then [GapEntry(i)] else []
  }

  lemma EntryAtPage(p: int, n: int, i: int)
    ensures |EntryAt(p, n, i)| <= 1
    ensures forall k :: 0 <= k < |EntryAt(p, n, i)| ==> EntryAt(p, n, i)[k].page == i
  {
  }

  /** The loop's entries for pages `i` to `n`, in page order. */
  function Window(p: int, n: int, i: int): seq<Entry>
    decreases n + 1 - i
  {
    if i > n then [] else EntryAt(p, n, i) + Window(p, n, i + 1)
  }

  /** The window lists pages from `i` to `n` in strictly increasing order. */
  lemma {:induction false} WindowOrdered(p: int, n: int, i: int)
    ensures forall k :: 0 <= k < |Window(p, n, i)| ==> i <= Window(p, n, i)[k].page <= n
    ensures forall a, b :: 0 <= a < b < |Window(p, n, i)| ==> Window(p, n, i)[a].page < Window(p, n, i)[b].page
    decreases n + 1 - i
  {
    if i <= n {
      WindowOrdered(p, n, i + 1);
      EntryAtPage(p, n, i);
      var head := EntryAt(p, n, i);
      var rest := Window(p, n, i + 1);
      var r := Window(p, n, i);
      assert r == head + rest;
      forall k | 0 <= k < |r|
        ensures i <= r[k].page <= n
      {
        if k < |head| {
          assert r[k] == head[0];
        } else {
          assert r[k] == rest[k - |head|];
        }
      }
      forall a, b | 0 <= a < b < |r|
        ensures r[a].page < r[b].page
      {
        assert r[b] == rest[b - |head|];
        if a < |head| {
          assert r[a] == head[0];
        } else {
          assert r[a] == rest[a - |head|];
        }
      }
    }
  }

  /** Every entry of the window is a numbered link for a shown page or an ellipsis for a gap. */
  lemma {:induction false} WindowKinds(p: int, n: int, i: int)
    ensures forall k :: 0 <= k < |Window(p, n, i)| ==> (Window(p, n, i)[k].PageEntry? <==> Shown(p, n, Window(p, n, i)[k].page))
    ensures forall k :: 0 <= k < |Window(p, n, i)| && Window(p, n, i)[k].GapEntry? ==> Gap(p, n, Window(p, n, i)[k].page)
    decreases n + 1 - i
  {
    if i <= n {
      WindowKinds(p, n, i + 1);
      EntryAtPage(p, n, i);
      var head := EntryAt(p, n, i);
      var rest := Window(p, n, i + 1);
      var r := Window(p, n, i);
      assert r == head + rest;
      forall k | 0 <= k < |r|
        ensures (r[k].PageEntry? <==> Shown(p, n, r[k].page)) && (r[k].GapEntry? ==> Gap(p, n, r[k].page))
      {
        if k < |head| {
          assert r[k] == head[0];
        } else {
          assert r[k] == rest[k - |head|];
        }
      }
    }
  }

  /** Every shown page from `i` to `n` has its numbered link, and every gap its ellipsis. */
  lemma {:induction false} WindowComplete(p: int, n: int, i: int)
    ensures var r := Window(p, n, i);
      && (forall j :: i <= j <= n && Shown(p, n, j) ==> PageEntry(j) in r)
      && (forall j :: i <= j <= n && Gap(p, n, j) ==> GapEntry(j) in r)
    decreases n + 1 - i
  {
    if i <= n {
      WindowComplete(p, n, i + 1);
      var r := Window(p, n, i);
      var rest := Window(p, n, i + 1);
      assert r == EntryAt(p, n, i) + rest;
      forall j | i <= j <= n && Shown(p, n, j)
        ensures PageEntry(j) in r
      {
        if j == i {
          assert r[0] == PageEntry(j);
        } else {
          assert PageEntry(j) in rest;
        }
      }
      forall j | i <= j <= n && Gap(p, n, j)
        ensures GapEntry(j) in r
      {
        if j == i {
          assert r[0] == GapEntry(j);
        } else {
          assert GapEntry(j) in rest;
        }
      }
    }
  }

  function PageUrl(i: int): string {
    "page-" + IntToString(i)
  }

  function ToLink(e: Entry, p: int): Link {
    match e
    case PageEntry(i) => Paginator.Link(Some(PageUrl(i)), IntToString(i), i == p)
    case GapEntry(_) => Paginator.Link(None, Paginator.EllipsisLabel, false)
  }

  function PrevLink(p: int): (r: Link)
    ensures r.url.None? <==> p <= 1
    ensures r.caption == Paginator.PreviousLabel && !r.active
  {
    Paginator.Link(if p > 1 then Some(PageUrl(p - 1)) else None, Paginator.PreviousLabel, false)
  }

  function NextLink(p: int, n: int): (r: Link)
    ensures r.url.None? <==> p >= n
    ensures r.caption == Paginator.NextLabel && !r.active
  {
    Paginator.Link(if p < n then Some(PageUrl(p + 1)) else None, Paginator.NextLabel, false)
  }

  /** The links for a run of entries, one each. */
  function ToLinks(es: seq<Entry>, p: int): (r: seq<Link>)
    ensures |r| == |es|
  {
    seq(|es|, k requires 0 <= k < |es| => ToLink(es[k], p))
  }

  /** Links of consecutive runs of entries follow one another. */
  lemma ToLinksAppend(a: seq<Entry>, b: seq<Entry>, p: int)
    ensures ToLinks(a + b, p) == ToLinks(a, p) + ToLinks(b, p)
  {
    var l, la, lb := ToLinks(a + b, p), ToLinks(a, p), ToLinks(b, p);
    forall k | 0 <= k < |l|
      ensures l[k] == (la + lb)[k]
    {
      if k < |a| {
        assert (a + b)[k] == a[k];
      } else {
        assert (a + b)[k] == b[k - |a|];
      }
    }
  }

  /** The links for page `p` of `n`: Previous, the window, Next. */
  function Links(p: int, n: int): (r: seq<Link>)
    ensures |r| == |Window(p, n, 1)| + 2
    ensures r[0] == PrevLink(p) && r[|r| - 1] == NextLink(p, n)
    ensures forall k :: 0 <= k < |Window(p, n, 1)| ==> r[k + 1] == ToLink(Window(p, n, 1)[k], p)
  {
    [PrevLink(p)] + ToLinks(Window(p, n, 1), p) + [NextLink(p, n)]
  }

  /** `generateLinks`: the loop over pages 1 to `totalPages`. */
  method GenerateLinks(currentPage: int, totalPages: int) returns (links: seq<Link>)
    ensures links == Links(currentPage, totalPages)
  {
    links := [PrevLink(currentPage)];
    ghost var entries: seq<Entry> := [];
    var i := 1;
    while i <= totalPages
      invariant 1 <= i <= (if totalPages < 1 then 1 else totalPages + 1)
      invariant entries + Window(currentPage, totalPages, i) == Window(currentPage, totalPages, 1)
      invariant links == [PrevLink(currentPage)] + ToLinks(entries, currentPage)
      decreases totalPages + 1 - i
    {
      var more := PageStep(currentPage, totalPages, i);
      entries := StepInvariant(currentPage, totalPages, i, links, entries, more);
      links := links + more;
      i := i + 1;
    }
    assert Window(currentPage, totalPages, i) == [];
    assert entries == Window(currentPage, totalPages, 1);
    links := links + [NextLink(currentPage, totalPages)];
  }

  /** A pass of the loop over page `i <= n` keeps the loop's invariant, with the entry of page `i` moved over. */
  lemma StepInvariant(p: int, n: int, i: int, links: seq<Link>, entries: seq<Entry>, more: seq<Link>)
    returns (entries': seq<Entry>)
    requires i <= n
    requires entries + Window(p, n, i) == Window(p, n, 1)
    requires links == [PrevLink(p)] + ToLinks(entries, p)
    requires more == ToLinks(EntryAt(p, n, i), p)
    ensures entries' + Window(p, n, i + 1) == Window(p, n, 1)
    ensures links + more == [PrevLink(p)] + ToLinks(entries', p)
  {
    var here, rest := EntryAt(p, n, i), Window(p, n, i + 1);
    entries' := entries + here;
    assert Window(p, n, i) == here + rest;
    assert entries' + rest == entries + (here + rest);
    ToLinksAppend(entries, here, p);
    var front, la := [PrevLink(p)], ToLinks(entries, p);
    assert (front + la) + more == front + (la + more);
  }

  /** One pass of the loop: the link of page `i`'s entry, if it has one. */
  method PageStep(currentPage: int, totalPages: int, i: int) returns (more: seq<Link>)
    ensures more == ToLinks(EntryAt(currentPage, totalPages, i), currentPage)
  {
    more := [];
    if i == 1 || i == totalPages || (i >= currentPage - 1 && i <= currentPage + 1) {
      more := [Paginator.Link(Some("page-" + IntToString(i)), IntToString(i), i == currentPage)];
    } else if i == currentPage - 2 || i == currentPage + 2 {
      more := [Paginator.Link(None, "...", false)];
    }
  }

  /** A page has a numbered link exactly when it is the first, the last, or next to the current one. */
  lemma NumberedExactlyWhenShown(p: int, n: int, i: int)
    requires 1 <= i <= n
    ensures PageEntry(i) in Window(p, n, 1) <==> Shown(p, n, i)
  {
    var w := Window(p, n, 1);
    WindowKinds(p, n, 1);
    WindowComplete(p, n, 1);
    if PageEntry(i) in w {
      var k :| 0 <= k < |w| && w[k] == PageEntry(i);
    }
  }

  /** Ellipses sit only two pages away from the current one, so there is at most one on each side. */
  lemma AtMostOneGapEachSide(p: int, n: int)
    ensures var w := Window(p, n, 1);
      forall a, b :: 0 <= a < b < |w| && w[a].GapEntry? && w[b].GapEntry? ==> w[a].page == p - 2 && w[b].page == p + 2
  {
    WindowOrdered(p, n, 1);
    WindowKinds(p, n, 1);
  }

  /** On a page within range exactly one link is active: the current page's. */
  lemma ExactlyOneActive(p: int, n: int)
    requires 1 <= p <= n
    ensures var links := Links(p, n);
      exists a :: 0 <= a < |links| && links[a].active && links[a].caption == IntToString(p)
        && forall k :: 0 <= k < |links| && links[k].active ==> k == a
  {
    var links := Links(p, n);
    var w := Window(p, n, 1);
    WindowOrdered(p, n, 1);
    WindowComplete(p, n, 1);
    assert Shown(p, n, p);
    var e :| 0 <= e < |w| && w[e] == PageEntry(p);
    assert links[e + 1] == ToLink(w[e], p);
    forall k | 0 <= k < |links| && links[k].active
      ensures k == e + 1
    {
      assert 0 < k < |links| - 1;
      assert links[k] == ToLink(w[k - 1], p);
      assert w[k - 1] == PageEntry(p);
    }
  }

  // ---------------------------------------------------------------------------
  // Page changes
  // ---------------------------------------------------------------------------

  /** A page change: nothing, or a new current page (`None` is `NaN`). */
  datatype PageChange = Keep | SetPage(page: Option<int>)

  /** `handlePageChange`: a falsy URL is ignored; otherwise the part after the first `-` is parsed. */
  function HandlePageChange(url: Option<string>): (r: PageChange)
    ensures !Paginator.Present(url) <==> r.Keep?
  {
    if !Paginator.Present(url) then Keep
    else
      var parts := Split(url.value, '-');
      SetPage(if |parts| >= 2 then ParseInt(parts[1]) else None)
  }

  /** A `page-N` URL leads back to page `N`. */
  lemma PageUrlRoundTrip(i: nat)
    ensures HandlePageChange(Some(PageUrl(i))) == SetPage(Some(i))
  {
    var digits := NatToString(i);
    assert forall k :: 0 <= k < |digits| ==> digits[k] != '-';
    assert '-' !in "page";
    assert PageUrl(i) == Join(["page", digits], "-");
    SplitJoin(["page", digits], '-');
    ParseIntOfNatToString(i);
  }

  /** Every link the preview generates with a URL leads to the page it names. */
  lemma GeneratedLinksLeadToTheirPage(p: int, n: int, k: nat)
    requires 1 <= p
    requires k < |Links(p, n)| && Links(p, n)[k].url.Some?
    ensures var target := HandlePageChange(Links(p, n)[k].url);
      && target.SetPage? && target.page.Some?
      && (k == 0 ==> target.page.value == p - 1)
      && (k == |Links(p, n)| - 1 ==> target.page.value == p + 1)
      && (0 < k < |Links(p, n)| - 1 ==> target.page.value == Window(p, n, 1)[k - 1].page)
  {
    var links := Links(p, n);
    var w := Window(p, n, 1);
    if k == 0 {
      PageUrlRoundTrip(p - 1);
    } else if k == |links| - 1 {
      PageUrlRoundTrip(p + 1);
    } else {
      assert links[k] == ToLink(w[k - 1], p);
      WindowOrdered(p, n, 1);
      assert 1 <= w[k - 1].page;
      PageUrlRoundTrip(w[k - 1].page);
    }
  }
}

=== FILE: paginator.dfy ===
/**
 * The table paginator: Previous/Next buttons that find their target among
 * Laravel-style pagination links, the numbered links of numeric mode, and
 * the "Showing X to Y of Z results" range of simple mode. A click's effect
 * is the list of URLs handed to `onChangePage`.
 *
 * Optional numeric props read `x || 0`, so an absent one is passed as 0.
 */
module Paginator {
  import opened Text

  datatype Link = Link(url: Option<string>, caption: string, active: bool)
  datatype Kind = Simple | Numeric

  /** A URL JavaScript treats as truthy. */
  predicate Present(url: Option<string>) {
    url.Some? && url.value != ""
  }

  /** The position of the first link whose lowercased caption contains `word`. */
  function FirstLabelled(links: seq<Link>, word: string): (r: Option<nat>)
    ensures r.Some? ==> r.value < |links| && Contains(Lower(links[r.value].caption), word)
    ensures r.Some? ==> forall j :: 0 <= j < r.value ==> !Contains(Lower(links[j].caption), word)
    ensures r.None? <==> forall j :: 0 <= j < |links| ==> !Contains(Lower(links[j].caption), word)
    decreases |links|
  {
    if |links| == 0 then None
    else if Contains(Lower(links[0].caption), word) then Some(0)
    else
      match FirstLabelled(links[1..], word)
      case None => None
      case Some(k) => Some(k + 1)
  }

  /** `links.find(...)?.url || null`: the first such link's URL when it is truthy. */
  function NavUrl(links: seq<Link>, word: string): (r: Option<string>)
    ensures r.Some? ==> r.value != ""
    ensures r.Some? <==> FirstLabelled(links, word).Some? && Present(links[FirstLabelled(links, word).value].url)
    ensures r.Some? ==> r == links[FirstLabelled(links, word).value].url
  {
    match FirstLabelled(links, word)
    case Some(k) => if Present(links[k].url) then links[k].url else None
    case None => None
  }

  predicate PrevDisabled(currentPage: int) { currentPage <= 1 }
  predicate NextDisabled(currentPage: int, lastPage: int) { currentPage >= lastPage }

  /** What can be clicked: the two buttons, or a numbered link. */
  datatype Control = Prev | Next | Page(link: Link)

  /** `handlePageClick`: only a truthy URL reaches `onChangePage`. */
  function HandlePageClick(url: Option<string>): (r: seq<string>)
    ensures Present(url) ==> r == [url.value]
    ensures !Present(url) <==> r == []
  {
    if Present(url) then [url.value] else []
  }

  /**
   * A click in either mode. A disabled button does nothing; an enabled one
   * follows its link's URL when that is truthy; a numbered link follows its
   * own URL when truthy.
   */
  function OnClick(currentPage: int, lastPage: int, links: seq<Link>, control: Control): (r: seq<string>)
    ensures |r| <= 1
    ensures forall k :: 0 <= k < |r| ==> r[k] != ""
    ensures control.Prev? ==> (r != [] <==> !PrevDisabled(currentPage) && NavUrl(links, "previous").Some?)
    ensures control.Next? ==> (r != [] <==> !NextDisabled(currentPage, lastPage) && NavUrl(links, "next").Some?)
    ensures control.Prev? && r != [] ==> Some(r[0]) == NavUrl(links, "previous")
    ensures control.Next? && r != [] ==> Some(r[0]) == NavUrl(links, "next")
    ensures control.Page? ==> (r != [] <==> Present(control.link.url))
    ensures control.Page? && r != [] ==> Some(r[0]) == control.link.url
  {
    match control
    case Prev => if PrevDisabled(currentPage) then [] else HandlePageClick(NavUrl(links, "previous"))
    case Next => if NextDisabled(currentPage, lastPage) then [] else HandlePageClick(NavUrl(links, "next"))
    case Page(link) => HandlePageClick(link.url)
  }

  // ---------------------------------------------------------------------------
  // Numeric mode
  // ---------------------------------------------------------------------------

  const NextLabel: string := "Next &raquo;"
  const PreviousLabel: string := "&laquo; Previous"
  const EllipsisLabel: string := "..."

  predicate IsNavLabel(caption: string) {
    caption == NextLabel || caption == PreviousLabel
  }

  /** The links numeric mode lists between the buttons: every link but the two Laravel navigation labels, in order. */
  function PageLinks(links: seq<Link>): (r: seq<Link>)
    ensures |r| <= |links|
    ensures forall l :: l in r <==> l in links && !IsNavLabel(l.caption)
    decreases |links|
  {
    if |links| == 0 then []
    else if IsNavLabel(links[0].caption) then PageLinks(links[1..])
    else [links[0]] + PageLinks(links[1..])
  }

  /** The filter keeps order: it distributes over concatenation. */
  lemma {:induction false} PageLinksAppend(a: seq<Link>, b: seq<Link>)
    ensures PageLinks(a + b) == PageLinks(a) + PageLinks(b)
    decreases |a|
  {
    if |a| > 0 {
      var ab := a + b;
      assert ab[0] == a[0] && ab[1..] == a[1..] + b;
      PageLinksAppend(a[1..], b);
      var pa, pb := PageLinks(a[1..]), PageLinks(b);
      if IsNavLabel(a[0].caption) {
        assert PageLinks(ab) == pa + pb;
      } else {
        assert PageLinks(ab) == [a[0]] + (pa + pb);
        assert [a[0]] + (pa + pb) == ([a[0]] + pa) + pb;
      }
    } else {
      assert a + b == b;
    }
  }

  /** A listed entry: a non-clickable ellipsis, or a link. */
  datatype Item = Ellipsis | Numbered(link: Link)

  function Items(links: seq<Link>): (r: seq<Item>)
    ensures |r| == |PageLinks(links)|
    ensures forall k :: 0 <= k < |r| ==> (r[k].Ellipsis? <==> PageLinks(links)[k].caption == EllipsisLabel)
    ensures forall k :: 0 <= k < |r| && r[k].Numbered? ==> r[k].link == PageLinks(links)[k]
  {
    var shown := PageLinks(links);
    seq(|shown|, k requires 0 <= k < |shown| => if shown[k].caption == EllipsisLabel then Ellipsis else Numbered(shown[k]))
  }

  // ---------------------------------------------------------------------------
  // Simple mode
  // ---------------------------------------------------------------------------

  /** `Math.ceil(a / b)` for a positive divisor. */
  function CeilDiv(a: int, b: int): (r: int)
    requires b > 0
    ensures b * (r - 1) < a <= b * r
  {
    -((-a) / b)
  }

  /**
   * The range line's numbers. When the page count is 0 the estimated page
   * size is `Infinity`, and the line prints `Infinity`, `-Infinity` or
   * `NaN` where the numbers would be.
   */
  datatype Range =
    | Range(from: int, to: int, total: int)
    | NonFinite(fromText: string, toText: string, total: int)

  /**
   * The range as written: the page size is estimated as
   * `ceil(total / lastPage)`, which is the real page size only when the
   * pages divide the total evenly.
   */
  function SimpleRangeAsWritten(total: int, itemsOnPage: int, currentPage: int, lastPage: int): (r: Range)
    ensures r.total == total
    ensures r.NonFinite? <==> lastPage == 0 && total > 0 && itemsOnPage > 0
    ensures r.NonFinite? ==>
      && (currentPage > 1 ==> r.fromText == "Infinity" && r.toText == "Infinity")
      && (currentPage == 1 ==> r.fromText == "NaN" && r.toText == "0")
      && (currentPage < 1 ==> r.fromText == "-Infinity" && r.toText == "0")
    ensures r.Range? && r.from > 0 ==> r.to - r.from + 1 == itemsOnPage
    ensures r.Range? && r.from <= 0 ==> r.to == 0
    ensures (total <= 0 || itemsOnPage <= 0) ==> r == Range(0, 0, total)
    ensures total > 0 && itemsOnPage > 0 && lastPage >= 1 ==>
      r.Range? && r.from == (currentPage - 1) * CeilDiv(total, lastPage) + 1
  {
    if !(total > 0 && itemsOnPage > 0) then Range(0, 0, total)
    else if lastPage == 0 then
      // (currentPage - 1) * Infinity + 1
      if currentPage > 1 then NonFinite("Infinity", "Infinity", total)
      else if currentPage == 1 then NonFinite("NaN", "0", total)
      else NonFinite("-Infinity", "0", total)
    else
      // a / b == (-a) / (-b), so a negative page count rounds like a positive one
      var perPage := if lastPage > 0 then CeilDiv(total, lastPage) else CeilDiv(-total, -lastPage);
      var from := (currentPage - 1) * perPage + 1;
      var to := if from > 0 then from + itemsOnPage - 1 else 0;
      Range(from, to, total)
  }

  /**
   * The pages a length-aware paginator produces: `perPage` rows a page,
   * `lastPage` pages, and the current page holding what is left of the
   * total when it is the last.
   */
  predicate Consistent(total: int, perPage: int, currentPage: int, lastPage: int, itemsOnPage: int) {
    && perPage >= 1 && total >= 1
    && 1 <= currentPage <= lastPage
    && (lastPage - 1) * perPage < total <= lastPage * perPage
    && itemsOnPage == (if currentPage < lastPage then perPage else total - (lastPage - 1) * perPage)
  }

  /** The records the current page actually shows: from `(page - 1) * perPage + 1` to the smaller of `page * perPage` and the total. */
  predicate ShowsRecords(r: Range, total: int, perPage: int, currentPage: int) {
    && r.Range?
    && r.from == (currentPage - 1) * perPage + 1
    && r.to == (if currentPage * perPage < total then currentPage * perPage else total)
    && r.total == total
  }

  /**
   * The range worked out from what the paginator is given: a page before
   * the last is full, so its size is the page size; the last page ends at
   * the total.
   */
  function SimpleRange(total: int, itemsOnPage: int, currentPage: int, lastPage: int): (r: Range)
    ensures r.Range? && r.total == total
    ensures r.from > 0 ==> r.to - r.from + 1 == itemsOnPage
    ensures (total <= 0 || itemsOnPage <= 0) ==> r.from == 0 && r.to == 0
  {
    var from :=
      if total > 0 && itemsOnPage > 0 then
        (if currentPage < lastPage then (currentPage - 1) * itemsOnPage + 1 else total - itemsOnPage + 1)
      else 0;
    var to := if from > 0 then from + itemsOnPage - 1 else 0;
    Range(from, to, total)
  }

  /** On every page of a length-aware paginator, the corrected range names exactly the records shown. */
  lemma SimpleRangeExact(total: int, perPage: int, currentPage: int, lastPage: int, itemsOnPage: int)
    requires Consistent(total, perPage, currentPage, lastPage, itemsOnPage)
    ensures ShowsRecords(SimpleRange(total, itemsOnPage, currentPage, lastPage), total, perPage, currentPage)
  {
    var r := SimpleRange(total, itemsOnPage, currentPage, lastPage);
    if currentPage < lastPage {
      MulMonotone(currentPage, lastPage - 1, perPage);
      assert (currentPage - 1) * perPage + perPage == currentPage * perPage;
      assert r.from == (currentPage - 1) * perPage + 1;
      assert r.to == currentPage * perPage;
    } else {
      assert r.from == total - itemsOnPage + 1 == (lastPage - 1) * perPage + 1;
      assert r.to == total;
    }
  }

  lemma MulMonotone(a: int, b: int, k: int)
    requires a <= b && k >= 0
    ensures a * k <= b * k
  {
    assert b * k - a * k == (b - a) * k;
  }

  lemma CancelLess(k: int, a: int, b: int)
    requires k > 0 && k * a < k * b
    ensures a < b
  {
  }

  lemma CancelAtMost(k: int, a: int, b: int)
    requires k > 0 && k * a <= k * b
    ensures a <= b
  {
  }

  /** The estimate is right when every page is full. */
  lemma SimpleRangeAsWrittenExactWhenFull(total: int, perPage: int, currentPage: int, lastPage: int)
    requires Consistent(total, perPage, currentPage, lastPage, perPage)
    requires total == lastPage * perPage
    ensures ShowsRecords(SimpleRangeAsWritten(total, perPage, currentPage, lastPage), total, perPage, currentPage)
  {
    var c := CeilDiv(total, lastPage);
    assert lastPage * (c - 1) < lastPage * perPage <= lastPage * c;
    CancelLess(lastPage, c - 1, perPage);
    CancelAtMost(lastPage, perPage, c);
    assert currentPage * perPage <= total;
  }

  /**
   * Fifteen records at ten a page: the second page shows records 11 to 15,
   * but the estimate of eight a page makes the line read 9 to 13.
   */
  lemma SimpleRangeAsWrittenMisreports(total: int, perPage: int, currentPage: int, lastPage: int, itemsOnPage: int)
    requires total == 15 && perPage == 10 && currentPage == 2 && lastPage == 2 && itemsOnPage == 5
    ensures Consistent(total, perPage, currentPage, lastPage, itemsOnPage)
    ensures SimpleRangeAsWritten(total, itemsOnPage, currentPage, lastPage) == Range(9, 13, 15)
    ensures !ShowsRecords(SimpleRangeAsWritten(total, itemsOnPage, currentPage, lastPage), total, perPage, currentPage)
  {
    assert CeilDiv(15, 2) == 8;
  }

  /** What the paginator renders. */
  datatype View =
    | SimpleView(range: Range, prevDisabled: bool, nextDisabled: bool)
    | NumericView(items: seq<Item>, prevDisabled: bool, nextDisabled: bool)

  /** The paginator as written: in simple mode the range line uses the estimated page size. */
  function Render(kind: Kind, currentPage: int, lastPage: int, links: seq<Link>, total: int, currentPageSize: int): (r: View)
    ensures r.prevDisabled <==> currentPage <= 1
    ensures r.nextDisabled <==> currentPage >= lastPage
    ensures kind == Simple <==> r.SimpleView?
    ensures r.SimpleView? ==> r.range == SimpleRangeAsWritten(total, currentPageSize, currentPage, lastPage)
    ensures r.NumericView? ==> r.items == Items(links)
  {
    match kind
    case Simple => SimpleView(SimpleRangeAsWritten(total, currentPageSize, currentPage, lastPage), PrevDisabled(currentPage), NextDisabled(currentPage, lastPage))
    case Numeric => NumericView(Items(links), PrevDisabled(currentPage), NextDisabled(currentPage, lastPage))
  }

  /** The paginator with the corrected range line; everything else is as rendered. */
  function RenderIntended(kind: Kind, currentPage: int, lastPage: int, links: seq<Link>, total: int, currentPageSize: int): (r: View)
    ensures kind == Numeric ==> r == Render(kind, currentPage, lastPage, links, total, currentPageSize)
    ensures kind == Simple ==>
      var v := Render(kind, currentPage, lastPage, links, total, currentPageSize);
      v.SimpleView? && r == v.(range := SimpleRange(total, currentPageSize, currentPage, lastPage))
  {
    match kind
    case Simple => SimpleView(SimpleRange(total, currentPageSize, currentPage, lastPage), PrevDisabled(currentPage), NextDisabled(currentPage, lastPage))
    case Numeric => NumericView(Items(links), PrevDisabled(currentPage), NextDisabled(currentPage, lastPage))
  }
}

=== FILE: signed_url.dfy ===
/**
 * `SignedUrlController`: validates a batch of file descriptions and answers
 * one presigned S3 `PutObject` URL per file, keyed by the file's SHA-256 and
 * carrying the digest as the object checksum. The S3 client's presigning is a
 * parameter (`presign`); the bucket is the configured one.
 */
module SignedUrl {
  import opened Text
  import opened JsonValue
  import opened Validation
  import Base64

  type Byte = Base64.Byte

  /** `max:10485760` on `filesize`: 10 MiB. */
  const MaxFileSize: int := 10485760
  const KeyPrefix: string := "uploads/"
  const PresignExpiry: string := "+5 minutes"

  // ---------------------------------------------------------------------------
  // The SHA-256 rule
  // ---------------------------------------------------------------------------

  predicate AllHex(s: string) {
    forall i :: 0 <= i < |s| ==> IsHexDigit(s[i])
  }

  /** Exactly 64 hexadecimal digits, in either case. */
  predicate IsSha256Hex(s: string) {
    |s| == 64 && AllHex(s)
  }

  /**
   * `regex:/^[a-f0-9]{64}$/i` as PCRE reads it: `$` without the `D` modifier
   * also matches just before a final newline, so one trailing `\n` passes.
   */
  predicate MatchesSha256Rule(s: string) {
    IsSha256Hex(s) || (|s| == 65 && IsSha256Hex(s[..64]) && s[64] == '\n')
  }

  const FileRules: seq<(string, Rule)> := [
    ("contentType", StringRule(None)),
    ("filename", StringRule(None)),
    ("filesize", IntegerRule(None, Some(MaxFileSize))),
    ("sha256", PatternRule(MatchesSha256Rule))
  ]

  // ---------------------------------------------------------------------------
  // hex2bin, bin2hex
  // ---------------------------------------------------------------------------

  function HexPairs(s: string): (r: seq<Byte>)
    requires |s| % 2 == 0 && AllHex(s)
    ensures |r| == |s| / 2
  {
    if |s| == 0 then []
    else [HexValue(s[0]) * 16 + HexValue(s[1])] + HexPairs(s[2..])
  }

  /** `hex2bin`: `None` for odd length or a non-hex character (PHP warns and returns false). */
  function Hex2Bin(s: string): (r: Option<seq<Byte>>)
    ensures r.Some? <==> |s| % 2 == 0 && AllHex(s)
    ensures r.Some? ==> |r.value| == |s| / 2
  {
    if |s| % 2 == 0 && AllHex(s) then Some(HexPairs(s)) else None
  }

  function HexDigitChar(v: nat): (c: char)
    requires v < 16
    ensures IsHexDigit(c) && HexValue(c) == v && !IsUpper(c)
  {
    if v < 10 then ('0' as int + v) as char else ('a' as int + (v - 10)) as char
  }

  /** `bin2hex`: two lower-case digits per byte. */
  function Bin2Hex(b: seq<Byte>): (r: string)
    ensures |r| == 2 * |b| && AllHex(r)
    ensures forall i :: 0 <= i < |r| ==> !IsUpper(r[i])
  {
    if |b| == 0 then "" else [HexDigitChar(b[0] / 16), HexDigitChar(b[0] % 16)] + Bin2Hex(b[1..])
  }

  /** Decoding the hex form of bytes gives the bytes back. */
  lemma {:induction false} Hex2BinOfBin2Hex(b: seq<Byte>)
    ensures Hex2Bin(Bin2Hex(b)) == Some(b)
  {
    if |b| > 0 {
      Hex2BinOfBin2Hex(b[1..]);
      var s := Bin2Hex(b);
      assert s[2..] == Bin2Hex(b[1..]);
      assert [b[0]] + b[1..] == b;
    }
  }

  /** Hex digits read the same in either case. */
  lemma {:induction false} HexPairsCaseInsensitive(s: string)
    requires |s| % 2 == 0 && AllHex(s)
    ensures AllHex(Lower(s))
    ensures HexPairs(Lower(s)) == HexPairs(s)
  {
    if |s| > 0 {
      HexPairsCaseInsensitive(s[2..]);
      assert Lower(s)[2..] == Lower(s[2..]);
    }
  }

  // ---------------------------------------------------------------------------
  // Per-file values
  // ---------------------------------------------------------------------------

  /** The object key: the lower-cased digest under `uploads/`, no extension. */
  function ObjectKey(sha256: string): (r: string)
    ensures |r| == |KeyPrefix| + |sha256|
    ensures StartsWith(r, KeyPrefix)
    ensures forall i :: |KeyPrefix| <= i < |r| ==> !IsUpper(r[i])
  {
    KeyPrefix + Lower(sha256)
  }

  /** Two digests name the same object exactly when they differ at most in case. */
  lemma ObjectKeySameObject(a: string, b: string)
    ensures ObjectKey(a) == ObjectKey(b) <==> Lower(a) == Lower(b)
  {
    if ObjectKey(a) == ObjectKey(b) {
      assert Lower(a) == ObjectKey(a)[|KeyPrefix|..];
      assert Lower(b) == ObjectKey(b)[|KeyPrefix|..];
    }
  }

  /** `base64_encode(hex2bin($sha256))`; `None` where `hex2bin` fails (the request errors). */
  function Checksum(sha256: string): (r: Option<string>)
    ensures r.Some? <==> Hex2Bin(sha256).Some?
    ensures r.Some? ==> Base64.Decode(r.value) == Hex2Bin(sha256)
  {
    match Hex2Bin(sha256)
    case None => None
    case Some(digest) =>
      Base64.DecodeEncode(digest);
      Some(Base64.Encode(digest))
  }

  /**
   * A well-formed digest gives a 44-character checksum ending in exactly
   * one '=', whatever its letter case.
   */
  lemma ChecksumOfDigest(sha256: string)
    requires IsSha256Hex(sha256)
    ensures Checksum(sha256).Some?
    ensures |Checksum(sha256).value| == 44
    ensures Checksum(sha256).value[43] == '=' && '=' !in Checksum(sha256).value[..43]
    ensures Checksum(Lower(sha256)) == Checksum(sha256)
  {
    HexPairsCaseInsensitive(sha256);
    var d := Hex2Bin(sha256).value;
    var e := Base64.Encode(d);
    Base64.EncodePadding(d, 30);
    Base64.TailPadding(d[30..]);
    var head, tail := Base64.Encode(d[..30]), Base64.Encode(d[30..]);
    assert |head| == 40;
    assert e[..43] == head + tail[..3];
    assert e[43] == tail[3];
  }

  /** The checksum of a digest written by `bin2hex` decodes to the digest. */
  lemma ChecksumOfBin2Hex(digest: seq<Byte>)
    ensures Checksum(Bin2Hex(digest)) == Some(Base64.Encode(digest))
  {
    Hex2BinOfBin2Hex(digest);
  }

  /** A digest the rule accepts with its trailing newline has no checksum. */
  lemma NewlineDigestHasNoChecksum(sha256: string)
    requires MatchesSha256Rule(sha256) && !IsSha256Hex(sha256)
    ensures Checksum(sha256) == None
  {
  }

  // ---------------------------------------------------------------------------
  // The request
  // ---------------------------------------------------------------------------

  /** A validated file entry, field by field. */
  datatype FileRequest = FileRequest(contentType: string, filename: string, filesize: int, sha256: string)

  /** The `PutObject` command parameters. */
  datatype PutObject = PutObject(bucket: string, key: string, contentType: string, checksumSha256: string, contentLength: int)

  /** One element of the response's `files`. */
  datatype SignedEntry = SignedEntry(sha256: string, bucket: string, key: string, url: string, filename: string)

  datatype Outcome =
    | Signed(files: seq<SignedEntry>)         // 200 with `{files: [...]}`
    | Unprocessable(errors: seq<Attribute>)   // 422 from validation
    | ServerError                             // `hex2bin` warned, raised as an exception

  /** The entry fields of a record that passed `FileRules`. */
  function ToFileRequest(item: Json): (r: FileRequest)
    requires ItemPasses(item, FileRules)
    ensures MatchesSha256Rule(r.sha256) && PhpIntMin <= r.filesize <= MaxFileSize
    ensures Get(item, "contentType") == Some(JStr(r.contentType))
    ensures Get(item, "filename") == Some(JStr(r.filename))
    ensures Get(item, "sha256") == Some(JStr(r.sha256))
    ensures Get(item, "filesize").Some? && IntegerValue(Get(item, "filesize").value) == Some(r.filesize)
  {
    assert FieldPasses(Get(item, FileRules[0].0), FileRules[0].1);
    assert FieldPasses(Get(item, FileRules[1].0), FileRules[1].1);
    assert FieldPasses(Get(item, FileRules[2].0), FileRules[2].1);
    assert FieldPasses(Get(item, FileRules[3].0), FileRules[3].1);
    FileRequest(
      Get(item, "contentType").value.s,
      Get(item, "filename").value.s,
      IntegerValue(Get(item, "filesize").value).value,
      Get(item, "sha256").value.s)
  }

  /** The `sha256` string of a record (empty when there is none). */
  function DigestOf(item: Json): string {
    match Get(item, "sha256")
    case Some(JStr(s)) => s
    case _ => ""
  }

  /** The command presigned for one file. */
  function PutObjectFor(f: FileRequest, bucket: string, checksum: string): (r: PutObject)
    ensures r.key == ObjectKey(f.sha256) && r.bucket == bucket && r.checksumSha256 == checksum
    ensures r.contentType == f.contentType && r.contentLength == f.filesize
  {
    PutObject(bucket, ObjectKey(f.sha256), f.contentType, checksum, f.filesize)
  }

  /**
   * The loop over the files: one entry per file, in order. `presign(command,
   * expiry)` is the string form of the presigned request's URI. The first
   * file whose digest `hex2bin` rejects aborts the request.
   */
  function SignAll(files: seq<FileRequest>, bucket: string, presign: (PutObject, string) -> string)
    : (r: Option<seq<SignedEntry>>)
    ensures r.Some? <==> forall i :: 0 <= i < |files| ==> Checksum(files[i].sha256).Some?
    ensures r.Some? ==> |r.value| == |files|
    ensures r.Some? ==> forall i :: 0 <= i < |files| ==>
      var f := files[i];
      r.value[i] == SignedEntry(f.sha256, bucket, ObjectKey(f.sha256),
        presign(PutObjectFor(f, bucket, Checksum(f.sha256).value), PresignExpiry), f.filename)
  {
    if |files| == 0 then Some([])
    else
      var f := files[0];
      match Checksum(f.sha256)
      case None => None
      case Some(checksum) =>
        var entry := SignedEntry(f.sha256, bucket, ObjectKey(f.sha256),
          presign(PutObjectFor(f, bucket, checksum), PresignExpiry), f.filename);
        match SignAll(files[1..], bucket, presign)
        case None =>
          assert !Checksum(files[1..][0].sha256).Some? || exists i :: 0 <= i < |files[1..]| && !Checksum(files[1..][i].sha256).Some?;
          None
        case Some(rest) =>
          assert forall i :: 1 <= i < |files| ==> files[i] == files[1..][i - 1];
          Some([entry] + rest)
  }

  /** The validated files of a body that passed validation. */
  function FileRequests(items: seq<Json>): (r: seq<FileRequest>)
    requires forall i :: 0 <= i < |items| ==> ItemPasses(items[i], FileRules)
    ensures |r| == |items|
    ensures forall i :: 0 <= i < |items| ==> r[i] == ToFileRequest(items[i])
  {
    if |items| == 0 then [] else [ToFileRequest(items[0])] + FileRequests(items[1..])
  }

  /** `__invoke`. */
  function Invoke(body: Json, bucket: string, presign: (PutObject, string) -> string): (r: Outcome)
    ensures r.Unprocessable? <==> !Valid(body, [], "files", FileRules)
    ensures r.Unprocessable? ==> r.errors == Errors(body, [], "files", FileRules)
    ensures r.Signed? ==> |r.files| == |Get(body, "files").value.items|
  {
    match Validate(body, [], "files", FileRules)
    case Err(errors) => Unprocessable(errors)
    case Ok(_) =>
      var files := FileRequests(Get(body, "files").value.items);
      match SignAll(files, bucket, presign)
      case None => ServerError
      case Some(entries) => Signed(entries)
  }

  /** A valid batch of well-formed digests is always signed, entry by entry. */
  lemma InvokeSignsEveryFile(body: Json, bucket: string, presign: (PutObject, string) -> string, i: nat)
    requires Valid(body, [], "files", FileRules)
    requires forall k :: 0 <= k < |Get(body, "files").value.items| ==>
      IsSha256Hex(ToFileRequest(Get(body, "files").value.items[k]).sha256)
    requires i < |Get(body, "files").value.items|
    ensures Invoke(body, bucket, presign).Signed?
    ensures var item := Get(body, "files").value.items[i];
      var e := Invoke(body, bucket, presign).files[i];
      && Get(item, "sha256") == Some(JStr(e.sha256))
      && Get(item, "filename") == Some(JStr(e.filename))
      && e.bucket == bucket
      && e.key == ObjectKey(e.sha256) && |e.key| == 72
  {
    var items := Get(body, "files").value.items;
    var files := FileRequests(items);
    AllChecksumsPresent(files);
    var entries := SignAll(files, bucket, presign).value;
    assert Invoke(body, bucket, presign) == Signed(entries);
    assert entries[i].sha256 == files[i].sha256 && entries[i].filename == files[i].filename;
  }

  lemma AllChecksumsPresent(files: seq<FileRequest>)
    requires forall k :: 0 <= k < |files| ==> IsSha256Hex(files[k].sha256)
    ensures forall k :: 0 <= k < |files| ==> Checksum(files[k].sha256).Some?
  {
    forall k | 0 <= k < |files|
      ensures Checksum(files[k].sha256).Some?
    {
      ChecksumOfDigest(files[k].sha256);
    }
  }

  /** The only validated requests that fail are those with a newline-terminated digest. */
  lemma ServerErrorOnlyForNewlineDigest(body: Json, bucket: string, presign: (PutObject, string) -> string)
    requires Invoke(body, bucket, presign).ServerError?
    ensures Valid(body, [], "files", FileRules)
    ensures exists k ::
      && 0 <= k < |Get(body, "files").value.items|
      && MatchesSha256Rule(DigestOf(Get(body, "files").value.items[k]))
      && !IsSha256Hex(DigestOf(Get(body, "files").value.items[k]))
  {
    assert Validate(body, [], "files", FileRules).Ok?;
    var items := Get(body, "files").value.items;
    var files := FileRequests(items);
    assert SignAll(files, bucket, presign).None?;
    var k :| 0 <= k < |files| && Checksum(files[k].sha256).None?;
    assert files[k] == ToFileRequest(items[k]);
    UnsignedDigest(items[k]);
  }

  /** A validated file whose digest yields no checksum has a digest ending in a newline. */
  lemma UnsignedDigest(item: Json)
    requires ItemPasses(item, FileRules)
    requires Checksum(ToFileRequest(item).sha256).None?
    ensures MatchesSha256Rule(DigestOf(item)) && !IsSha256Hex(DigestOf(item))
  {
    var digest := ToFileRequest(item).sha256;
    assert DigestOf(item) == digest;
    if IsSha256Hex(digest) {
      ChecksumOfDigest(digest);
    }
  }

  // ---------------------------------------------------------------------------
  // MyCustomS3Signature
  // ---------------------------------------------------------------------------

  /**
   * `getHeaderBlacklist`: the SDK's list of headers left out of the
   * signature, minus `content-length`, so the signed URL fixes the size.
   */
  function HeaderBlacklist(parent: map<string, bool>): (r: map<string, bool>)
    ensures "content-length" !in r
    ensures forall h :: h in r <==> h in parent && h != "content-length"
    ensures forall h :: h in r ==> r[h] == parent[h]
  {
    parent - {"content-length"}
  }
}

=== FILE: simple_pagination.dfy ===
/**
 * The simple-pagination table: rows (or a "No data" row), a caption
 * "Page X of Y, showing N of T total", and Previous/Next buttons whose
 * handlers, as in the numeric table, may hand `null` to `onChangePage`.
 */
module SimplePagination {
  import opened Text
  import Paginator
  import PaginatedTable
  import NumericPagination

  type Link = Paginator.Link

  datatype Button = PrevButton | NextButton

  /** A button click's calls to `onChangePage`, the numeric table's rules for its buttons. */
  function OnClick(currentPage: int, lastPage: int, links: seq<Link>, b: Button): (r: seq<Option<string>>)
    ensures r == NumericPagination.OnClick(currentPage, lastPage, links, if b == PrevButton then Paginator.Prev else Paginator.Next)
  {
    match b
    case PrevButton => if currentPage <= 1 then [] else [Paginator.NavUrl(links, "previous")]
    case NextButton => if currentPage >= lastPage then [] else [Paginator.NavUrl(links, "next")]
  }

  function TableBody(columns: seq<string>, data: seq<seq<PaginatedTable.Cell>>): (r: NumericPagination.Body)
    ensures r == NumericPagination.TableBody(columns, data)
  {
    if |data| > 0 then NumericPagination.Rows(data) else NumericPagination.NoData(|columns|)
  }

  /** The caption's words, with `total || 0` passed as a number; the caption is them separated by single spaces. */
  function CaptionWords(currentPage: int, lastPage: int, shown: nat, total: int): seq<string> {
    ["Page", IntToString(currentPage), "of", IntToString(lastPage) + ",", "showing", NatToString(shown), "of", IntToString(total), "total"]
  }

  lemma IntToStringHasNoSpace(n: int)
    ensures ' ' !in IntToString(n)
  {
    var d := NatToString(if n < 0 then -n else n);
    assert forall i :: 0 <= i < |d| ==> d[i] != ' ';
    if n < 0 {
      assert IntToString(n) == "-" + d;
    }
  }

  /** "Page X of Y, showing N of T total": splitting it at spaces gives its words back. */
  function Caption(currentPage: int, lastPage: int, shown: nat, total: int): (r: string)
    ensures Split(r, ' ') == CaptionWords(currentPage, lastPage, shown, total)
  {
    var words := CaptionWords(currentPage, lastPage, shown, total);
    IntToStringHasNoSpace(currentPage);
    IntToStringHasNoSpace(lastPage);
    IntToStringHasNoSpace(shown);
    IntToStringHasNoSpace(total);
    assert ' ' !in IntToString(lastPage) + ",";
    assert forall k :: 0 <= k < |words| ==> ' ' !in words[k];
    SplitJoin(words, ' ');
    Join(words, " ")
  }

  /** The page, the row count and the total read back from the caption. */
  lemma CaptionReadsBack(currentPage: nat, lastPage: int, shown: nat, total: nat)
    ensures var words := Split(Caption(currentPage, lastPage, shown, total), ' ');
      && ParseInt(words[1]) == Some(currentPage)
      && ParseInt(words[5]) == Some(shown)
      && ParseInt(words[7]) == Some(total)
  {
    ParseIntOfNatToString(currentPage);
    ParseIntOfNatToString(shown);
    ParseIntOfNatToString(total);
  }
}

=== FILE: simple_table_demo.dfy ===
/**
 * The simple-table demo: the preview's fifteen users paged five at a time,
 * handed to the table in simple mode with just two links, Previous and
 * Next, whose `page-N` URLs the page-change handler reads back.
 */
module SimpleTableDemo {
  import opened Text
  import Paginator
  import PaginatedTable
  import PaginatedTablePreview

  type Link = Paginator.Link

  /** The two links for page `p` of `n`: Previous (no URL on the first page), then Next (none on the last). */
  function Links(p: int, n: int): (r: seq<Link>)
    ensures |r| == 2
    ensures r[0].caption == Paginator.PreviousLabel && r[1].caption == Paginator.NextLabel
    ensures r[0].url.None? <==> p <= 1
    ensures r[1].url.None? <==> p >= n
    ensures r[0].url.Some? ==> r[0].url.value == PaginatedTablePreview.PageUrl(p - 1)
    ensures r[1].url.Some? ==> r[1].url.value == PaginatedTablePreview.PageUrl(p + 1)
    ensures !r[0].active && !r[1].active
  {
    [PaginatedTablePreview.PrevLink(p), PaginatedTablePreview.NextLink(p, n)]
  }

  /** The pagination handed to the table: simple mode, the full dataset's size as the total. */
  function Config(p: int): (r: PaginatedTable.Config)
    ensures r.kind == Paginator.Simple
    ensures r.total == |PaginatedTablePreview.AllUsers| == 15
    ensures r.currentPage == p && r.lastPage == PaginatedTablePreview.TotalPages()
    ensures r.links == Links(p, r.lastPage)
  {
    PaginatedTablePreview.TotalPagesIsThree();
    var n := PaginatedTablePreview.TotalPages();
    PaginatedTable.Config(Paginator.Simple, p, n, Links(p, n), |PaginatedTablePreview.AllUsers|)
  }

  /** The table rows for page `p`. */
  function Rows(p: int): (r: seq<seq<PaginatedTable.Cell>>)
    ensures |r| == |PaginatedTablePreview.CurrentData(p)|
    ensures forall k :: 0 <= k < |r| ==> r[k] == PaginatedTablePreview.Row(PaginatedTablePreview.CurrentData(p)[k])
  {
    var users := PaginatedTablePreview.CurrentData(p);
    seq(|users|, k requires 0 <= k < |users| => PaginatedTablePreview.Row(users[k]))
  }

  /** "&laquo; Previous" names the previous page and not the next. */
  lemma PreviousCaption()
    ensures Contains(Lower(Paginator.PreviousLabel), "previous")
    ensures !Contains(Lower(Paginator.PreviousLabel), "next")
  {
    var lowered := Lower(Paginator.PreviousLabel);
    assert lowered == "&laquo; " + "previous" + "" by {
      assert forall i :: 0 <= i < |lowered| ==> lowered[i] == ("&laquo; " + "previous" + "")[i];
    }
    ContainsMiddle("&laquo; ", "previous", "");
    NotContainsWithoutHead(lowered, "next");
  }

  /** "Next &raquo;" names the next page and not the previous. */
  lemma NextCaption()
    ensures Contains(Lower(Paginator.NextLabel), "next")
    ensures !Contains(Lower(Paginator.NextLabel), "previous")
  {
    var lowered := Lower(Paginator.NextLabel);
    assert lowered == "" + "next" + " &raquo;" by {
      assert forall i :: 0 <= i < |lowered| ==> lowered[i] == ("" + "next" + " &raquo;")[i];
    }
    ContainsMiddle("", "next", " &raquo;");
    NotContainsWithoutHead(lowered, "previous");
  }

  /** The paginator finds the two links by their captions. */
  lemma NavLinksFound(p: int, n: int)
    ensures Paginator.NavUrl(Links(p, n), "previous") == Links(p, n)[0].url
    ensures Paginator.NavUrl(Links(p, n), "next") == Links(p, n)[1].url
  {
    var links := Links(p, n);
    PreviousCaption();
    NextCaption();
    assert Paginator.FirstLabelled(links, "previous") == Some(0);
    assert Paginator.FirstLabelled(links, "next") == Some(1);
  }

  /** The demo's configuration has three pages and the two links for page `p` of three. */
  lemma ConfigHasThreePages(p: int)
    ensures Config(p).lastPage == 3 && Config(p).links == Links(p, 3)
  {
    PaginatedTablePreview.TotalPagesIsThree();
  }

  /** With the two links for page `p` of three, Next leads to page `p + 1`, except on the last page. */
  lemma NextOnLinks(p: int)
    requires 1 <= p
    ensures var calls := Paginator.OnClick(p, 3, Links(p, 3), Paginator.Next);
      && (p < 3 ==> |calls| == 1 && PaginatedTablePreview.HandlePageChange(Some(calls[0])) == PaginatedTablePreview.SetPage(Some(p + 1)))
      && (p >= 3 ==> calls == [])
  {
    NavLinksFound(p, 3);
    if p < 3 {
      var url := PaginatedTablePreview.PageUrl(p + 1);
      assert Paginator.NavUrl(Links(p, 3), "next") == Some(url);
      assert url[0] == 'p';
      PaginatedTablePreview.PageUrlRoundTrip(p + 1);
    }
  }

  /** With the two links for page `p` of three, Previous leads to page `p - 1`, except on the first page. */
  lemma PreviousOnLinks(p: int)
    requires 1 <= p
    ensures var calls := Paginator.OnClick(p, 3, Links(p, 3), Paginator.Prev);
      && (p > 1 ==> |calls| == 1 && PaginatedTablePreview.HandlePageChange(Some(calls[0])) == PaginatedTablePreview.SetPage(Some(p - 1)))
      && (p == 1 ==> calls == [])
  {
    NavLinksFound(p, 3);
    if p > 1 {
      var url := PaginatedTablePreview.PageUrl(p - 1);
      assert Paginator.NavUrl(Links(p, 3), "previous") == Some(url);
      assert url[0] == 'p';
      PaginatedTablePreview.PageUrlRoundTrip(p - 1);
    }
  }

  /** On page `p` of three, Next leads to page `p + 1` and does nothing on the last page. */
  lemma NextWalksForward(p: int)
    requires 1 <= p
    ensures var calls := Paginator.OnClick(p, Config(p).lastPage, Config(p).links, Paginator.Next);
      && (p < 3 ==> |calls| == 1 && PaginatedTablePreview.HandlePageChange(Some(calls[0])) == PaginatedTablePreview.SetPage(Some(p + 1)))
      && (p >= 3 ==> calls == [])
  {
    ConfigHasThreePages(p);
    NextOnLinks(p);
  }

  /** On page `p`, Previous leads to page `p - 1` and does nothing on the first page. */
  lemma PreviousWalksBack(p: int)
    requires 1 <= p
    ensures var calls := Paginator.OnClick(p, Config(p).lastPage, Config(p).links, Paginator.Prev);
      && (p > 1 ==> |calls| == 1 && PaginatedTablePreview.HandlePageChange(Some(calls[0])) == PaginatedTablePreview.SetPage(Some(p - 1)))
      && (p == 1 ==> calls == [])
  {
    ConfigHasThreePages(p);
    PreviousOnLinks(p);
  }

  /**
   * On each of the three pages the table's footer names exactly the records
   * shown: the pages are full, so the estimated page size is the real one.
   */
  lemma FooterShowsRecords(p: int)
    requires 1 <= p <= 3
    ensures var footer := PaginatedTable.Render(PaginatedTablePreview.Columns, Rows(p), Config(p), Option<string>.None).footer;
      && footer.Pager?
      && Paginator.ShowsRecords(footer.view.range, 15, 5, p)
    ensures Paginator.ShowsRecords(Paginator.SimpleRangeAsWritten(15, 5, p, 3), 15, 5, p)
  {
    PaginatedTablePreview.TotalPagesIsThree();
    PaginatedTablePreview.PagesPartitionUsers();
    assert |PaginatedTablePreview.AllUsers| == 15;
    assert |Rows(p)| == 5;
    PaginatedTable.SimpleFooterExactWhenFull(PaginatedTablePreview.Columns, Rows(p), Config(p), Option<string>.None, 5);
    Paginator.SimpleRangeAsWrittenExactWhenFull(15, 5, p, 3);
  }
}

=== FILE: text.dfy ===
/**
 * Strings and numbers as the PHP server and the TypeScript client treat them.
 * Strings are `seq<char>`; case mapping is ASCII-only (see README, "Left out").
 */
module Text {

  datatype Option<+T> = None | Some(value: T) {
    function GetOr(default: T): T {
      match this
      case Some(v) => v
      case None => default
    }
  }

  /** The outcome of an operation that can fail with an error of type `E`. */
  datatype Result<+T, +E> = Ok(value: T) | Err(error: E)

  // ---------------------------------------------------------------------------
  // Characters
  // ---------------------------------------------------------------------------

  predicate IsUpper(c: char) { 'A' <= c <= 'Z' }
  predicate IsLower(c: char) { 'a' <= c <= 'z' }
  predicate IsDigit(c: char) { '0' <= c <= '9' }

  predicate IsHexDigit(c: char) {
    IsDigit(c) || 'a' <= c <= 'f' || 'A' <= c <= 'F'
  }

  /** Value of a hexadecimal digit, in either case. */
  function HexValue(c: char): (v: nat)
    requires IsHexDigit(c)
    ensures v < 16
  {
    if IsDigit(c) then c as int - '0' as int
    else if 'a' <= c <= 'f' then c as int - 'a' as int + 10
    else c as int - 'A' as int + 10
  }

  function LowerChar(c: char): (r: char)
    ensures !IsUpper(r)
    ensures IsUpper(c) || r == c
  {
    if IsUpper(c) then (c as int + 32) as char else c
  }

  function UpperChar(c: char): (r: char)
    ensures !IsLower(r)
    ensures IsLower(c) || r == c
  {
    if IsLower(c) then (c as int - 32) as char else c
  }

  /** `toLowerCase` / `strtolower` restricted to ASCII letters. */
  function Lower(s: string): (r: string)
    ensures |r| == |s|
    ensures forall i :: 0 <= i < |s| ==> r[i] == LowerChar(s[i])
  {
    seq(|s|, i requires 0 <= i < |s| => LowerChar(s[i]))
  }

  /** `toUpperCase` restricted to ASCII letters. */
  function Upper(s: string): (r: string)
    ensures |r| == |s|
    ensures forall i :: 0 <= i < |s| ==> r[i] == UpperChar(s[i])
  {
    seq(|s|, i requires 0 <= i < |s| => UpperChar(s[i]))
  }

  lemma LowerIdempotent(s: string)
    ensures Lower(Lower(s)) == Lower(s)
  {
  }

  // ---------------------------------------------------------------------------
  // Prefixes, suffixes, substrings
  // ---------------------------------------------------------------------------

  predicate StartsWith(s: string, p: string) {
    |p| <= |s| && s[..|p|] == p
  }

  predicate EndsWith(s: string, p: string) {
    |p| <= |s| && s[|s| - |p|..] == p
  }

  /** `str_contains` / `String.prototype.includes`. */
  predicate Contains(s: string, t: string)
    decreases |s|
  {
    StartsWith(s, t) || (|s| > 0 && Contains(s[1..], t))
  }

  lemma {:induction false} ContainsInSuffix(a: string, b: string, t: string)
    requires Contains(b, t)
    ensures Contains(a + b, t)
    decreases |a|
  {
    if |a| > 0 {
      assert (a + b)[1..] == a[1..] + b;
      ContainsInSuffix(a[1..], b, t);
      assert Contains((a + b)[1..], t);
    } else {
      assert a + b == b;
    }
  }

  lemma {:induction false} ContainsInPrefix(a: string, b: string, t: string)
    requires Contains(a, t)
    ensures Contains(a + b, t)
    decreases |a|
  {
    if StartsWith(a, t) {
      assert (a + b)[..|t|] == a[..|t|];
    } else {
      assert (a + b)[1..] == a[1..] + b;
      ContainsInPrefix(a[1..], b, t);
    }
  }

  /** A string without `t`'s first character does not contain `t`. */
  lemma {:induction false} NotContainsWithoutHead(s: string, t: string)
    requires |t| > 0 && t[0] !in s
    ensures !Contains(s, t)
    decreases |s|
  {
    if |s| > 0 {
      assert s[0] != t[0];
      NotContainsWithoutHead(s[1..], t);
    }
  }

  lemma ContainsSelf(t: string)
    ensures Contains(t, t)
  {
    assert StartsWith(t, t);
  }

  /** `t` occurs in `a + t + b`. */
  lemma ContainsMiddle(a: string, t: string, b: string)
    ensures Contains(a + t + b, t)
  {
    ContainsSelf(t);
    ContainsInPrefix(t, b, t);
    ContainsInSuffix(a, t + b, t);
    assert a + t + b == a + (t + b);
  }

  // ---------------------------------------------------------------------------
  // Joining and splitting
  // ---------------------------------------------------------------------------

  /** `Array.prototype.join` / `implode`. */
  function Join(parts: seq<string>, sep: string): string {
    if |parts| == 0 then ""
    else if |parts| == 1 then parts[0]
    else parts[0] + sep + Join(parts[1..], sep)
  }

  /** Every part of a join occurs in it. */
  lemma {:induction false} JoinContains(parts: seq<string>, sep: string, k: nat)
    requires k < |parts|
    ensures Contains(Join(parts, sep), parts[k])
    decreases |parts|
  {
    if |parts| == 1 {
      ContainsSelf(parts[0]);
    } else if k == 0 {
      ContainsSelf(parts[0]);
      ContainsInPrefix(parts[0], sep + Join(parts[1..], sep), parts[0]);
      assert Join(parts, sep) == parts[0] + (sep + Join(parts[1..], sep));
    } else {
      JoinContains(parts[1..], sep, k - 1);
      ContainsInSuffix(parts[0] + sep, Join(parts[1..], sep), parts[k]);
    }
  }

  /** A character property every part and the separator have, the join has too. */
  lemma {:induction false} JoinKeeps(parts: seq<string>, sep: string, p: char -> bool)
    requires forall i :: 0 <= i < |sep| ==> p(sep[i])
    requires forall k, i :: 0 <= k < |parts| && 0 <= i < |parts[k]| ==> p(parts[k][i])
    ensures forall i :: 0 <= i < |Join(parts, sep)| ==> p(Join(parts, sep)[i])
    decreases |parts|
  {
    if |parts| > 1 {
      JoinKeeps(parts[1..], sep, p);
      var rest := Join(parts[1..], sep);
      forall i | 0 <= i < |Join(parts, sep)|
        ensures p(Join(parts, sep)[i])
      {
        if i < |parts[0]| {
          assert Join(parts, sep)[i] == parts[0][i];
        } else if i < |parts[0]| + |sep| {
          assert Join(parts, sep)[i] == sep[i - |parts[0]|];
        } else {
          assert Join(parts, sep)[i] == rest[i - |parts[0]| - |sep|];
        }
      }
    }
  }

  /** Concatenation of all parts (a join with the empty separator). */
  function Concat(parts: seq<string>): string {
    if |parts| == 0 then "" else parts[0] + Concat(parts[1..])
  }

  lemma {:induction false} ConcatAppend(a: seq<string>, b: seq<string>)
    ensures Concat(a + b) == Concat(a) + Concat(b)
    decreases |a|
  {
    if |a| > 0 {
      assert (a + b)[1..] == a[1..] + b;
      ConcatAppend(a[1..], b);
    } else {
      assert a + b == b;
    }
  }

  /** `explode` / `String.prototype.split` on a one-character separator. */
  function Split(s: string, c: char): (r: seq<string>)
    ensures |r| >= 1
    decreases |s|
  {
    if |s| == 0 then [""]
    else
      var rest := Split(s[1..], c);
      if s[0] == c then [""] + rest
      else [[s[0]] + rest[0]] + rest[1..]
  }

  lemma {:induction false} SplitPiecesAvoidSeparator(s: string, c: char)
    ensures forall k :: 0 <= k < |Split(s, c)| ==> c !in Split(s, c)[k]
    decreases |s|
  {
    if |s| > 0 {
      SplitPiecesAvoidSeparator(s[1..], c);
    }
  }

  /** A separator-free prefix glues onto the first piece. */
  lemma {:induction false} SplitFreePrefix(a: string, b: string, c: char)
    requires c !in a
    ensures Split(a + b, c) == [a + Split(b, c)[0]] + Split(b, c)[1..]
    decreases |a|
  {
    if |a| > 0 {
      assert (a + b)[1..] == a[1..] + b;
      SplitFreePrefix(a[1..], b, c);
      assert [a[0]] + (a[1..] + Split(b, c)[0]) == a + Split(b, c)[0];
    } else {
      assert a + b == b;
      assert a + Split(b, c)[0] == Split(b, c)[0];
      assert Split(b, c) == [Split(b, c)[0]] + Split(b, c)[1..];
    }
  }

  /** Splitting a join of separator-free pieces gives the pieces back. */
  lemma {:induction false} SplitJoin(parts: seq<string>, c: char)
    requires |parts| >= 1
    requires forall k :: 0 <= k < |parts| ==> c !in parts[k]
    ensures Split(Join(parts, [c]), c) == parts
    decreases |parts|
  {
    if |parts| == 1 {
      SplitFreePrefix(parts[0], "", c);
      assert parts[0] + "" == parts[0];
    } else {
      var rest := Join(parts[1..], [c]);
      SplitJoin(parts[1..], c);
      assert Join(parts, [c]) == parts[0] + ([c] + rest);
      SplitFreePrefix(parts[0], [c] + rest, c);
      assert ([c] + rest)[1..] == rest;
      assert Split([c] + rest, c) == [""] + Split(rest, c);
      assert parts[0] + "" == parts[0];
      assert [parts[0]] + parts[1..] == parts;
    }
  }

  // ---------------------------------------------------------------------------
  // Trimming and replacing
  // ---------------------------------------------------------------------------

  /** `ltrim($s, c)`. */
  function TrimLeft(s: string, c: char): (r: string)
    ensures |r| == 0 || r[0] != c
    ensures EndsWith(s, r)
    decreases |s|
  {
    if |s| > 0 && s[0] == c then TrimLeft(s[1..], c) else s
  }

  /** `rtrim($s, c)`. */
  function TrimRight(s: string, c: char): (r: string)
    ensures |r| == 0 || r[|r| - 1] != c
    ensures StartsWith(s, r)
    decreases |s|
  {
    if |s| > 0 && s[|s| - 1] == c then TrimRight(s[..|s| - 1], c) else s
  }

  /** Characters PHP's `trim` removes by default. */
  predicate IsPhpSpace(c: char) {
    c == ' ' || c == '\t' || c == '\n' || c == '\r' || c == '\0' || c == '\U{000B}'
  }

  /** `trim($s) === ''`: what Laravel's `required` rule rejects in a string. */
  predicate IsBlank(s: string) {
    forall i :: 0 <= i < |s| ==> IsPhpSpace(s[i])
  }

  /** Every occurrence of `a` replaced by `b` (`replace(/a/g, b)`). */
  function ReplaceAll(s: string, a: char, b: char): (r: string)
    ensures |r| == |s|
    ensures forall i :: 0 <= i < |s| ==> r[i] == (if s[i] == a then b else s[i])
  {
    seq(|s|, i requires 0 <= i < |s| => if s[i] == a then b else s[i])
  }

  /** Every occurrence of `a` removed (`replace(/a/g, '')`). */
  function RemoveAll(s: string, a: char): (r: string)
    ensures a !in r
    ensures forall c :: c in r ==> c in s
    ensures |r| <= |s|
  {
    if |s| == 0 then ""
    else if s[0] == a then RemoveAll(s[1..], a)
    else [s[0]] + RemoveAll(s[1..], a)
  }

  /** The first occurrence of `a` removed (`replace('.', '')` with a string pattern). */
  function RemoveFirst(s: string, a: char): (r: string)
    ensures a in s ==> |r| == |s| - 1
    ensures a !in s ==> r == s
    ensures forall i :: 0 <= i < |r| ==> r[i] in s
  {
    if |s| == 0 then ""
    else if s[0] == a then s[1..]
    else [s[0]] + RemoveFirst(s[1..], a)
  }

  // ---------------------------------------------------------------------------
  // Numbers as text
  // ---------------------------------------------------------------------------

  function DigitChar(d: nat): (c: char)
    requires d < 10
    ensures IsDigit(c)
  {
    ('0' as int + d) as char
  }

  /** Decimal rendering of a non-negative number, as `String(n)` prints it. */
  function NatToString(n: nat): (r: string)
    ensures |r| >= 1
    ensures forall i :: 0 <= i < |r| ==> IsDigit(r[i])
    ensures n > 0 ==> r[0] != '0'
  {
    if n < 10 then [DigitChar(n)] else NatToString(n / 10) + [DigitChar(n % 10)]
  }

  /** Decimal rendering of any integer, as `String(n)` prints it. */
  function IntToString(n: int): (r: string)
    ensures |r| >= 1
    ensures n >= 0 <==> IsDigit(r[0])
  {
    if n < 0 then "-" + NatToString(-n) else NatToString(n)
  }

  /** The number a string of decimal digits denotes. */
  function DigitsValue(s: string): nat
    requires forall i :: 0 <= i < |s| ==> IsDigit(s[i])
  {
    if |s| == 0 then 0
    else
      assert IsDigit(s[|s| - 1]);
      DigitsValue(s[..|s| - 1]) * 10 + (s[|s| - 1] as int - '0' as int)
  }

  lemma {:induction false} DigitsValueOfNatToString(n: nat)
    ensures DigitsValue(NatToString(n)) == n
  {
    if n >= 10 {
      var s := NatToString(n);
      assert s[..|s| - 1] == NatToString(n / 10);
      DigitsValueOfNatToString(n / 10);
    }
  }

  /** The digits of `NatToString` determine the number. */
  lemma NatToStringInjective(a: nat, b: nat)
    requires NatToString(a) == NatToString(b)
    ensures a == b
  {
    DigitsValueOfNatToString(a);
    DigitsValueOfNatToString(b);
  }

  /** Longest prefix of `s` whose characters satisfy `p`. */
  function PrefixWhile(s: string, p: char -> bool): (r: string)
    ensures |r| <= |s| && r == s[..|r|]
    ensures forall i :: 0 <= i < |r| ==> p(r[i])
    ensures |r| < |s| ==> !p(s[|r|])
  {
    if |s| > 0 && p(s[0]) then [s[0]] + PrefixWhile(s[1..], p) else ""
  }

  lemma {:induction false} PrefixWhileAll(s: string, p: char -> bool)
    requires forall i :: 0 <= i < |s| ==> p(s[i])
    ensures PrefixWhile(s, p) == s
  {
    if |s| > 0 {
      PrefixWhileAll(s[1..], p);
    }
  }

  function HexDigitsValue(s: string): nat
    requires forall i :: 0 <= i < |s| ==> IsHexDigit(s[i])
  {
    if |s| == 0 then 0
    else HexDigitsValue(s[..|s| - 1]) * 16 + HexValue(s[|s| - 1])
  }

  /** White space `parseInt` skips: ASCII blanks, NBSP and the byte-order mark. */
  predicate IsJsSpace(c: char) {
    c == ' ' || c == '\t' || c == '\n' || c == '\r' || c == '\U{000B}' || c == '\U{000C}'
    || c == '\U{00A0}' || c == '\U{FEFF}'
  }

  /**
   * `parseInt(s)` with no radix: leading white space, an optional sign, then
   * either a `0x`/`0X` prefix and hexadecimal digits or decimal digits, up to
   * the first character that is not one. `None` stands for `NaN`.
   */
  function ParseInt(s: string): (r: Option<int>)
    ensures |s| == 0 ==> r == None
  {
    var t := s[|PrefixWhile(s, IsJsSpace)|..];
    var negative := |t| > 0 && t[0] == '-';
    var u := if |t| > 0 && (t[0] == '-' || t[0] == '+') then t[1..] else t;
    var magnitude :=
      if |u| >= 2 && u[0] == '0' && (u[1] == 'x' || u[1] == 'X') then
        var h := PrefixWhile(u[2..], IsHexDigit);
        if |h| == 0 then None else Some(HexDigitsValue(h))
      else
        var d := PrefixWhile(u, IsDigit);
        if |d| == 0 then None else Some(DigitsValue(d));
    match magnitude
    case None => None
    case Some(m) =>
      var v: int := if negative then 0 - (m as int) else m as int;
      Some(v)
  }

  /** `parseInt(String(n)) === n` for every non-negative integer. */
  lemma ParseIntOfNatToString(n: nat)
    ensures ParseInt(NatToString(n)) == Some(n)
  {
    var s := NatToString(n);
    assert !IsJsSpace(s[0]);
    assert PrefixWhile(s, IsJsSpace) == "";
    assert s[0..] == s;
    assert !(|s| >= 2 && s[0] == '0');
    PrefixWhileAll(s, IsDigit);
    DigitsValueOfNatToString(n);
  }
}

=== FILE: toc.dfy ===
/**
 * The docs table of contents: a Markdown syntax tree (mdast) for the TOC
 * list is read into nested items by `getItems`, and the items are flattened
 * into `{title, url, depth}` rows, pre-order, top level at depth 2.
 */
module Toc {
  import opened Text

  // ---------------------------------------------------------------------------
  // Syntax-tree nodes and their text
  // ---------------------------------------------------------------------------

  /** An mdast node: its type, `value` and `url` (`None` when the node has none) and children. */
  datatype Node = Node(kind: string, value: Option<string>, url: Option<string>, children: seq<Node>)

  /** The node types whose `value` counts as text. */
  const TextTypes: seq<string> := ["text", "emphasis", "strong", "inlineCode"]

  /** What one node adds to the text: its value (`undefined` joins as nothing) when it is of a text type. */
  function TextOf(n: Node): string {
    if n.kind in TextTypes then n.value.GetOr("") else ""
  }

  /** The nodes a visit reaches, in order: the node, then each child's subtree in turn. */
  function Preorder(n: Node): (r: seq<Node>)
    ensures |r| >= 1 && r[0] == n
    decreases n
  {
    [n] + PreorderAll(n.children)
  }

  function PreorderAll(ns: seq<Node>): seq<Node>
    decreases ns
  {
    if |ns| == 0 then [] else Preorder(ns[0]) + PreorderAll(ns[1..])
  }

  /** `flattenNode`: the node's own text, then its children's, in order. */
  function FlattenNode(n: Node): (r: string)
    ensures n.children == [] ==> r == TextOf(n)
    decreases n
  {
    TextOf(n) + FlattenAll(n.children)
  }

  function FlattenAll(ns: seq<Node>): string
    decreases ns
  {
    if |ns| == 0 then "" else FlattenNode(ns[0]) + FlattenAll(ns[1..])
  }

  function Texts(ns: seq<Node>): (r: seq<string>)
    ensures |r| == |ns| && forall i :: 0 <= i < |ns| ==> r[i] == TextOf(ns[i])
  {
    seq(|ns|, i requires 0 <= i < |ns| => TextOf(ns[i]))
  }

  lemma TextsAppend(a: seq<Node>, b: seq<Node>)
    ensures Texts(a + b) == Texts(a) + Texts(b)
  {
  }

  /** `flattenNode` collects exactly the text of the text-type nodes the visit reaches, in visit order. */
  lemma {:induction false} FlattenNodeFollowsVisit(n: Node)
    ensures FlattenNode(n) == Concat(Texts(Preorder(n)))
    decreases n
  {
    FlattenAllFollowsVisit(n.children);
    TextsAppend([n], PreorderAll(n.children));
    ConcatAppend(Texts([n]), Texts(PreorderAll(n.children)));
  }

  lemma {:induction false} FlattenAllFollowsVisit(ns: seq<Node>)
    ensures FlattenAll(ns) == Concat(Texts(PreorderAll(ns)))
    decreases ns
  {
    if |ns| > 0 {
      FlattenNodeFollowsVisit(ns[0]);
      FlattenAllFollowsVisit(ns[1..]);
      TextsAppend(Preorder(ns[0]), PreorderAll(ns[1..]));
      ConcatAppend(Texts(Preorder(ns[0])), Texts(PreorderAll(ns[1..])));
    }
  }

  // ---------------------------------------------------------------------------
  // Reading the tree: getItems
  // ---------------------------------------------------------------------------

  /**
   * A TOC object: `title` and `url`, each possibly missing, and `items`,
   * present when `listed` (an absent list is kept as an empty one).
   */
  datatype Entry = Entry(title: Option<string>, url: Option<string>, listed: bool, items: seq<Entry>)

  /** `{}`. */
  const Empty := Entry(None, None, false, [])

  predicate IsTitleNode(n: Node) {
    n.kind == "link" || n.kind == "text"
  }

  /**
   * The visit of a paragraph: every link sets the URL and the title, every
   * text node the title, the title always being the paragraph's text.
   */
  function Visit(nodes: seq<Node>, text: string, current: Entry): (r: Entry)
    ensures r.listed == current.listed && r.items == current.items
    ensures (exists k :: 0 <= k < |nodes| && IsTitleNode(nodes[k])) ==> r.title == Some(text)
    ensures (forall k :: 0 <= k < |nodes| ==> !IsTitleNode(nodes[k])) ==> r.title == current.title
    ensures (forall k :: 0 <= k < |nodes| ==> nodes[k].kind != "link") ==> r.url == current.url
    ensures forall k :: (0 <= k < |nodes| && nodes[k].kind == "link" && (forall j :: k < j < |nodes| ==> nodes[j].kind != "link")
      ==> r.url == nodes[k].url)
    decreases |nodes|
  {
    if |nodes| == 0 then current
    else
      var item := nodes[0];
      var next :=
        if item.kind == "link" then current.(url := item.url, title := Some(text))
        else if item.kind == "text" then current.(title := Some(text))
        else current;
      var r := Visit(nodes[1..], text, next);
      assert forall k :: 1 <= k < |nodes| ==> nodes[k] == nodes[1..][k - 1];
      r
  }

  /**
   * `getItems(node, current)`. A paragraph and a list fill in `current` and
   * return it; a list item builds a fresh heading from its first child and
   * lets its second child fill that in; any other node gives `{}`.
   */
  function GetItems(n: Node, current: Entry): (r: Entry)
    ensures n.kind != "paragraph" && n.kind != "list" && n.kind != "listItem" ==> r == Empty
    ensures n.kind == "list" ==>
      && r.title == current.title && r.url == current.url
      && r.listed && |r.items| == |n.children|
      && forall i :: 0 <= i < |n.children| ==> r.items[i] == GetItems(n.children[i], Empty)
    ensures n.kind == "paragraph" ==> r.listed == current.listed && r.items == current.items
    decreases n
  {
    if n.kind == "paragraph" then
      Visit(Preorder(n), FlattenNode(n), current)
    else if n.kind == "list" then
      current.(listed := true, items := seq(|n.children|, i requires 0 <= i < |n.children| => GetItems(n.children[i], Empty)))
    else if n.kind == "listItem" then
      var heading := if |n.children| == 0 then Empty else GetItems(n.children[0], Empty);
      if |n.children| > 1 && (n.children[1].kind == "paragraph" || n.children[1].kind == "list") then
        GetItems(n.children[1], heading)
      else heading
    else Empty
  }

  /** The TOC for a document: `{}` when it has no headings (no list). */
  function TocOf(map_: Option<Node>): (r: Entry)
    ensures map_.None? ==> r == Empty
  {
    if map_.None? then Empty else GetItems(map_.value, Empty)
  }

  // ---------------------------------------------------------------------------
  // The trees the TOC builder makes
  // ---------------------------------------------------------------------------

  /** A heading in the document outline: its text, its anchor and the headings under it. */
  datatype Outline = Outline(title: string, url: string, children: seq<Outline>)

  /** A paragraph holding a link to the heading's anchor, the heading's text inside. */
  function LinkParagraph(o: Outline): Node {
    Node("paragraph", None, None, [Node("link", None, Some(o.url), [Node("text", Some(o.title), None, [])])])
  }

  /** The list the builder makes: one item per heading, its link paragraph and, under it, a list of its children. */
  function ListNode(os: seq<Outline>): (r: Node)
    ensures r.kind == "list" && |r.children| == |os|
    decreases os
  {
    Node("list", None, None, seq(|os|, i requires 0 <= i < |os| =>
      Node("listItem", None, None,
        [LinkParagraph(os[i])] + (if |os[i].children| > 0 then [ListNode(os[i].children)] else []))))
  }

  /** The entries the outline should read back as. */
  function Entries(os: seq<Outline>): (r: seq<Entry>)
    ensures |r| == |os|
    decreases os
  {
    seq(|os|, i requires 0 <= i < |os| =>
      Entry(Some(os[i].title), Some(os[i].url), |os[i].children| > 0, Entries(os[i].children)))
  }

  lemma LinkParagraphReadsBack(o: Outline)
    ensures GetItems(LinkParagraph(o), Empty) == Entry(Some(o.title), Some(o.url), false, [])
  {
    var textNode := Node("text", Some(o.title), None, []);
    var link := Node("link", None, Some(o.url), [textNode]);
    var para := LinkParagraph(o);
    assert PreorderAll([textNode]) == [textNode];
    assert PreorderAll([link]) == Preorder(link) == [link, textNode];
    assert Preorder(para) == [para, link, textNode];
    assert TextOf(textNode) == o.title;
    assert FlattenAll([textNode]) == o.title;
    assert TextOf(link) == "" && TextOf(para) == "";
    assert FlattenAll([link]) == FlattenNode(link) == o.title;
    assert FlattenNode(para) == o.title;
  }

  /** `getItems` reads the builder's list back into exactly the outline's entries. */
  lemma {:induction false} ListReadsBack(os: seq<Outline>)
    ensures GetItems(ListNode(os), Empty) == Entry(None, None, true, Entries(os))
    decreases os
  {
    var list := ListNode(os);
    var r := GetItems(list, Empty);
    forall i | 0 <= i < |os|
      ensures r.items[i] == Entries(os)[i]
    {
      var o := os[i];
      var item := list.children[i];
      LinkParagraphReadsBack(o);
      if |o.children| > 0 {
        ListReadsBack(o.children);
        assert item.children[1] == ListNode(o.children);
      }
    }
  }

  // ---------------------------------------------------------------------------
  // Flattening: convertTocForDocsComponent
  // ---------------------------------------------------------------------------

  /** A row of the flat TOC. */
  datatype Heading = Heading(title: Option<string>, url: Option<string>, depth: int)

  /** The number of items in a forest, nested ones included. */
  function Count(items: seq<Entry>): nat
    decreases items
  {
    if |items| == 0 then 0
    else 1 + (if items[0].listed then Count(items[0].items) else 0) + Count(items[1..])
  }

  /** `flattenItems`: each item at `depth`, followed by its own items one level deeper. */
  function FlattenItems(items: seq<Entry>, depth: int): (r: seq<Heading>)
    ensures |r| == Count(items)
    ensures forall k :: 0 <= k < |r| ==> r[k].depth >= depth
    ensures |r| > 0 ==> r[0] == Heading(items[0].title, items[0].url, depth)
    decreases items
  {
    if |items| == 0 then []
    else
      var e := items[0];
      var nested := if e.listed then FlattenItems(e.items, depth + 1) else [];
      var rest := FlattenItems(items[1..], depth);
      var r := [Heading(e.title, e.url, depth)] + nested + rest;
      assert forall k :: 1 <= k < 1 + |nested| ==> r[k] == nested[k - 1];
      assert forall k :: 1 + |nested| <= k < |r| ==> r[k] == rest[k - 1 - |nested|];
      r
  }

  /** The flat TOC: no rows when there are no items, otherwise the top level at depth 2. */
  function Convert(toc: Entry): (r: seq<Heading>)
    ensures !toc.listed ==> r == []
  {
    if !toc.listed then [] else FlattenItems(toc.items, 2)
  }

  /** The first row from `i` on that is at `depth` or shallower (or the end). */
  function BlockEnd(hs: seq<Heading>, depth: int, i: nat): (r: nat)
    requires i <= |hs|
    ensures i <= r <= |hs|
    ensures forall k :: i <= k < r ==> hs[k].depth > depth
    ensures r < |hs| ==> hs[r].depth <= depth
    decreases |hs| - i
  {
    if i == |hs| || hs[i].depth <= depth then i else BlockEnd(hs, depth, i + 1)
  }

  lemma {:induction false} BlockEndAt(hs: seq<Heading>, depth: int, i: nat, m: nat)
    requires i <= m <= |hs|
    requires forall k :: i <= k < m ==> hs[k].depth > depth
    requires m < |hs| ==> hs[m].depth <= depth
    ensures BlockEnd(hs, depth, i) == m
    decreases |hs| - i
  {
    if i < m {
      BlockEndAt(hs, depth, i + 1, m);
    }
  }

  /** Rebuilding the forest from the flat rows: each row at `depth` owns the deeper rows after it. */
  function Unflatten(hs: seq<Heading>, depth: int): seq<Entry>
    decreases |hs|
  {
    if |hs| == 0 then []
    else
      var j := BlockEnd(hs, depth, 1);
      [Entry(hs[0].title, hs[0].url, true, Unflatten(hs[1..j], depth + 1))] + Unflatten(hs[j..], depth)
  }

  /** A forest with every missing `items` made an empty list: what the flat rows can tell apart. */
  function Normalize(items: seq<Entry>): (r: seq<Entry>)
    ensures |r| == |items|
    decreases items
  {
    if |items| == 0 then []
    else
      var e := items[0];
      [Entry(e.title, e.url, true, if e.listed then Normalize(e.items) else [])] + Normalize(items[1..])
  }

  /** The rows keep the whole forest: the depths say which item each one sits under. */
  lemma {:induction false} FlattenItemsRoundTrip(items: seq<Entry>, depth: int)
    ensures Unflatten(FlattenItems(items, depth), depth) == Normalize(items)
    decreases items
  {
    if |items| > 0 {
      var e := items[0];
      var nested := if e.listed then FlattenItems(e.items, depth + 1) else [];
      var rest := FlattenItems(items[1..], depth);
      var hs := FlattenItems(items, depth);
      assert hs == [Heading(e.title, e.url, depth)] + nested + rest;
      assert forall k :: 1 <= k < 1 + |nested| ==> hs[k] == nested[k - 1];
      if |rest| > 0 {
        assert hs[1 + |nested|] == rest[0];
      }
      BlockEndAt(hs, depth, 1, 1 + |nested|);
      assert hs[1..1 + |nested|] == nested;
      assert hs[1 + |nested|..] == rest;
      if e.listed {
        FlattenItemsRoundTrip(e.items, depth + 1);
      }
      FlattenItemsRoundTrip(items[1..], depth);
    }
  }

  /**
   * From the builder's list to the flat TOC: one row per heading, and the
   * rows, read by depth from 2, give back the outline.
   */
  lemma OutlineRoundTrip(os: seq<Outline>)
    ensures |Convert(TocOf(Some(ListNode(os))))| == Count(Entries(os))
    ensures Unflatten(Convert(TocOf(Some(ListNode(os)))), 2) == Normalize(Entries(os))
  {
    ListReadsBack(os);
    FlattenItemsRoundTrip(Entries(os), 2);
  }
}

=== FILE: upload_dropzone.dfy ===
/**
 * The stand-alone dropzone component. Its helpers repeat the all-in-one
 * upload file's; each is written out again here and shown to agree with
 * the definition in `UploadHelpers`. Its `formatRejectionError` takes the
 * size and count limits as well and ignores them.
 */
module UploadDropzone {
  import opened Text
  import UploadHelpers

  type Accept = UploadHelpers.Accept

  function FormatRejectionError(fileName: string, code: string, message: string, maxSize: int, maxFiles: int)
    : (r: UploadHelpers.Formatted)
    ensures r == UploadHelpers.FormatRejectionError(fileName, code, message)
  {
    match code
    case "file-too-large" => UploadHelpers.Formatted("File size exceeded", fileName)
    case "file-invalid-type" => UploadHelpers.Formatted("Invalid file type", fileName)
    case "too-many-files" => UploadHelpers.Formatted("Too many files", fileName)
    case _ => UploadHelpers.Formatted(message, fileName)
  }

  function IsImageOnlyAccept(accept: Option<Accept>): (r: bool)
    ensures r == UploadHelpers.IsImageOnlyAccept(accept)
  {
    match accept
    case None => false
    case Some(a) => |a| > 0 && UploadHelpers.EveryImageKey(a)
  }

  function AcceptDescription(accept: Option<Accept>): (r: string)
    ensures r == UploadHelpers.AcceptDescription(accept)
  {
    if accept.None? || |accept.value| == 0 then UploadHelpers.AnyFileType
    else
      var exts := UploadHelpers.Extensions(accept.value);
      if |exts| > 0 then Join(UploadHelpers.Labels(exts), ", ") else UploadHelpers.AnyFileType
  }

  function Title(isImageOnly: bool, maxFiles: int): (r: string)
    ensures r == UploadHelpers.DefaultTitle(isImageOnly, maxFiles)
  {
    if isImageOnly then (if maxFiles == 1 then "Drop your image here" else "Drop your images here")
    else if maxFiles == 1 then "Drop file here" else "Drop files here"
  }

  function GetDropzoneText(
    accept: Option<Accept>, emptyTitle: string, emptyDescription: string,
    maxSize: int, maxFiles: int, currentFileCount: int, formatBytes: int -> string): (r: UploadHelpers.DropzoneText)
    ensures r == UploadHelpers.GetDropzoneText(accept, emptyTitle, emptyDescription, maxSize, maxFiles, currentFileCount, formatBytes)
  {
    var isImageOnly := IsImageOnlyAccept(accept);
    var title := if |emptyTitle| > 0 then emptyTitle else Title(isImageOnly, maxFiles);
    var description :=
      if |emptyDescription| > 0 then emptyDescription
      else
        var sizeText := "max. " + formatBytes(maxSize);
        AcceptDescription(accept) + " (" + sizeText + ")";
    var fileCountText := if maxFiles > 1 then IntToString(currentFileCount) + "/" + IntToString(maxFiles) else "";
    UploadHelpers.DropzoneText(title, description, fileCountText, isImageOnly)
  }

  function Settings(
    maxSizeProp: Option<int>, contextMaxFileSize: Option<int>,
    maxFilesProp: Option<int>, configMaxFiles: Option<int>,
    contextRemainingSlots: Option<int>): (r: UploadHelpers.DropzoneSettings)
    ensures r == UploadHelpers.Settings(maxSizeProp, contextMaxFileSize, maxFilesProp, configMaxFiles, contextRemainingSlots)
  {
    var maxSize := maxSizeProp.GetOr(contextMaxFileSize.GetOr(50 * 1024 * 1024));
    var maxFiles := maxFilesProp.GetOr(configMaxFiles.GetOr(10));
    var remainingSlots := contextRemainingSlots.GetOr(maxFiles);
    UploadHelpers.DropzoneSettings(maxSize, maxFiles, maxFiles > 1, remainingSlots, remainingSlots, maxFiles - remainingSlots)
  }

  /** `handleRejections`, passing the limits to the formatter, which ignores them. */
  method HandleRejections(rs: seq<UploadHelpers.Rejection>, maxSize: int, maxFiles: int)
    returns (messages: seq<UploadHelpers.ValidationError>, added: Option<seq<UploadHelpers.ValidationError>>)
    ensures messages == UploadHelpers.RejectionMessages(rs)
    ensures added.Some? <==> |messages| > 0
    ensures added.Some? ==> added.value == messages
  {
    messages := [];
    var i := 0;
    while i < |rs|
      invariant 0 <= i <= |rs|
      invariant messages == UploadHelpers.RejectionMessages(rs[..i])
    {
      var r := rs[i];
      var j := 0;
      while j < |r.errors|
        invariant 0 <= j <= |r.errors|
        invariant messages == UploadHelpers.RejectionMessages(rs[..i]) + UploadHelpers.FileMessages(r)[..j]
      {
        var formatted := FormatRejectionError(r.fileName, r.errors[j].code, r.errors[j].message, maxSize, maxFiles);
        messages := messages + [UploadHelpers.ValidationError(formatted.message, formatted.details)];
        assert UploadHelpers.FileMessages(r)[..j + 1] == UploadHelpers.FileMessages(r)[..j] + [UploadHelpers.FileMessages(r)[j]];
        j := j + 1;
      }
      assert UploadHelpers.FileMessages(r)[..j] == UploadHelpers.FileMessages(r);
      assert rs[..i + 1][..i] == rs[..i];
      i := i + 1;
    }
    assert rs[..i] == rs;
    added := if |messages| > 0 then Some(messages) else None;
  }

  function HandleDrop(customDrop: bool, accepted: seq<string>, rejections: seq<UploadHelpers.Rejection>)
    : (r: seq<UploadHelpers.DropEffect>)
    ensures r == UploadHelpers.HandleDrop(customDrop, accepted, rejections)
  {
    if customDrop then [UploadHelpers.CustomDrop(accepted, rejections)]
    else
      [UploadHelpers.ClearErrors]
      + (if |rejections| > 0 then [UploadHelpers.ScheduleRejections(rejections)] else [])
      + (if |accepted| > 0 then [UploadHelpers.AddFiles(accepted)] else [])
  }

  /** The "Select ..." button's noun. */
  function SelectNoun(isImageOnly: bool, maxFiles: int): (r: string)
    ensures r == UploadHelpers.SelectNoun(isImageOnly, maxFiles)
    ensures (r == "image" || r == "images") <==> isImageOnly
    ensures (r == "image" || r == "file") <==> maxFiles == 1
  {
    if isImageOnly then (if maxFiles == 1 then "image" else "images")
    else if maxFiles == 1 then "file" else "files"
  }
}

=== FILE: upload_fakes.dfy ===
/**
 * The test doubles of the upload library: a deterministic mock digest,
 * signing fakes that answer one entry per request, and upload fakes whose
 * behaviour depends on a small state (a shared retry counter, or an
 * attempt count per digest). Timers and promises are not modelled: an
 * upload's result is the progress it reports and whether it resolves or
 * rejects.
 */
module UploadFakes {
  import opened Text

  /** The part of a browser `File` the fakes read; the content is never read. */
  datatype FakeFile = FakeFile(name: string, size: int, mimeType: string, content: seq<int>)

  datatype ErrorType = NetworkError | ValidationError | DuplicateFile
  datatype UploadError = UploadError(errorType: ErrorType, message: string)

  /** An upload's result: the `(sha256, progress)` reports made, then resolution or rejection. */
  datatype Outcome = Resolved(reports: seq<(string, real)>) | Rejected(error: UploadError)

  // ---------------------------------------------------------------------------
  // Digest and progress
  // ---------------------------------------------------------------------------

  const MockHashPrefix: string := "mock-hash-"

  /** `createMockHash`: built from the name and size alone. */
  function MockHash(f: FakeFile): (r: string)
    ensures StartsWith(r, MockHashPrefix)
    ensures |r| > |MockHashPrefix| + |f.name|
  {
    MockHashPrefix + f.name + "-" + IntToString(f.size)
  }

  lemma DashAt(a: string, d: string)
    ensures (a + "-" + d)[|a|] == '-'
  {
  }

  /** Digit strings end a name-size text at the same place, so equal texts have equal parts. */
  lemma SplitAtDigits(a: string, da: string, b: string, db: string)
    requires forall i :: 0 <= i < |da| ==> IsDigit(da[i])
    requires forall i :: 0 <= i < |db| ==> IsDigit(db[i])
    requires a + "-" + da == b + "-" + db
    ensures a == b && da == db
  {
    var s := a + "-" + da;
    if |da| < |db| {
      DashAt(a, da);
      assert false;
    } else if |db| < |da| {
      DashAt(b, db);
      assert false;
    } else {
      assert da == s[|s| - |da|..] == db;
      assert a == s[..|a|] == b;
    }
  }

  /**
   * Two files of non-negative size get the same mock digest exactly when
   * name and size agree: the content never matters.
   */
  lemma MockHashCollidesIff(f: FakeFile, g: FakeFile)
    requires f.size >= 0 && g.size >= 0
    ensures MockHash(f) == MockHash(g) <==> f.name == g.name && f.size == g.size
  {
    if MockHash(f) == MockHash(g) {
      var sf := NatToString(f.size);
      var sg := NatToString(g.size);
      assert MockHash(f) == MockHashPrefix + (f.name + "-" + sf);
      assert MockHash(g) == MockHashPrefix + (g.name + "-" + sg);
      assert f.name + "-" + sf == MockHash(f)[|MockHashPrefix|..] == g.name + "-" + sg;
      SplitAtDigits(f.name, sf, g.name, sg);
      NatToStringInjective(f.size, g.size);
    }
  }

  const ProgressSteps: nat := 20

  /** The values `simulateProgress` reports: `i / 20` for `i` from 0 to 20. */
  function ProgressValues(): (r: seq<real>)
    ensures |r| == ProgressSteps + 1
    ensures r[0] == 0.0 && r[ProgressSteps] == 1.0
    ensures forall i, j :: 0 <= i < j < |r| ==> r[i] < r[j]
  {
    seq(ProgressSteps + 1, i requires 0 <= i <= ProgressSteps => i as real / ProgressSteps as real)
  }

  /** `simulateProgress`: the loop calling `onProgress` at each step, as the list of values reported. */
  method SimulateProgress() returns (reported: seq<real>)
    ensures reported == ProgressValues()
  {
    reported := [];
    var i := 0;
    while i <= ProgressSteps
      invariant 0 <= i <= ProgressSteps + 1
      invariant reported == ProgressValues()[..i]
    {
      reported := reported + [i as real / ProgressSteps as real];
      i := i + 1;
    }
  }

  /** Every progress value tagged with the file's digest. */
  function Tagged(sha256: string, values: seq<real>): (r: seq<(string, real)>)
    ensures |r| == |values|
    ensures forall k :: 0 <= k < |r| ==> r[k] == (sha256, values[k])
  {
    seq(|values|, k requires 0 <= k < |values| => (sha256, values[k]))
  }

  // ---------------------------------------------------------------------------
  // Signing fakes
  // ---------------------------------------------------------------------------

  datatype SignedUrlResponse = SignedUrlResponse(sha256: string, bucket: string, key: string, url: string)

  /** The demo fakes' bucket and host, and the fast fakes'. */
  datatype Storage = Storage(bucket: string, host: string, signature: string)
  const DemoStorage: Storage := Storage("demo-bucket", "demo-s3.amazonaws.com", "demo")
  const TestStorage: Storage := Storage("test-bucket", "test-s3.amazonaws.com", "test")

  /** `requestBatchSignedUrls` of the succeeding fakes: one response per entry, in order. */
  function SignBatch(files: seq<(FakeFile, string)>, storage: Storage): (r: seq<SignedUrlResponse>)
    ensures |r| == |files|
    ensures forall i :: 0 <= i < |files| ==>
      && r[i].sha256 == files[i].1
      && r[i].bucket == storage.bucket
      && r[i].key == "uploads/" + files[i].0.name
      && EndsWith(r[i].url, r[i].key + "?signature=" + storage.signature)
  {
    seq(|files|, i requires 0 <= i < |files| =>
      var name := files[i].0.name;
      var key := "uploads/" + name;
      var url := "https://" + storage.host + "/" + storage.bucket + "/" + key + "?signature=" + storage.signature;
      assert url == ("https://" + storage.host + "/" + storage.bucket + "/") + (key + "?signature=" + storage.signature);
      SignedUrlResponse(files[i].1, storage.bucket, key, url))
  }

  const ValidationMessage: string := "File size exceeds maximum allowed (50 MB)"
  const DuplicateMessage: string := "This file already exists on the server"
  const ConnectionMessage: string :=
    "Failed to connect to storage service. Please check your connection and try again."

  /** Signing with the fast error fake: only `validation_error` makes it fail. */
  function SignFastError(errorType: ErrorType, files: seq<(FakeFile, string)>): (r: Result<seq<SignedUrlResponse>, UploadError>)
    ensures r.Err? <==> errorType == ValidationError
    ensures r.Err? ==> r.error == UploadError(ValidationError, ValidationMessage)
    ensures r.Ok? ==> |r.value| == |files|
  {
    if errorType == ValidationError then Err(UploadError(ValidationError, ValidationMessage))
    else Ok(SignBatch(files, TestStorage))
  }

  /** Signing with the validation fake always fails. */
  function SignValidationFake(files: seq<(FakeFile, string)>): (r: Result<seq<SignedUrlResponse>, UploadError>)
    ensures r.Err? && r.error.errorType == ValidationError
  {
    Err(UploadError(ValidationError, ValidationMessage))
  }

  // ---------------------------------------------------------------------------
  // Upload fakes
  // ---------------------------------------------------------------------------

  /** The success fake: the full progress sequence, then resolve. */
  function UploadSuccess(sha256: string): (r: Outcome)
    ensures r.Resolved? && |r.reports| == ProgressSteps + 1
    ensures r.reports[0] == (sha256, 0.0) && r.reports[ProgressSteps] == (sha256, 1.0)
  {
    Resolved(Tagged(sha256, ProgressValues()))
  }

  /** The fast fake: a quarter at a time for the file's own digest, then resolve. */
  function UploadFast(sha256: string): (r: Outcome)
    ensures r.Resolved? && |r.reports| == 4
    ensures forall k :: 0 <= k < 4 ==> r.reports[k] == (sha256, (k + 1) as real / 4.0)
  {
    Resolved([(sha256, 0.25), (sha256, 0.5), (sha256, 0.75), (sha256, 1.0)])
  }

  /** The fast error fake's upload: always rejects, with the requested type and its fixed message. */
  function UploadFastError(errorType: ErrorType): (r: Outcome)
    ensures r.Rejected? && r.error.errorType == errorType
    ensures errorType == DuplicateFile ==> r.error.message == DuplicateMessage
    ensures errorType == ValidationError ==> r.error.message == ValidationMessage
    ensures errorType == NetworkError ==> r.error.message == "Upload failed"
  {
    Rejected(UploadError(errorType,
      if errorType == DuplicateFile then DuplicateMessage
      else if errorType == ValidationError then ValidationMessage
      else "Upload failed"))
  }

  /** The validation fake's upload always rejects as a validation error. */
  function UploadValidationFake(): (r: Outcome)
    ensures r.Rejected? && r.error.errorType == ValidationError
  {
    Rejected(UploadError(ValidationError, ValidationMessage))
  }

  /** The duplicate fake's upload always rejects as a duplicate. */
  function UploadDuplicateFake(): (r: Outcome)
    ensures r.Rejected? && r.error == UploadError(DuplicateFile, DuplicateMessage)
  {
    Rejected(UploadError(DuplicateFile, DuplicateMessage))
  }

  /**
   * The failure fake's upload. `retryCount` is shared by every file, so
   * only the first matching upload of the fake's lifetime fails.
   * `matches` is the failure pattern's `test`.
   */
  function UploadFailure(retryCount: nat, f: FakeFile, sha256: string, matches: string -> bool): (r: (nat, Outcome))
    ensures r.1.Rejected? <==> matches(f.name) && retryCount == 0
    ensures r.1.Rejected? ==> r.0 == 1 && r.1.error == UploadError(NetworkError, ConnectionMessage)
    ensures r.1.Resolved? ==> r.0 == retryCount && r.1.reports == Tagged(sha256, ProgressValues())
  {
    if matches(f.name) && retryCount == 0 then
      (retryCount + 1, Rejected(UploadError(NetworkError, ConnectionMessage)))
    else (retryCount, Resolved(Tagged(sha256, ProgressValues())))
  }

  /** A run of uploads through one failure fake. */
  function RunFailure(retryCount: nat, uploads: seq<(FakeFile, string)>, matches: string -> bool): (r: seq<Outcome>)
    ensures |r| == |uploads|
    decreases |uploads|
  {
    if |uploads| == 0 then []
    else
      var (count, outcome) := UploadFailure(retryCount, uploads[0].0, uploads[0].1, matches);
      [outcome] + RunFailure(count, uploads[1..], matches)
  }

  /**
   * Starting fresh, an upload fails exactly when it is the first whose file
   * name matches; every other upload succeeds.
   */
  lemma {:induction false} OnlyFirstMatchFails(retryCount: nat, uploads: seq<(FakeFile, string)>, matches: string -> bool, i: nat)
    requires i < |uploads|
    ensures RunFailure(retryCount, uploads, matches)[i].Rejected? <==>
      && retryCount == 0
      && matches(uploads[i].0.name)
      && forall j :: 0 <= j < i ==> !matches(uploads[j].0.name)
    decreases |uploads|
  {
    var (count, outcome) := UploadFailure(retryCount, uploads[0].0, uploads[0].1, matches);
    if i > 0 {
      OnlyFirstMatchFails(count, uploads[1..], matches, i - 1);
      assert RunFailure(retryCount, uploads, matches)[i] == RunFailure(count, uploads[1..], matches)[i - 1];
      if retryCount == 0 && matches(uploads[i].0.name) && forall j :: 0 <= j < i ==> !matches(uploads[j].0.name) {
        assert !matches(uploads[0].0.name);
        assert forall j :: 0 <= j < i - 1 ==> !matches(uploads[1..][j].0.name) by {
          forall j | 0 <= j < i - 1
            ensures !matches(uploads[1..][j].0.name)
          {
            assert uploads[1..][j] == uploads[j + 1];
          }
        }
      }
      if RunFailure(retryCount, uploads, matches)[i].Rejected? {
        assert count == 0;
        forall j | 0 <= j < i
          ensures !matches(uploads[j].0.name)
        {
          if j > 0 {
            assert uploads[1..][j - 1] == uploads[j];
          }
        }
      }
    }
  }

  /** The retry fake's state: how many uploads each digest has had. */
  type Attempts = map<string, nat>

  /** `attemptCount.get(sha256) || 0`. */
  function AttemptsOf(counts: Attempts, sha256: string): nat {
    if sha256 in counts then counts[sha256] else 0
  }

  /** The retry fake's upload: the first attempt for a digest rejects, later ones report 1 and resolve. */
  function UploadRetry(counts: Attempts, sha256: string): (r: (Attempts, Outcome))
    ensures r.0 == counts[sha256 := AttemptsOf(counts, sha256) + 1]
    ensures r.1.Rejected? <==> AttemptsOf(counts, sha256) == 0
    ensures r.1.Rejected? ==> r.1.error == UploadError(NetworkError, "Network error")
    ensures r.1.Resolved? ==> r.1.reports == [(sha256, 1.0)]
  {
    var attempts := AttemptsOf(counts, sha256);
    var counts' := counts[sha256 := attempts + 1];
    if attempts == 0 then (counts', Rejected(UploadError(NetworkError, "Network error")))
    else (counts', Resolved([(sha256, 1.0)]))
  }

  /** Counting one digest's upload leaves every other digest's count alone. */
  lemma RetryCountersIndependent(counts: Attempts, sha256: string, other: string)
    requires other != sha256
    ensures AttemptsOf(UploadRetry(counts, sha256).0, other) == AttemptsOf(counts, other)
  {
  }

  function RunRetry(counts: Attempts, shas: seq<string>): (r: seq<Outcome>)
    ensures |r| == |shas|
    decreases |shas|
  {
    if |shas| == 0 then []
    else
      var (counts', outcome) := UploadRetry(counts, shas[0]);
      [outcome] + RunRetry(counts', shas[1..])
  }

  /** Every count recorded is at least one. */
  predicate Counted(counts: Attempts) {
    forall s :: s in counts ==> counts[s] >= 1
  }

  /**
   * From a state where the digest has no attempts yet, each digest's first
   * upload fails and all its later uploads succeed, whatever the others do.
   */
  lemma {:induction false} FirstAttemptPerDigestFails(counts: Attempts, shas: seq<string>, i: nat)
    requires Counted(counts)
    requires i < |shas|
    ensures RunRetry(counts, shas)[i].Rejected? <==> shas[i] !in counts && shas[i] !in shas[..i]
    decreases |shas|
  {
    var (counts', outcome) := UploadRetry(counts, shas[0]);
    if i > 0 {
      assert Counted(counts');
      FirstAttemptPerDigestFails(counts', shas[1..], i - 1);
      assert RunRetry(counts, shas)[i] == RunRetry(counts', shas[1..])[i - 1];
      assert shas[1..][i - 1] == shas[i];
      assert shas[..i] == [shas[0]] + shas[1..][..i - 1];
    }
  }
}

=== FILE: upload_file.dfy ===
/**
 * The file record the upload context hands to the components: what the
 * user picked, its digest, and how far its upload has got. The context
 * itself (hashing, signing, uploading) lives outside this repository;
 * only the record's shape is needed here.
 */
module UploadFile {

  datatype Status = Pending | Uploading | Complete | Failed

  /**
   * One entry of the context's `files`. `progress` is the percentage the
   * context reports; `error` is the message of a failed upload, with the
   * empty string standing for an absent one (both are falsy in JavaScript).
   */
  datatype FileUpload = FileUpload(
    id: string,
    name: string,
    size: int,
    mimeType: string,
    sha256: string,
    status: Status,
    progress: real,
    error: string,
    duplicateAlert: bool)

  /** The files whose upload has finished, in order (`files.filter(f => f.status === 'complete')`). */
  function CompleteFiles(files: seq<FileUpload>): (r: seq<FileUpload>)
    ensures |r| <= |files|
    ensures forall k :: 0 <= k < |r| ==> r[k].status == Complete && r[k] in files
    ensures forall k :: 0 <= k < |files| && files[k].status == Complete ==> files[k] in r
  {
    if |files| == 0 then []
    else if files[0].status == Complete then [files[0]] + CompleteFiles(files[1..])
    else CompleteFiles(files[1..])
  }

  /** Filtering keeps relative order: the complete files of a concatenation. */
  lemma {:induction false} CompleteFilesAppend(a: seq<FileUpload>, b: seq<FileUpload>)
    ensures CompleteFiles(a + b) == CompleteFiles(a) + CompleteFiles(b)
    decreases |a|
  {
    if |a| == 0 {
      assert a + b == b;
    } else {
      assert (a + b)[1..] == a[1..] + b;
      CompleteFilesAppend(a[1..], b);
    }
  }

  predicate AnyWithStatus(files: seq<FileUpload>, s: Status) {
    exists k :: 0 <= k < |files| && files[k].status == s
  }
}

=== FILE: upload_form.dfy ===
/**
 * The upload form shared by the upload page and the reusable Inertia upload
 * component: submit gating, the projection of completed files into the
 * document-creation payload, and what happens after the post. The form
 * state's `uploadedFiles` is never set through `setData`, so it stays the
 * initial empty list; only `name` changes.
 *
 * The context flags `hasComplete`, `hasPending` and `hasUploading` are read
 * as "some file has that status"; `hasErrors` comes from the upload context
 * and is a parameter.
 */
module UploadForm {
  import opened Text
  import opened JsonValue
  import opened UploadFile
  import UploadHelpers
  import Validation
  import DocumentCreate
  import SignedUrl

  const SignedUrlEndpoint: string := "/upload/signed-url"
  const SubmitEndpoint: string := "/documents"
  const MaxFiles: int := 10
  const MaxSize: int := 10 * 1024 * 1024
  const AcceptedTypes: UploadHelpers.Accept := [("image/*", [".png", ".jpeg", ".jpg"]), ("application/pdf", [".pdf"])]

  /** The provider configuration both forms run under. */
  datatype UploadConfig = UploadConfig(signedUrlEndpoint: string, maxFiles: int, maxSize: int, accept: UploadHelpers.Accept)

  /** `InertiaUpload`'s props; an absent one takes its default. */
  function InertiaUploadConfig(signedUrlEndpoint: Option<string>, maxFiles: Option<int>, maxSize: Option<int>): (r: UploadConfig)
    ensures signedUrlEndpoint.None? ==> r.signedUrlEndpoint == SignedUrlEndpoint
    ensures maxFiles.None? ==> r.maxFiles == MaxFiles
    ensures maxSize.None? ==> r.maxSize == MaxSize
    ensures signedUrlEndpoint.Some? ==> r.signedUrlEndpoint == signedUrlEndpoint.value
    ensures maxFiles.Some? ==> r.maxFiles == maxFiles.value
    ensures maxSize.Some? ==> r.maxSize == maxSize.value
    ensures r.accept == AcceptedTypes
  {
    UploadConfig(signedUrlEndpoint.GetOr(SignedUrlEndpoint), maxFiles.GetOr(MaxFiles), maxSize.GetOr(MaxSize), AcceptedTypes)
  }

  /** The upload page's fixed configuration. */
  const PageConfig: UploadConfig := UploadConfig("/upload/signed-url", 10, 10 * 1024 * 1024, AcceptedTypes)

  /**
   * The page uses the component's defaults, and their size limit is the
   * signing endpoint's; the accepted types are images only in part.
   */
  lemma ConfigsAgree()
    ensures PageConfig == InertiaUploadConfig(None, None, None)
    ensures PageConfig.maxSize == SignedUrl.MaxFileSize
    ensures !UploadHelpers.IsImageOnlyAccept(Some(PageConfig.accept))
  {
    assert !StartsWith(AcceptedTypes[1].0, UploadHelpers.ImagePrefix) by {
      assert AcceptedTypes[1].0[..6] != "image/" by {
        assert AcceptedTypes[1].0[0] == 'a';
      }
    }
  }

  /** `canSubmit`: something finished, nothing still in flight, no errors, and a name. */
  predicate CanSubmit(files: seq<FileUpload>, hasErrors: bool, name: string) {
    && AnyWithStatus(files, Complete)
    && !AnyWithStatus(files, Pending)
    && !AnyWithStatus(files, Uploading)
    && !hasErrors
    && |name| > 0
  }

  /**
   * The form can be submitted exactly when there is a complete file to send,
   * every file has either finished or failed, no error is shown, and the
   * name is not empty.
   */
  lemma CanSubmitIff(files: seq<FileUpload>, hasErrors: bool, name: string)
    ensures CanSubmit(files, hasErrors, name) <==>
      && |CompleteFiles(files)| > 0
      && (forall k :: 0 <= k < |files| ==> files[k].status == Complete || files[k].status == Failed)
      && !hasErrors
      && name != ""
  {
    CompleteFilesNonEmpty(files);
    if |CompleteFiles(files)| > 0 {
      assert CompleteFiles(files)[0] in files;
    }
    if forall k :: 0 <= k < |files| ==> files[k].status == Complete || files[k].status == Failed {
      assert !AnyWithStatus(files, Pending) && !AnyWithStatus(files, Uploading);
    }
  }

  /** One completed file as the form submits it: `{id, name, sha256, size, type}`. */
  function Projection(f: FileUpload): (r: Json)
    ensures r.JObj? && r.fields.Keys == DocumentCreate.FileKeys
    ensures Get(r, "id") == Some(JStr(f.id)) && Get(r, "name") == Some(JStr(f.name))
    ensures Get(r, "sha256") == Some(JStr(f.sha256)) && Get(r, "size") == Some(JNum(f.size))
    ensures Get(r, "type") == Some(JStr(f.mimeType))
  {
    JObj(map["id" := JStr(f.id), "name" := JStr(f.name), "sha256" := JStr(f.sha256),
             "size" := JNum(f.size), "type" := JStr(f.mimeType)])
  }

  /** `completedFiles.map(...)`: the projection of every complete file, in order. */
  function UploadedFiles(files: seq<FileUpload>): (r: seq<Json>)
    ensures |r| == |CompleteFiles(files)|
    ensures forall i :: 0 <= i < |r| ==> r[i] == Projection(CompleteFiles(files)[i])
  {
    var done := CompleteFiles(files);
    seq(|done|, i requires 0 <= i < |done| => Projection(done[i]))
  }

  /** Some complete file means a non-empty list to submit. */
  lemma CompleteFilesNonEmpty(files: seq<FileUpload>)
    ensures AnyWithStatus(files, Complete) ==> |CompleteFiles(files)| > 0
  {
    if AnyWithStatus(files, Complete) {
      var k :| 0 <= k < |files| && files[k].status == Complete;
      assert files[k] in CompleteFiles(files);
    }
  }

  /** The submit button: disabled unless the form can be submitted, labelled with the complete count. */
  datatype SubmitButton = SubmitButton(disabled: bool, completeCount: nat)

  function Button(files: seq<FileUpload>, hasErrors: bool, name: string, processing: bool): (r: SubmitButton)
    ensures r.disabled <==> !CanSubmit(files, hasErrors, name) || processing
    ensures r.completeCount == |UploadedFiles(files)|
    ensures !r.disabled ==> r.completeCount > 0
  {
    var can := CanSubmit(files, hasErrors, name);
    CompleteFilesNonEmpty(files);
    SubmitButton(!can || processing, |CompleteFiles(files)|)
  }

  /** The JSON body a post of the form sends. */
  function Body(name: string, uploadedFiles: seq<Json>): Json {
    JObj(map["name" := JStr(name), "uploadedFiles" := JArr(uploadedFiles)])
  }

  /** A post: where it goes, what it sends, and the form afterwards (`reset('name')`, `removeAll()`). */
  datatype Submission = Submission(endpoint: string, body: Json, nameAfter: string, filesAfter: seq<FileUpload>)

  /**
   * The upload page's `submitForm`: `transform` puts the projection of the
   * complete files into the posted data.
   */
  function PageSubmit(name: string, files: seq<FileUpload>, endpoint: string): (r: Submission)
    ensures Get(r.body, "name") == Some(JStr(name))
    ensures Get(r.body, "uploadedFiles") == Some(JArr(UploadedFiles(files)))
    ensures r.endpoint == endpoint && r.nameAfter == "" && r.filesAfter == []
  {
    Submission(endpoint, Body(name, UploadedFiles(files)), "", [])
  }

  /**
   * The Inertia component's `submitForm` as written: it builds `formData`
   * with the projection but posts the form state, whose `uploadedFiles` is
   * still the initial empty list.
   */
  function InertiaSubmitAsWritten(name: string, files: seq<FileUpload>, endpoint: string): (r: Submission)
    ensures Get(r.body, "uploadedFiles") == Some(JArr([]))
    ensures r.endpoint == endpoint && r.nameAfter == "" && r.filesAfter == []
  {
    var formData := Body(name, UploadedFiles(files));
    Submission(endpoint, Body(name, []), "", [])
  }

  /** The component's `submitForm` posting the `formData` it builds, as the page does. */
  function InertiaSubmit(name: string, files: seq<FileUpload>, endpoint: string): (r: Submission)
    ensures r == PageSubmit(name, files, endpoint)
  {
    var formData := Body(name, UploadedFiles(files));
    Submission(endpoint, formData, "", [])
  }

  /** The as-written component's post is always refused by the document endpoint, whatever was uploaded. */
  lemma InertiaSubmitAsWrittenRejected(name: string, files: seq<FileUpload>, endpoint: string)
    ensures var body := InertiaSubmitAsWritten(name, files, endpoint).body;
      && DocumentCreate.Invoke(body).InvalidRedirectBack?
      && Validation.Field(DocumentCreate.FilesField) in DocumentCreate.Invoke(body).errors
  {
    DocumentCreate.EmptyFilesRejected(InertiaSubmitAsWritten(name, files, endpoint).body);
  }

  /** A complete file whose fields the document endpoint accepts. */
  predicate Submittable(f: FileUpload) {
    !IsBlank(f.id) && !IsBlank(f.name) && !IsBlank(f.sha256) && 0 <= f.size <= Validation.PhpIntMax && !IsBlank(f.mimeType)
  }

  /**
   * A submission the button allows, with a name the server accepts and
   * well-formed completed files, is accepted by the document endpoint.
   */
  lemma SubmitAccepted(name: string, files: seq<FileUpload>, hasErrors: bool, endpoint: string)
    requires CanSubmit(files, hasErrors, name)
    requires !IsBlank(name) && |name| <= DocumentCreate.MaxNameLength
    requires forall k :: 0 <= k < |files| && files[k].status == Complete ==> Submittable(files[k])
    ensures DocumentCreate.Invoke(InertiaSubmit(name, files, endpoint).body).RedirectBack?
    ensures DocumentCreate.Invoke(PageSubmit(name, files, endpoint).body).RedirectBack?
  {
    var body := PageSubmit(name, files, endpoint).body;
    var items := UploadedFiles(files);
    CompleteFilesNonEmpty(files);
    forall i | 0 <= i < |items|
      ensures DocumentCreate.WellFormedFile(items[i])
    {
      var f := CompleteFiles(files)[i];
      assert f in files;
      assert Submittable(f);
    }
    assert DocumentCreate.WellFormedRequest(body);
    DocumentCreate.AcceptsExactlyWellFormed(body);
  }
}

=== FILE: upload_header.dfy ===
/**
 * The stand-alone upload header: its own `acceptToString` and the same
 * rendering and input-change rules as the all-in-one upload file's header,
 * each shown to agree with the definition in `UploadHelpers`.
 */
module UploadHeader {
  import opened Text
  import UploadHelpers

  type Accept = UploadHelpers.Accept

  /** The loop over `Object.entries(accept)`: each key, then its extensions. */
  function Parts(a: Accept): (r: seq<string>)
    ensures r == UploadHelpers.AcceptParts(a)
    decreases |a|
  {
    if |a| == 0 then []
    else
      var (mimeType, extensions) := a[0];
      var head := [mimeType] + (if |extensions| > 0 then extensions else []);
      head + Parts(a[1..])
  }

  function AcceptToString(accept: Option<Accept>): (r: Option<string>)
    ensures r == UploadHelpers.AcceptToString(accept)
  {
    match accept
    case None => None
    case Some(a) => Some(Join(Parts(a), ","))
  }

  function Header(props: UploadHelpers.HeaderProps, fileCount: nat, configMaxFiles: Option<int>,
                  configAccept: Option<Accept>, canAcceptMore: bool)
    : (r: Option<UploadHelpers.HeaderView>)
    ensures r == UploadHelpers.Header(props, fileCount, configMaxFiles, configAccept, canAcceptMore)
  {
    if fileCount == 0 then None
    else
      Some(UploadHelpers.HeaderView(
        props.title.GetOr("Files") + " (" + NatToString(fileCount) + ")",
        configMaxFiles.GetOr(10) > 1,
        AcceptToString(configAccept),
        if props.showAddButton.GetOr(true) then Some((props.addButtonText.GetOr("Add files"), !canAcceptMore)) else None,
        if props.showClearButton.GetOr(true) && fileCount > 0 then Some(props.clearButtonText.GetOr("Remove all")) else None))
  }

  function HandleFileInputChange(selection: Option<seq<string>>): (r: UploadHelpers.InputChange)
    ensures r == UploadHelpers.HandleFileInputChange(selection)
  {
    var newFiles := selection.GetOr([]);
    UploadHelpers.InputChange(if |newFiles| > 0 then Some(newFiles) else None, "")
  }
}

=== FILE: upload_helpers.dfy ===
/**
 * The helpers of the all-in-one upload component file: the dropzone's
 * texts, its settings and drop handling, the header, and the file list's
 * icon, status line and rows. The copies of these helpers in the split
 * component files are related to the definitions here.
 * `formatBytes` and `Math.round` are library calls, passed in as functions.
 */
module UploadHelpers {
  import opened Text
  import opened UploadFile

  /** react-dropzone's `Accept`: MIME-type keys, in insertion order, each with its extensions. */
  type Accept = seq<(string, seq<string>)>

  const AnyFileType: string := "Any file type"
  const DefaultMaxSize: int := 50 * 1024 * 1024
  const DefaultMaxFiles: int := 10
  const ImagePrefix: string := "image/"

  // ---------------------------------------------------------------------------
  // Rejection messages
  // ---------------------------------------------------------------------------

  /** The react-dropzone error codes that get a message of their own. */
  predicate KnownCode(code: string) {
    code == "file-too-large" || code == "file-invalid-type" || code == "too-many-files"
  }

  datatype Formatted = Formatted(message: string, details: string)

  /** `formatRejectionError`: a fixed message for the three known codes, the library's otherwise. */
  function FormatRejectionError(fileName: string, code: string, message: string): (r: Formatted)
    ensures r.details == fileName
    ensures !KnownCode(code) ==> r.message == message
    ensures code == "file-too-large" ==> r.message == "File size exceeded"
    ensures code == "file-invalid-type" ==> r.message == "Invalid file type"
    ensures code == "too-many-files" ==> r.message == "Too many files"
  {
    match code
    case "file-too-large" => Formatted("File size exceeded", fileName)
    case "file-invalid-type" => Formatted("Invalid file type", fileName)
    case "too-many-files" => Formatted("Too many files", fileName)
    case _ => Formatted(message, fileName)
  }

  /** The library's message matters exactly for the codes without a message of their own. */
  lemma MessageIgnoredIffKnown(fileName: string, code: string, m1: string, m2: string)
    requires m1 != m2
    ensures FormatRejectionError(fileName, code, m1).message == FormatRejectionError(fileName, code, m2).message
      <==> KnownCode(code)
  {
    if KnownCode(code) {
      assert code == "file-too-large" || code == "file-invalid-type" || code == "too-many-files";
    }
  }

  // ---------------------------------------------------------------------------
  // Accept descriptions
  // ---------------------------------------------------------------------------

  /** `mimeTypes.every(type => type.startsWith('image/'))`. */
  function EveryImageKey(a: Accept): (r: bool)
    ensures r <==> forall k :: 0 <= k < |a| ==> StartsWith(a[k].0, ImagePrefix)
  {
    if |a| == 0 then true
    else
      var rest := EveryImageKey(a[1..]);
      assert rest <==> forall k :: 1 <= k < |a| ==> StartsWith(a[k].0, ImagePrefix) by {
        if rest {
          forall k | 1 <= k < |a|
            ensures StartsWith(a[k].0, ImagePrefix)
          {
            assert a[k] == a[1..][k - 1];
          }
        }
      }
      StartsWith(a[0].0, ImagePrefix) && rest
  }

  /** `isImageOnlyAccept`: an accept map with at least one key, all of them image types. */
  function IsImageOnlyAccept(accept: Option<Accept>): (r: bool)
    ensures r <==> (accept.Some? && |accept.value| > 0
      && forall k :: 0 <= k < |accept.value| ==> StartsWith(accept.value[k].0, ImagePrefix))
  {
    match accept
    case None => false
    case Some(a) => |a| > 0 && EveryImageKey(a)
  }

  /** All extensions of an accept map, key by key, in order. */
  function Extensions(a: Accept): (r: seq<string>)
    ensures forall k, j :: 0 <= k < |a| && 0 <= j < |a[k].1| ==> a[k].1[j] in r
  {
    if |a| == 0 then []
    else
      var rest := Extensions(a[1..]);
      assert forall k, j :: 1 <= k < |a| && 0 <= j < |a[k].1| ==> a[k].1[j] in rest by {
        forall k, j | 1 <= k < |a| && 0 <= j < |a[k].1|
          ensures a[k].1[j] in rest
        {
          assert a[k] == a[1..][k - 1];
        }
      }
      a[0].1 + rest
  }

  /** `ext.toUpperCase().replace('.', '')`: upper-cased, the first dot dropped. */
  function ExtensionLabel(ext: string): (r: string)
    ensures forall i :: 0 <= i < |r| ==> !IsLower(r[i])
    ensures '.' !in ext ==> |r| == |ext|
    ensures '.' in ext ==> |r| == |ext| - 1
  {
    var upper := Upper(ext);
    assert '.' in ext <==> '.' in upper by {
      if '.' in ext {
        var i :| 0 <= i < |ext| && ext[i] == '.';
        assert upper[i] == '.';
      }
      if '.' in upper {
        var i :| 0 <= i < |upper| && upper[i] == '.';
        assert ext[i] == '.';
      }
    }
    RemoveFirst(upper, '.')
  }

  function Labels(exts: seq<string>): (r: seq<string>)
    ensures |r| == |exts|
    ensures forall i :: 0 <= i < |exts| ==> r[i] == ExtensionLabel(exts[i])
  {
    seq(|exts|, i requires 0 <= i < |exts| => ExtensionLabel(exts[i]))
  }

  /** A joined list of labels has no lower-case letter, so it is never the fallback text. */
  lemma LabelsNotFallback(exts: seq<string>)
    ensures Join(Labels(exts), ", ") != AnyFileType
  {
    var labels := Labels(exts);
    JoinKeeps(labels, ", ", c => !IsLower(c));
    var r := Join(labels, ", ");
    if |r| == |AnyFileType| {
      assert AnyFileType[1] == 'n';
      assert r[1] != 'n';
    }
  }

  /**
   * `getAcceptDescription`: the fallback text exactly when there are no
   * extensions, else every extension's label, in order, joined with ", ".
   */
  function AcceptDescription(accept: Option<Accept>): (r: string)
    ensures r == AnyFileType <==> accept.None? || |Extensions(accept.value)| == 0
    ensures accept.Some? ==> forall k :: 0 <= k < |Extensions(accept.value)| ==>
      Contains(r, ExtensionLabel(Extensions(accept.value)[k]))
    ensures accept.Some? && |Extensions(accept.value)| > 0 ==> r == Join(Labels(Extensions(accept.value)), ", ")
  {
    if accept.None? || |accept.value| == 0 then AnyFileType
    else
      var exts := Extensions(accept.value);
      if |exts| > 0 then
        LabelsNotFallback(exts);
        var r := Join(Labels(exts), ", ");
        assert forall k :: 0 <= k < |exts| ==> Contains(r, ExtensionLabel(exts[k])) by {
          forall k | 0 <= k < |exts|
            ensures Contains(r, ExtensionLabel(exts[k]))
          {
            JoinContains(Labels(exts), ", ", k);
          }
        }
        r
      else AnyFileType
  }

  // ---------------------------------------------------------------------------
  // Dropzone texts and settings
  // ---------------------------------------------------------------------------

  /** The noun on the "Select ..." button. */
  function SelectNoun(imageOnly: bool, maxFiles: int): string {
    if imageOnly then (if maxFiles == 1 then "image" else "images")
    else if maxFiles == 1 then "file" else "files"
  }

  /** The title without a custom one: the button's noun, with "your" for images. */
  function DefaultTitle(imageOnly: bool, maxFiles: int): (r: string)
    ensures r == "Drop " + (if imageOnly then "your " else "") + SelectNoun(imageOnly, maxFiles) + " here"
  {
    if imageOnly then
      if maxFiles == 1 then
        assert "Drop " + "your " + "image" + " here" == "Drop your image here";
        "Drop your image here"
      else
        assert "Drop " + "your " + "images" + " here" == "Drop your images here";
        "Drop your images here"
    else if maxFiles == 1 then
      assert "Drop " + "" + "file" + " here" == "Drop file here";
      "Drop file here"
    else
      assert "Drop " + "" + "files" + " here" == "Drop files here";
      "Drop files here"
  }

  datatype DropzoneText = DropzoneText(title: string, description: string, fileCountText: string, isImageOnly: bool)

  /**
   * `getDropzoneText`. An empty custom title or description counts as absent;
   * `formatBytes(maxSize)` stands for the call with binary units and no decimals.
   */
  function GetDropzoneText(
    accept: Option<Accept>, emptyTitle: string, emptyDescription: string,
    maxSize: int, maxFiles: int, currentFileCount: int, formatBytes: int -> string): (r: DropzoneText)
    ensures r.isImageOnly == IsImageOnlyAccept(accept)
    ensures |emptyTitle| > 0 ==> r.title == emptyTitle
    ensures |emptyTitle| == 0 ==>
      r.title == "Drop " + (if r.isImageOnly then "your " else "") + SelectNoun(r.isImageOnly, maxFiles) + " here"
    ensures |emptyDescription| > 0 ==> r.description == emptyDescription
    ensures |emptyDescription| == 0 ==>
      r.description == AcceptDescription(accept) + " (max. " + formatBytes(maxSize) + ")"
    ensures r.fileCountText != "" <==> maxFiles > 1
  {
    var isImageOnly := IsImageOnlyAccept(accept);
    var title := if |emptyTitle| > 0 then emptyTitle else DefaultTitle(isImageOnly, maxFiles);
    var description := if |emptyDescription| > 0 then emptyDescription else DefaultDescription(accept, maxSize, formatBytes);
    DropzoneText(title, description, FileCountText(maxFiles, currentFileCount), isImageOnly)
  }

  /** The description without a custom one: the accepted types and the size limit. */
  function DefaultDescription(accept: Option<Accept>, maxSize: int, formatBytes: int -> string): (r: string)
    ensures r == AcceptDescription(accept) + " (max. " + formatBytes(maxSize) + ")"
  {
    var sizeText := "max. " + formatBytes(maxSize);
    AcceptDescription(accept) + " (" + sizeText + ")"
  }

  /** The `current/max` counter, shown only when more than one file is allowed. */
  function FileCountText(maxFiles: int, currentFileCount: int): (r: string)
    ensures r != "" <==> maxFiles > 1
  {
    if maxFiles > 1 then IntToString(currentFileCount) + "/" + IntToString(maxFiles) else ""
  }

  /** The `n/max` counter reads back as the two numbers it was made from. */
  lemma FileCountRoundTrip(
    accept: Option<Accept>, emptyTitle: string, emptyDescription: string,
    maxSize: int, maxFiles: nat, currentFileCount: nat, formatBytes: int -> string)
    requires maxFiles > 1
    ensures var t := GetDropzoneText(accept, emptyTitle, emptyDescription, maxSize, maxFiles, currentFileCount, formatBytes);
      var pieces := Split(t.fileCountText, '/');
      |pieces| == 2 && ParseInt(pieces[0]) == Some(currentFileCount) && ParseInt(pieces[1]) == Some(maxFiles)
  {
    var t := GetDropzoneText(accept, emptyTitle, emptyDescription, maxSize, maxFiles, currentFileCount, formatBytes);
    var a := NatToString(currentFileCount);
    var b := NatToString(maxFiles);
    assert t.fileCountText == Join([a, b], "/");
    assert '/' !in a && '/' !in b;
    SplitJoin([a, b], '/');
    ParseIntOfNatToString(currentFileCount);
    ParseIntOfNatToString(maxFiles);
  }

  datatype DropzoneSettings = DropzoneSettings(
    maxSize: int,
    maxFiles: int,
    multiple: bool,
    remainingSlots: int,
    libraryMaxFiles: int,
    currentFileCount: int)

  /**
   * The effective settings of `Dropzone`: each `??` takes the first value
   * that is present. The file cap handed to react-dropzone is the number of
   * slots left, not the configured maximum.
   */
  function Settings(
    maxSizeProp: Option<int>, contextMaxFileSize: Option<int>,
    maxFilesProp: Option<int>, configMaxFiles: Option<int>,
    contextRemainingSlots: Option<int>): (r: DropzoneSettings)
    ensures maxSizeProp.Some? ==> r.maxSize == maxSizeProp.value
    ensures maxSizeProp.None? && contextMaxFileSize.Some? ==> r.maxSize == contextMaxFileSize.value
    ensures maxSizeProp.None? && contextMaxFileSize.None? ==> r.maxSize == DefaultMaxSize
    ensures maxFilesProp.Some? ==> r.maxFiles == maxFilesProp.value
    ensures maxFilesProp.None? && configMaxFiles.Some? ==> r.maxFiles == configMaxFiles.value
    ensures maxFilesProp.None? && configMaxFiles.None? ==> r.maxFiles == DefaultMaxFiles
    ensures r.multiple <==> r.maxFiles > 1
    ensures r.libraryMaxFiles == r.remainingSlots
    ensures r.currentFileCount + r.remainingSlots == r.maxFiles
    ensures contextRemainingSlots.None? ==> r.currentFileCount == 0
    ensures contextRemainingSlots.Some? ==> r.remainingSlots == contextRemainingSlots.value
  {
    var maxSize := maxSizeProp.GetOr(contextMaxFileSize.GetOr(DefaultMaxSize));
    var maxFiles := maxFilesProp.GetOr(configMaxFiles.GetOr(DefaultMaxFiles));
    var remainingSlots := contextRemainingSlots.GetOr(maxFiles);
    DropzoneSettings(maxSize, maxFiles, maxFiles > 1, remainingSlots, remainingSlots, maxFiles - remainingSlots)
  }

  /** The title and the button name the same thing: the noun of the button is in the default title. */
  lemma TitleNamesButtonNoun(
    accept: Option<Accept>, emptyDescription: string,
    maxSize: int, maxFiles: int, currentFileCount: int, formatBytes: int -> string)
    ensures var t := GetDropzoneText(accept, "", emptyDescription, maxSize, maxFiles, currentFileCount, formatBytes);
      Contains(t.title, SelectNoun(t.isImageOnly, maxFiles))
  {
    var t := GetDropzoneText(accept, "", emptyDescription, maxSize, maxFiles, currentFileCount, formatBytes);
    ContainsMiddle("Drop " + (if t.isImageOnly then "your " else ""), SelectNoun(t.isImageOnly, maxFiles), " here");
  }

  // ---------------------------------------------------------------------------
  // Rejections and drops
  // ---------------------------------------------------------------------------

  datatype FileError = FileError(code: string, message: string)
  datatype Rejection = Rejection(fileName: string, errors: seq<FileError>)

  /** One entry handed to `addErrors`; its type is always `validation_error`. */
  datatype ValidationError = ValidationError(message: string, details: string)

  /** The messages for one rejected file, one per error, in order. */
  function FileMessages(r: Rejection): (m: seq<ValidationError>)
    ensures |m| == |r.errors|
  {
    seq(|r.errors|, j requires 0 <= j < |r.errors| =>
      var f := FormatRejectionError(r.fileName, r.errors[j].code, r.errors[j].message);
      ValidationError(f.message, f.details))
  }

  /** The messages for a list of rejections: each file's, in order. */
  function RejectionMessages(rs: seq<Rejection>): seq<ValidationError>
    decreases |rs|
  {
    if |rs| == 0 then [] else RejectionMessages(rs[..|rs| - 1]) + FileMessages(rs[|rs| - 1])
  }

  function ErrorCount(rs: seq<Rejection>): nat
    decreases |rs|
  {
    if |rs| == 0 then 0 else ErrorCount(rs[..|rs| - 1]) + |rs[|rs| - 1].errors|
  }

  lemma RejectionMessagesAppend(a: seq<Rejection>, b: seq<Rejection>)
    ensures RejectionMessages(a + b) == RejectionMessages(a) + RejectionMessages(b)
    ensures ErrorCount(a + b) == ErrorCount(a) + ErrorCount(b)
  {
    MessagesAppend(a, b);
    CountAppend(a, b);
  }

  lemma {:induction false} MessagesAppend(a: seq<Rejection>, b: seq<Rejection>)
    ensures RejectionMessages(a + b) == RejectionMessages(a) + RejectionMessages(b)
    decreases |b|
  {
    if |b| == 0 {
      assert a + b == a;
    } else {
      var b', last := b[..|b| - 1], b[|b| - 1];
      var ab := a + b;
      DropLastOfAppend(a, b);
      MessagesAppend(a, b');
      RejectionStep(ab);
      RejectionStep(b);
      var ma, mb, fm := RejectionMessages(a), RejectionMessages(b'), FileMessages(last);
      assert RejectionMessages(ab) == (ma + mb) + fm;
      assert (ma + mb) + fm == ma + (mb + fm);
    }
  }

  lemma {:induction false} CountAppend(a: seq<Rejection>, b: seq<Rejection>)
    ensures ErrorCount(a + b) == ErrorCount(a) + ErrorCount(b)
    decreases |b|
  {
    if |b| == 0 {
      assert a + b == a;
    } else {
      var ab := a + b;
      DropLastOfAppend(a, b);
      CountAppend(a, b[..|b| - 1]);
      RejectionStep(ab);
      RejectionStep(b);
    }
  }

  lemma DropLastOfAppend(a: seq<Rejection>, b: seq<Rejection>)
    requires |b| > 0
    ensures (a + b)[..|a + b| - 1] == a + b[..|b| - 1]
    ensures (a + b)[|a + b| - 1] == b[|b| - 1]
  {
  }

  /** The last file's messages come after those of the files before it. */
  lemma RejectionStep(rs: seq<Rejection>)
    requires |rs| > 0
    ensures RejectionMessages(rs) == RejectionMessages(rs[..|rs| - 1]) + FileMessages(rs[|rs| - 1])
    ensures ErrorCount(rs) == ErrorCount(rs[..|rs| - 1]) + |rs[|rs| - 1].errors|
  {
  }

  lemma {:induction false} MessageCount(rs: seq<Rejection>)
    ensures |RejectionMessages(rs)| == ErrorCount(rs)
    decreases |rs|
  {
    if |rs| > 0 {
      MessageCount(rs[..|rs| - 1]);
    }
  }

  /**
   * One message per (file, error) pair, in order: the `j`th error of the
   * `i`th file sits after all errors of the files before it.
   */
  lemma OneMessagePerError(rs: seq<Rejection>, i: nat, j: nat)
    requires i < |rs| && j < |rs[i].errors|
    ensures var m := RejectionMessages(rs);
      var f := FormatRejectionError(rs[i].fileName, rs[i].errors[j].code, rs[i].errors[j].message);
      ErrorCount(rs[..i]) + j < |m| && m[ErrorCount(rs[..i]) + j] == ValidationError(f.message, rs[i].fileName)
  {
    MessageAt(rs, i, j);
    FileMessageAt(rs[i], j);
  }

  /** The `j`th message of one file is its `j`th error, formatted, with the file name as details. */
  lemma FileMessageAt(r: Rejection, j: nat)
    requires j < |r.errors|
    ensures var f := FormatRejectionError(r.fileName, r.errors[j].code, r.errors[j].message);
      FileMessages(r)[j] == ValidationError(f.message, r.fileName)
  {
  }

  /** The file's messages sit after the messages of the files before it. */
  lemma MessageAt(rs: seq<Rejection>, i: nat, j: nat)
    requires i < |rs| && j < |rs[i].errors|
    ensures ErrorCount(rs[..i]) + j < |RejectionMessages(rs)|
    ensures RejectionMessages(rs)[ErrorCount(rs[..i]) + j] == FileMessages(rs[i])[j]
  {
    var front, b := rs[..i + 1], rs[i + 1..];
    assert front + b == rs;
    RejectionMessagesAppend(front, b);
    assert front[..i] == rs[..i] && front[i] == rs[i];
    var ma, fm, mb := RejectionMessages(rs[..i]), FileMessages(rs[i]), RejectionMessages(b);
    assert RejectionMessages(front) == ma + fm;
    MessageCount(rs[..i]);
    assert RejectionMessages(rs) == (ma + fm) + mb;
    assert (ma + fm + mb)[|ma| + j] == fm[j];
  }

  /**
   * `handleRejections`: the formatted message of every error of every file;
   * `addErrors` receives them only when there is at least one.
   */
  method HandleRejections(rs: seq<Rejection>) returns (messages: seq<ValidationError>, added: Option<seq<ValidationError>>)
    ensures messages == RejectionMessages(rs)
    ensures added.Some? <==> |messages| > 0
    ensures added.Some? ==> added.value == messages
  {
    messages := [];
    var i := 0;
    while i < |rs|
      invariant 0 <= i <= |rs|
      invariant messages == RejectionMessages(rs[..i])
    {
      var r := rs[i];
      var j := 0;
      while j < |r.errors|
        invariant 0 <= j <= |r.errors|
        invariant messages == RejectionMessages(rs[..i]) + FileMessages(r)[..j]
      {
        var formatted := FormatRejectionError(r.fileName, r.errors[j].code, r.errors[j].message);
        messages := messages + [ValidationError(formatted.message, formatted.details)];
        assert FileMessages(r)[..j + 1] == FileMessages(r)[..j] + [FileMessages(r)[j]];
        j := j + 1;
      }
      assert FileMessages(r)[..j] == FileMessages(r);
      assert rs[..i + 1][..i] == rs[..i];
      i := i + 1;
    }
    assert rs[..i] == rs;
    added := if |messages| > 0 then Some(messages) else None;
  }

  datatype DropEffect =
    | ClearErrors
    | ScheduleRejections(rejections: seq<Rejection>)
    | AddFiles(files: seq<string>)
    | CustomDrop(accepted: seq<string>, rejections: seq<Rejection>)

  /**
   * The drop handler, as the calls it makes in order: a custom `onDrop`
   * replaces it; the default one clears errors, schedules the rejections
   * (handled 50 ms later) and adds the accepted files, each only when there
   * are any. Files are named by their names.
   */
  function HandleDrop(customDrop: bool, accepted: seq<string>, rejections: seq<Rejection>): (r: seq<DropEffect>)
    ensures customDrop ==> r == [CustomDrop(accepted, rejections)]
    ensures !customDrop ==> |r| >= 1 && r[0] == ClearErrors
    ensures !customDrop ==> (AddFiles(accepted) in r <==> |accepted| > 0)
    ensures !customDrop ==> (ScheduleRejections(rejections) in r <==> |rejections| > 0)
    ensures !customDrop && |accepted| > 0 ==> r[|r| - 1] == AddFiles(accepted)
    ensures forall k :: 0 <= k < |r| && r[k].AddFiles? ==> |r[k].files| > 0
  {
    if customDrop then [CustomDrop(accepted, rejections)]
    else
      [ClearErrors]
      + (if |rejections| > 0 then [ScheduleRejections(rejections)] else [])
      + (if |accepted| > 0 then [AddFiles(accepted)] else [])
  }

  // ---------------------------------------------------------------------------
  // Header
  // ---------------------------------------------------------------------------

  /** The extensions of consecutive entries follow one another, in entry order. */
  lemma {:induction false} ExtensionsAppend(a: Accept, b: Accept)
    ensures Extensions(a + b) == Extensions(a) + Extensions(b)
    decreases |a|
  {
    if |a| > 0 {
      assert (a + b)[1..] == a[1..] + b;
      ExtensionsAppend(a[1..], b);
    } else {
      assert a + b == b;
    }
  }

  /** The list of `accept` entries: each key followed by its extensions. */
  function AcceptParts(a: Accept): (r: seq<string>)
    ensures |r| == |a| + |Extensions(a)|
  {
    if |a| == 0 then [] else [a[0].0] + a[0].1 + AcceptParts(a[1..])
  }

  /** Entries contribute their parts in order: each key and then its extensions. */
  lemma {:induction false} AcceptPartsAppend(a: Accept, b: Accept)
    ensures AcceptParts(a + b) == AcceptParts(a) + AcceptParts(b)
    ensures |a| == 1 ==> AcceptParts(a) == [a[0].0] + a[0].1
    decreases |a|
  {
    if |a| > 0 {
      assert (a + b)[1..] == a[1..] + b;
      AcceptPartsAppend(a[1..], b);
      assert |a| == 1 ==> a[1..] == [];
    } else {
      assert a + b == b;
    }
  }

  /** `acceptToString`: the input's `accept` attribute, comma-joined. */
  function AcceptToString(accept: Option<Accept>): (r: Option<string>)
    ensures r.None? <==> accept.None?
    ensures accept.Some? ==> forall k :: 0 <= k < |accept.value| ==> Contains(r.value, accept.value[k].0)
  {
    match accept
    case None => None
    case Some(a) =>
      var parts := AcceptParts(a);
      assert forall k :: 0 <= k < |a| ==> Contains(Join(parts, ","), a[k].0) by {
        forall k | 0 <= k < |a|
          ensures Contains(Join(parts, ","), a[k].0)
        {
          var at := KeyPosition(a, k);
          JoinContains(parts, ",", at);
        }
      }
      Some(Join(parts, ","))
  }

  /** Where the `k`th key sits in the parts list. */
  function KeyPosition(a: Accept, k: nat): (p: nat)
    requires k < |a|
    ensures p < |AcceptParts(a)| && AcceptParts(a)[p] == a[k].0
  {
    if k == 0 then 0
    else
      var p := KeyPosition(a[1..], k - 1);
      assert AcceptParts(a) == ([a[0].0] + a[0].1) + AcceptParts(a[1..]);
      1 + |a[0].1| + p
  }

  lemma {:induction false} AcceptPartsAvoid(a: Accept, c: char)
    requires forall k :: 0 <= k < |a| ==> c !in a[k].0
    requires forall k, j :: 0 <= k < |a| && 0 <= j < |a[k].1| ==> c !in a[k].1[j]
    ensures forall i :: 0 <= i < |AcceptParts(a)| ==> c !in AcceptParts(a)[i]
    decreases |a|
  {
    if |a| > 0 {
      var tail := a[1..];
      assert forall k :: 0 <= k < |tail| ==> tail[k] == a[k + 1];
      AcceptPartsAvoid(tail, c);
      var parts := AcceptParts(a);
      var rest := AcceptParts(tail);
      var head := [a[0].0] + a[0].1;
      assert parts == head + rest;
      assert forall i :: 0 <= i < |head| ==> c !in head[i] by {
        forall i | 0 <= i < |head|
          ensures c !in head[i]
        {
          if i > 0 {
            assert head[i] == a[0].1[i - 1];
          }
        }
      }
      forall i | 0 <= i < |parts|
        ensures c !in parts[i]
      {
        if i < |head| {
          assert parts[i] == head[i];
        } else {
          assert parts[i] == rest[i - |head|];
        }
      }
    }
  }

  /** With no comma inside keys or extensions, the attribute splits back into the parts. */
  lemma AcceptToStringSplits(a: Accept)
    requires |a| > 0
    requires forall k :: 0 <= k < |a| ==> ',' !in a[k].0
    requires forall k, j :: 0 <= k < |a| && 0 <= j < |a[k].1| ==> ',' !in a[k].1[j]
    ensures Split(AcceptToString(Some(a)).value, ',') == AcceptParts(a)
  {
    AcceptPartsAvoid(a, ',');
    SplitJoin(AcceptParts(a), ',');
  }

  /** The header's props; an absent one takes its default. */
  datatype HeaderProps = HeaderProps(
    title: Option<string>,
    showAddButton: Option<bool>,
    showClearButton: Option<bool>,
    addButtonText: Option<string>,
    clearButtonText: Option<string>)

  /** What the header renders: heading, file input settings, and the two buttons (text, disabled). */
  datatype HeaderView = HeaderView(
    heading: string,
    multiple: bool,
    inputAccept: Option<string>,
    addButton: Option<(string, bool)>,
    clearButton: Option<string>)

  /** `Header`: nothing without files; the add button is disabled once no more files fit. */
  function Header(props: HeaderProps, fileCount: nat, configMaxFiles: Option<int>, configAccept: Option<Accept>, canAcceptMore: bool)
    : (r: Option<HeaderView>)
    ensures r.None? <==> fileCount == 0
    ensures r.Some? ==>
      && (r.value.multiple <==> configMaxFiles.GetOr(DefaultMaxFiles) > 1)
      && r.value.inputAccept == AcceptToString(configAccept)
      && (r.value.addButton.Some? <==> props.showAddButton != Some(false))
      && (r.value.addButton.Some? ==> (r.value.addButton.value.1 <==> !canAcceptMore))
      && (r.value.clearButton.Some? <==> props.showClearButton != Some(false))
      && StartsWith(r.value.heading, props.title.GetOr("Files"))
      && EndsWith(r.value.heading, " (" + NatToString(fileCount) + ")")
  {
    if fileCount == 0 then None
    else
      var title := props.title.GetOr("Files");
      var heading := title + " (" + NatToString(fileCount) + ")";
      assert heading == title + (" (" + NatToString(fileCount) + ")");
      Some(HeaderView(
        heading,
        configMaxFiles.GetOr(DefaultMaxFiles) > 1,
        AcceptToString(configAccept),
        if props.showAddButton.GetOr(true) then Some((props.addButtonText.GetOr("Add files"), !canAcceptMore)) else None,
        if props.showClearButton.GetOr(true) && fileCount > 0 then Some(props.clearButtonText.GetOr("Remove all")) else None))
  }

  datatype InputChange = InputChange(addFiles: Option<seq<string>>, inputValue: string)

  /** `handleFileInputChange`: hands a non-empty selection to `addFiles`, then always clears the input. */
  function HandleFileInputChange(selection: Option<seq<string>>): (r: InputChange)
    ensures r.inputValue == ""
    ensures r.addFiles.Some? <==> selection.Some? && |selection.value| > 0
    ensures r.addFiles.Some? ==> r.addFiles.value == selection.value
  {
    var newFiles := selection.GetOr([]);
    InputChange(if |newFiles| > 0 then Some(newFiles) else None, "")
  }

  // ---------------------------------------------------------------------------
  // List
  // ---------------------------------------------------------------------------

  datatype Icon = DocumentIcon | ArchiveIcon | SpreadsheetIcon | VideoIcon | AudioIcon | ImageIcon | GenericIcon

  /** The position of an icon in the order the tests are tried. */
  function Rank(icon: Icon): nat {
    match icon
    case DocumentIcon => 0
    case ArchiveIcon => 1
    case SpreadsheetIcon => 2
    case VideoIcon => 3
    case AudioIcon => 4
    case ImageIcon => 5
    case GenericIcon => 6
  }

  /** Whether a file of this type and name qualifies for an icon, taken on its own. */
  predicate Qualifies(icon: Icon, mimeType: string, name: string) {
    match icon
    case DocumentIcon =>
      Contains(mimeType, "pdf") || EndsWith(name, ".pdf") || Contains(mimeType, "word")
      || EndsWith(name, ".doc") || EndsWith(name, ".docx")
    case ArchiveIcon =>
      Contains(mimeType, "zip") || Contains(mimeType, "archive") || EndsWith(name, ".zip") || EndsWith(name, ".rar")
    case SpreadsheetIcon => Contains(mimeType, "excel") || EndsWith(name, ".xls") || EndsWith(name, ".xlsx")
    case VideoIcon => Contains(mimeType, "video/")
    case AudioIcon => Contains(mimeType, "audio/")
    case ImageIcon => StartsWith(mimeType, ImagePrefix)
    case GenericIcon => true
  }

  /** `getFileIcon`: the first icon, in precedence order, the file qualifies for. */
  function FileIcon(mimeType: string, name: string): (r: Icon)
    ensures Qualifies(r, mimeType, name)
    ensures forall other :: Rank(other) < Rank(r) ==> !Qualifies(other, mimeType, name)
  {
    if Contains(mimeType, "pdf") || EndsWith(name, ".pdf") || Contains(mimeType, "word")
      || EndsWith(name, ".doc") || EndsWith(name, ".docx") then DocumentIcon
    else if Contains(mimeType, "zip") || Contains(mimeType, "archive")
      || EndsWith(name, ".zip") || EndsWith(name, ".rar") then ArchiveIcon
    else if Contains(mimeType, "excel") || EndsWith(name, ".xls") || EndsWith(name, ".xlsx") then SpreadsheetIcon
    else if Contains(mimeType, "video/") then VideoIcon
    else if Contains(mimeType, "audio/") then AudioIcon
    else if StartsWith(mimeType, ImagePrefix) then ImageIcon
    else GenericIcon
  }

  /** A status line's text and whether it is drawn in the destructive colour. */
  datatype StatusLine = StatusLine(text: string, destructive: bool)

  /**
   * `getStatusDisplay`. `round` is `Math.round`; an uploading file shows a
   * percentage only once its progress is non-zero.
   */
  function StatusDisplay(f: FileUpload, formatBytes: int -> string, round: real -> int): (r: StatusLine)
    ensures r.destructive <==> f.status == Failed
    ensures f.status == Pending ==> r.text == "Queued"
    ensures f.status == Uploading ==> StartsWith(r.text, "Uploading ") && (r.text == "Uploading " <==> f.progress == 0.0)
    ensures f.status == Complete ==> r.text == formatBytes(f.size)
    ensures f.status == Failed && f.error != "" ==> r.text == f.error
    ensures f.status == Failed && f.error == "" ==> r.text == "Upload failed"
  {
    match f.status
    case Pending => StatusLine("Queued", false)
    case Uploading =>
      StatusLine("Uploading " + (if f.progress != 0.0 then IntToString(round(f.progress)) + "%" else ""), false)
    case Complete => StatusLine(formatBytes(f.size), false)
    case Failed => StatusLine(if f.error != "" then f.error else "Upload failed", true)
  }

  /** The progress the preview draws: none while queued. */
  function PreviewProgress(f: FileUpload): (r: real)
    ensures f.status == Pending ==> r == 0.0
    ensures f.status != Pending ==> r == f.progress
  {
    if f.status == Pending then 0.0 else f.progress
  }

  datatype RowAction = Retry(sha256: string) | Remove(sha256: string)

  /** One row of the list: its React key, dimming, highlight, status line and action buttons. */
  datatype Row = Row(key: string, name: string, dimmed: bool, highlighted: bool, status: StatusLine, actions: seq<RowAction>)

  function FileRow(f: FileUpload, showActions: bool, formatBytes: int -> string, round: real -> int): Row {
    Row(f.sha256, f.name, f.status == Pending, f.duplicateAlert, StatusDisplay(f, formatBytes, round),
      if !showActions then []
      else if f.status == Failed then [Retry(f.sha256), Remove(f.sha256)]
      else [Remove(f.sha256)])
  }

  /**
   * `List`: nothing without files, else one row per file in order, keyed by
   * digest; retry only for failed uploads; every action names the file by
   * its digest.
   */
  function List(files: seq<FileUpload>, showActions: Option<bool>, formatBytes: int -> string, round: real -> int)
    : (r: Option<seq<Row>>)
    ensures r.None? <==> |files| == 0
    ensures r.Some? ==> |r.value| == |files|
    ensures r.Some? ==> forall i :: 0 <= i < |files| ==>
      && r.value[i].key == files[i].sha256
      && (r.value[i].dimmed <==> files[i].status == Pending)
      && (forall a :: a in r.value[i].actions ==> a.sha256 == files[i].sha256)
      && (Retry(files[i].sha256) in r.value[i].actions <==> showActions != Some(false) && files[i].status == Failed)
      && (Remove(files[i].sha256) in r.value[i].actions <==> showActions != Some(false))
  {
    if |files| == 0 then None
    else
      var show := showActions.GetOr(true);
      Some(seq(|files|, i requires 0 <= i < |files| => FileRow(files[i], show, formatBytes, round)))
  }
}

=== FILE: upload_list.dfy ===
/**
 * The stand-alone file list: its icon choice, status line, preview progress
 * and rows repeat the all-in-one upload file's, and each is shown to agree
 * with the definition in `UploadHelpers`.
 */
module UploadList {
  import opened Text
  import opened UploadFile
  import UploadHelpers

  function FileIcon(mimeType: string, name: string): (r: UploadHelpers.Icon)
    ensures r == UploadHelpers.FileIcon(mimeType, name)
  {
    if Contains(mimeType, "pdf") || EndsWith(name, ".pdf") || Contains(mimeType, "word")
      || EndsWith(name, ".doc") || EndsWith(name, ".docx") then UploadHelpers.DocumentIcon
    else if Contains(mimeType, "zip") || Contains(mimeType, "archive")
      || EndsWith(name, ".zip") || EndsWith(name, ".rar") then UploadHelpers.ArchiveIcon
    else if Contains(mimeType, "excel") || EndsWith(name, ".xls") || EndsWith(name, ".xlsx") then UploadHelpers.SpreadsheetIcon
    else if Contains(mimeType, "video/") then UploadHelpers.VideoIcon
    else if Contains(mimeType, "audio/") then UploadHelpers.AudioIcon
    else if StartsWith(mimeType, "image/") then UploadHelpers.ImageIcon
    else UploadHelpers.GenericIcon
  }

  function StatusDisplay(f: FileUpload, formatBytes: int -> string, round: real -> int): (r: UploadHelpers.StatusLine)
    ensures r == UploadHelpers.StatusDisplay(f, formatBytes, round)
  {
    match f.status
    case Pending => UploadHelpers.StatusLine("Queued", false)
    case Uploading =>
      UploadHelpers.StatusLine("Uploading " + (if f.progress != 0.0 then IntToString(round(f.progress)) + "%" else ""), false)
    case Complete => UploadHelpers.StatusLine(formatBytes(f.size), false)
    case Failed => UploadHelpers.StatusLine(if f.error != "" then f.error else "Upload failed", true)
  }

  /** The progressive-reveal preview's progress. */
  function PreviewProgress(f: FileUpload): (r: real)
    ensures r == UploadHelpers.PreviewProgress(f)
  {
    if f.status == Pending then 0.0 else f.progress
  }

  function List(files: seq<FileUpload>, showActions: Option<bool>, formatBytes: int -> string, round: real -> int)
    : (r: Option<seq<UploadHelpers.Row>>)
    ensures r == UploadHelpers.List(files, showActions, formatBytes, round)
  {
    if |files| == 0 then None
    else
      var show := showActions.GetOr(true);
      var rows := seq(|files|, i requires 0 <= i < |files| =>
        var f := files[i];
        UploadHelpers.Row(f.sha256, f.name, f.status == Pending, f.duplicateAlert, StatusDisplay(f, formatBytes, round),
          if !show then []
          else if f.status == Failed then [UploadHelpers.Retry(f.sha256), UploadHelpers.Remove(f.sha256)]
          else [UploadHelpers.Remove(f.sha256)]));
      assert forall i :: 0 <= i < |files| ==> rows[i] == UploadHelpers.FileRow(files[i], show, formatBytes, round);
      assert rows == UploadHelpers.List(files, showActions, formatBytes, round).value;
      Some(rows)
  }
}

=== FILE: validation.dfy ===
/**
 * The subset of Laravel's request validation the controllers use: scalar
 * fields at the top of the body, and one list of records whose fields each
 * carry a rule (`list.*.field`). Every rule here starts with `required`.
 */
module Validation {
  import opened Text
  import opened JsonValue

  /** The rule chains that appear after `required|`. */
  datatype Rule =
    | StringRule(maxLength: Option<nat>)               // string[|max:n]
    | IntegerRule(min: Option<int>, max: Option<int>)  // integer[|min:a][|max:b]
    | PatternRule(matches: string -> bool)             // string|regex:...

  /** The attribute an error is reported under: `name` or `list.index.field`. */
  datatype Attribute = Field(name: string) | ItemField(list: string, index: nat, field: string)

  /** `required`: present, not null, not a blank string, not an empty array. */
  predicate Required(v: Option<Json>) {
    match v
    case None => false
    case Some(JNull) => false
    case Some(JStr(s)) => !IsBlank(s)
    case Some(JArr(items)) => |items| > 0
    case Some(JObj(fields)) => |fields| > 0
    case Some(_) => true
  }

  /** A decimal integer literal `FILTER_VALIDATE_INT` accepts: optional sign, no leading zeros. */
  function DecimalInt(s: string): (r: Option<int>)
    ensures r.Some? ==> |s| >= 1 && IsDigit(s[|s| - 1])
  {
    var sign := if |s| > 0 && (s[0] == '-' || s[0] == '+') then 1 else 0;
    var digits := s[sign..];
    if |digits| == 0 || !(forall i :: 0 <= i < |digits| ==> IsDigit(digits[i])) then None
    else if |digits| > 1 && digits[0] == '0' then None
    else if sign == 1 && s[0] == '-' then Some(0 - DigitsValue(digits))
    else Some(DigitsValue(digits))
  }

  /** PHP's 64-bit integer range. */
  const PhpIntMax: int := 9223372036854775807
  const PhpIntMin: int := -PhpIntMax - 1

  /** The characters `FILTER_VALIDATE_INT` trims from both ends: space, tab, carriage return, vertical tab, newline. */
  predicate IsFilterSpace(c: char) {
    c == ' ' || c == '\t' || c == '\r' || c == '\U{000B}' || c == '\n'
  }

  function TrimFilterStart(s: string): (r: string)
    ensures |r| <= |s| && r == s[|s| - |r|..]
    ensures forall k :: 0 <= k < |s| - |r| ==> IsFilterSpace(s[k])
    ensures |r| > 0 ==> !IsFilterSpace(r[0])
    decreases |s|
  {
    if |s| > 0 && IsFilterSpace(s[0]) then TrimFilterStart(s[1..]) else s
  }

  function TrimFilterEnd(s: string): (r: string)
    ensures |r| <= |s| && r == s[..|r|]
    ensures forall k :: |r| <= k < |s| ==> IsFilterSpace(s[k])
    ensures |r| > 0 ==> !IsFilterSpace(r[|r| - 1])
    decreases |s|
  {
    if |s| > 0 && IsFilterSpace(s[|s| - 1]) then TrimFilterEnd(s[..|s| - 1]) else s
  }

  /** The text the filter reads a string as: trimmed at both ends. */
  function FilterTrim(s: string): string {
    TrimFilterEnd(TrimFilterStart(s))
  }

  function InPhpRange(n: int): (r: Option<int>)
    ensures r.Some? <==> PhpIntMin <= n <= PhpIntMax
    ensures r.Some? ==> r.value == n
  {
    if PhpIntMin <= n <= PhpIntMax then Some(n) else None
  }

  /**
   * `integer`: the value `FILTER_VALIDATE_INT` produces, if any. The filter
   * reads its input as text, so `true` is "1" and `false` is the empty
   * string; a string is trimmed first; and a value outside PHP's 64-bit
   * range fails (a JSON number that large is decoded as a float, whose text
   * carries an exponent). For a value that passes, the size `min` and `max`
   * compare is this same integer.
   */
  function IntegerValue(v: Json): (r: Option<int>)
    ensures r.Some? ==> PhpIntMin <= r.value <= PhpIntMax
  {
    match v
    case JNum(n) => InPhpRange(n)
    case JBool(b) => if b then Some(1) else None
    case JStr(s) =>
      (match DecimalInt(FilterTrim(s))
       case Some(n) => InPhpRange(n)
       case None => None)
    case _ => None
  }

  /** Spaces, tabs and line breaks around the filter's text are dropped. */
  lemma {:induction false} TrimFilterStartSkips(pre: string, t: string)
    requires forall k :: 0 <= k < |pre| ==> IsFilterSpace(pre[k])
    requires |t| > 0 && !IsFilterSpace(t[0])
    ensures TrimFilterStart(pre + t) == t
    decreases |pre|
  {
    if |pre| == 0 {
      assert pre + t == t;
    } else {
      assert (pre + t)[0] == pre[0];
      assert (pre + t)[1..] == pre[1..] + t;
      TrimFilterStartSkips(pre[1..], t);
    }
  }

  lemma {:induction false} TrimFilterEndSkips(t: string, post: string)
    requires forall k :: 0 <= k < |post| ==> IsFilterSpace(post[k])
    requires |t| > 0 && !IsFilterSpace(t[|t| - 1])
    ensures TrimFilterEnd(t + post) == t
    decreases |post|
  {
    if |post| == 0 {
      assert t + post == t;
    } else {
      assert (t + post)[|t + post| - 1] == post[|post| - 1];
      assert (t + post)[..|t + post| - 1] == t + post[..|post| - 1];
      TrimFilterEndSkips(t, post[..|post| - 1]);
    }
  }

  lemma FilterTrimOfPadded(pre: string, t: string, post: string)
    requires forall k :: 0 <= k < |pre| ==> IsFilterSpace(pre[k])
    requires forall k :: 0 <= k < |post| ==> IsFilterSpace(post[k])
    requires |t| > 0 && !IsFilterSpace(t[0]) && !IsFilterSpace(t[|t| - 1])
    ensures FilterTrim(pre + t + post) == t
  {
    assert pre + t + post == pre + (t + post);
    TrimFilterStartSkips(pre, t + post);
    TrimFilterEndSkips(t, post);
  }

  /**
   * The decimal text of any integer PHP can hold passes `integer` with its
   * value, whatever spaces, tabs and line breaks surround it.
   */
  lemma IntegerValueOfPaddedText(n: nat, pre: string, post: string)
    requires n <= PhpIntMax
    requires forall k :: 0 <= k < |pre| ==> IsFilterSpace(pre[k])
    requires forall k :: 0 <= k < |post| ==> IsFilterSpace(post[k])
    ensures IntegerValue(JStr(pre + NatToString(n) + post)) == Some(n)
  {
    var t := NatToString(n);
    DecimalIntOfNat(n);
    FilterTrimOfPadded(pre, t, post);
  }

  /** Beyond PHP's range neither the number nor its decimal text passes. */
  lemma IntegerValueBeyondRange(n: nat)
    requires n > PhpIntMax
    ensures IntegerValue(JNum(n)) == None && IntegerValue(JNum(-(n as int) - 1)) == None
    ensures IntegerValue(JStr(NatToString(n))) == None
  {
    DecimalIntOfNat(n);
    FilterTrimOfDigits(NatToString(n));
  }

  /** Text that starts and ends with a digit is read as it is. */
  lemma FilterTrimOfDigits(t: string)
    requires |t| > 0 && IsDigit(t[0]) && IsDigit(t[|t| - 1])
    ensures FilterTrim(t) == t
  {
    assert !IsFilterSpace(t[0]) && !IsFilterSpace(t[|t| - 1]);
    FilterTrimOfPadded("", t, "");
    assert "" + t + "" == t;
  }

  /** `true` reads as 1 and `false` fails. */
  lemma IntegerValueOfBool(b: bool)
    ensures IntegerValue(JBool(b)) == (if b then Some(1) else None)
  {
  }

  lemma DecimalIntOfNat(n: nat)
    ensures DecimalInt(NatToString(n)) == Some(n)
  {
    var s := NatToString(n);
    assert s[0..] == s;
    DigitsValueOfNatToString(n);
    if n == 0 {
      NatToStringZero();
    }
  }

  lemma NatToStringZero()
    ensures NatToString(0) == "0"
  {
  }

  /** Whether one field's value passes its rule chain. */
  predicate FieldPasses(v: Option<Json>, rule: Rule) {
    Required(v) &&
    match rule
    case StringRule(maxLength) =>
      v.value.JStr? && (maxLength.None? || |v.value.s| <= maxLength.value)
    case IntegerRule(min, max) =>
      var n := IntegerValue(v.value);
      n.Some? && (min.None? || n.value >= min.value) && (max.None? || n.value <= max.value)
    case PatternRule(matches) =>
      v.value.JStr? && matches(v.value.s)
  }

  /** `required|array|min:1` on the list itself. */
  predicate ListPasses(v: Option<Json>) {
    Required(v) && v.value.JArr?
  }

  /** Whether one record passes every field rule. */
  predicate ItemPasses(item: Json, rules: seq<(string, Rule)>) {
    forall k :: 0 <= k < |rules| ==> FieldPasses(Get(item, rules[k].0), rules[k].1)
  }

  /** Everything the rules demand of a body. */
  predicate Valid(body: Json, top: seq<(string, Rule)>, list: string, itemRules: seq<(string, Rule)>) {
    && (forall k :: 0 <= k < |top| ==> FieldPasses(Get(body, top[k].0), top[k].1))
    && ListPasses(Get(body, list))
    && (forall i :: 0 <= i < |Get(body, list).value.items| ==> ItemPasses(Get(body, list).value.items[i], itemRules))
  }

  function TopErrors(body: Json, top: seq<(string, Rule)>): (r: seq<Attribute>)
    ensures forall a :: a in r ==> a.Field?
    ensures forall name :: Field(name) in r <==>
      exists k :: 0 <= k < |top| && top[k].0 == name && !FieldPasses(Get(body, name), top[k].1)
  {
    if |top| == 0 then []
    else
      var rest := TopErrors(body, top[1..]);
      assert forall name :: Field(name) in rest <==>
        exists k :: 1 <= k < |top| && top[k].0 == name && !FieldPasses(Get(body, name), top[k].1) by {
        forall name
          ensures Field(name) in rest ==>
            exists k :: 1 <= k < |top| && top[k].0 == name && !FieldPasses(Get(body, name), top[k].1)
        {
          if Field(name) in rest {
            var k :| 0 <= k < |top[1..]| && top[1..][k].0 == name && !FieldPasses(Get(body, name), top[1..][k].1);
            assert top[k + 1] == top[1..][k];
          }
        }
      }
      if FieldPasses(Get(body, top[0].0), top[0].1) then rest else [Field(top[0].0)] + rest
  }

  function ItemErrors(list: string, index: nat, item: Json, rules: seq<(string, Rule)>): (r: seq<Attribute>)
    ensures forall a :: a in r ==> a.ItemField? && a.list == list && a.index == index
    ensures forall f :: ItemField(list, index, f) in r <==>
      exists k :: 0 <= k < |rules| && rules[k].0 == f && !FieldPasses(Get(item, f), rules[k].1)
  {
    if |rules| == 0 then []
    else
      var rest := ItemErrors(list, index, item, rules[1..]);
      assert forall f :: ItemField(list, index, f) in rest <==>
        exists k :: 1 <= k < |rules| && rules[k].0 == f && !FieldPasses(Get(item, f), rules[k].1) by {
        forall f
          ensures ItemField(list, index, f) in rest ==>
            exists k :: 1 <= k < |rules| && rules[k].0 == f && !FieldPasses(Get(item, f), rules[k].1)
        {
          if ItemField(list, index, f) in rest {
            var k :| 0 <= k < |rules[1..]| && rules[1..][k].0 == f && !FieldPasses(Get(item, f), rules[1..][k].1);
            assert rules[k + 1] == rules[1..][k];
          }
        }
      }
      if FieldPasses(Get(item, rules[0].0), rules[0].1) then rest else [ItemField(list, index, rules[0].0)] + rest
  }

  /** Errors of `items`, the first of which sits at position `from` of the list. */
  function ListErrors(list: string, from: nat, items: seq<Json>, rules: seq<(string, Rule)>): (r: seq<Attribute>)
    ensures forall a :: a in r ==> a.ItemField? && a.list == list && from <= a.index < from + |items|
    ensures forall i, f :: from <= i < from + |items| ==>
      (ItemField(list, i, f) in r <==> ItemField(list, i, f) in ItemErrors(list, i, items[i - from], rules))
    ensures r == [] <==> forall i :: 0 <= i < |items| ==> ItemPasses(items[i], rules)
    decreases |items|
  {
    if |items| == 0 then []
    else
      var head := ItemErrors(list, from, items[0], rules);
      var rest := ListErrors(list, from + 1, items[1..], rules);
      ListErrorsStep(list, from, items, rules, head, rest);
      head + rest
  }

  /** The errors of the first item followed by those of the others are the errors of the whole list. */
  lemma ListErrorsStep(list: string, from: nat, items: seq<Json>, rules: seq<(string, Rule)>, head: seq<Attribute>, rest: seq<Attribute>)
    requires |items| > 0
    requires head == ItemErrors(list, from, items[0], rules)
    requires forall a :: a in rest ==> a.ItemField? && a.list == list && from + 1 <= a.index < from + |items|
    requires forall i, f :: from + 1 <= i < from + |items| ==>
      (ItemField(list, i, f) in rest <==> ItemField(list, i, f) in ItemErrors(list, i, items[1..][i - (from + 1)], rules))
    requires rest == [] <==> forall i :: 0 <= i < |items[1..]| ==> ItemPasses(items[1..][i], rules)
    ensures forall a :: a in head + rest ==> a.ItemField? && a.list == list && from <= a.index < from + |items|
    ensures forall i, f :: from <= i < from + |items| ==>
      (ItemField(list, i, f) in head + rest <==> ItemField(list, i, f) in ItemErrors(list, i, items[i - from], rules))
    ensures head + rest == [] <==> forall i :: 0 <= i < |items| ==> ItemPasses(items[i], rules)
  {
    assert head == [] <==> ItemPasses(items[0], rules) by {
      if head != [] {
        assert head[0] in head;
      }
    }
    if ItemPasses(items[0], rules) && rest == [] {
      forall i | 0 <= i < |items|
        ensures ItemPasses(items[i], rules)
      {
        if i > 0 {
          assert items[i] == items[1..][i - 1];
        }
      }
    }
    if forall i :: 0 <= i < |items| ==> ItemPasses(items[i], rules) {
      assert ItemPasses(items[0], rules);
      forall i | 0 <= i < |items[1..]|
        ensures ItemPasses(items[1..][i], rules)
      {
        assert items[1..][i] == items[i + 1];
      }
    }
    forall i, f | from <= i < from + |items|
      ensures ItemField(list, i, f) in head + rest <==> ItemField(list, i, f) in ItemErrors(list, i, items[i - from], rules)
    {
      if i == from {
        assert ItemField(list, i, f) !in rest;
      } else {
        assert items[i - from] == items[1..][i - (from + 1)];
        assert ItemField(list, i, f) !in head;
      }
    }
  }

  /**
   * Every failing attribute, item by item: the top-level fields, then each
   * entry's fields in turn (Laravel lists them rule by rule instead; only
   * the set of attributes is promised here).
   */
  function Errors(body: Json, top: seq<(string, Rule)>, list: string, itemRules: seq<(string, Rule)>): seq<Attribute>
  {
    TopErrors(body, top)
      + if ListPasses(Get(body, list))
        then ListErrors(list, 0, Get(body, list).value.items, itemRules)
        else [Field(list)]
  }

  /** `$request->validate(...)`: the body back when it passes, every failing attribute otherwise. */
  function Validate(body: Json, top: seq<(string, Rule)>, list: string, itemRules: seq<(string, Rule)>)
    : (r: Result<Json, seq<Attribute>>)
    ensures r.Ok? <==> Valid(body, top, list, itemRules)
    ensures r.Ok? ==> r.value == body
    ensures r.Err? ==> |r.error| > 0
  {
    var errors := Errors(body, top, list, itemRules);
    ErrorsEmptyIffValid(body, top, list, itemRules);
    if errors == [] then Ok(body) else Err(errors)
  }

  lemma ErrorsEmptyIffValid(body: Json, top: seq<(string, Rule)>, list: string, itemRules: seq<(string, Rule)>)
    ensures Errors(body, top, list, itemRules) == [] <==> Valid(body, top, list, itemRules)
  {
    var te := TopErrors(body, top);
    if te != [] {
      assert te[0] in te;
      var k :| 0 <= k < |top| && top[k].0 == te[0].name && !FieldPasses(Get(body, te[0].name), top[k].1);
    } else {
      forall k | 0 <= k < |top|
        ensures FieldPasses(Get(body, top[k].0), top[k].1)
      {
        assert Field(top[k].0) !in te;
      }
    }
  }

  /** The errors name exactly the failing attributes: the top fields, the list, and the records' fields. */
  lemma ErrorsExact(body: Json, top: seq<(string, Rule)>, list: string, itemRules: seq<(string, Rule)>, i: nat, f: string)
    requires forall k :: 0 <= k < |top| ==> top[k].0 != list
    ensures Field(list) in Errors(body, top, list, itemRules) <==> !ListPasses(Get(body, list))
    ensures ItemField(list, i, f) in Errors(body, top, list, itemRules) <==>
      && ListPasses(Get(body, list))
      && i < |Get(body, list).value.items|
      && exists k :: 0 <= k < |itemRules| && itemRules[k].0 == f
           && !FieldPasses(Get(Get(body, list).value.items[i], f), itemRules[k].1)
  {
    var te := TopErrors(body, top);
    assert Field(list) !in te;
    if ListPasses(Get(body, list)) {
      var items := Get(body, list).value.items;
      var le := ListErrors(list, 0, items, itemRules);
      if ItemField(list, i, f) in le {
        assert i < |items|;
      }
    }
  }
}
